=== FILE: README.md ===
# OBR extractor, rename heuristics, serial-line renamers and SharePoint links — a Dafny model

This project models the text, list and state logic inside a PyQt office tool for
Philippine budget documents. The tool has four parts, and the model keeps them apart from
OCR, Qt and the filesystem:

- **The OBR extractor and ledger** (`obr_extractor.py`). `ExtractWorker.run` turns the OCR
  text of each Obligation Request into a table row: file name, serial, date, payee,
  particulars and total amount. It emits one progress event before each file, one result
  or error per file, and a single finished event at the end. Cancellation is checked
  only between files. `PDFExtractor` keeps the ten-column table with:
  - a Balance column derived as Total − Payment − Tax;
  - one synthetic TOTAL row at the bottom;
  - undo and redo stacks of `(row, column, text)` entries, and an edit log;
  - grid paste from the clipboard and `add_row`.
- **The rename page** (`ui_pages/rename_page.py`). This covers:
  - the NCA number, found on the line above a line containing "2067";
  - the SARO number patterns and their priority;
  - the OBR serial (`CA-MOOE…`, `MOOE…`, `PGF…`, `PS…`);
  - the SARO guess list, with `~`/`–` mapped to `-`, the "A-" prefix, de-duplication and at most three guesses;
  - the two folder loops and the summary message they end with.
- **The serial-line renamers** (`core/file_utils.py`, `core/pdf_tools.py`) and their two
  filename sanitisers (`core/pdf_utils.py`, `utils/helpers.py`). The serial is the
  stripped, sanitised text after the last "Serial No." on the first line that holds it,
  trying pages in order. A file is renamed to `serial.pdf` unless that name exists; names are compared exactly.
- **SharePoint link derivation** (`core/sharepoint_tools.py`). This covers:
  - input validation;
  - `site_url` from the `sites/<name>` path segments;
  - the folder path from the `id` parameter or the path;
  - the percent-quoted `base_link`, and one hyperlink per `.pdf` file;
  - logout.

Money is integer cents. `Money.FormatCents` renders `f"{x:,.2f}"`, and
`Money.ParseAmount` reads `float(text.replace(",", "") or 0)` over a decimal grammar.
Every regular expression is a hand-written matcher, `XAt(s, p)`, that says whether the
pattern matches at position `p` and what its group is. Leftmost search (`Text.Search`)
turns a matcher into `re.search`.

Anything the code gets from outside becomes a parameter:
- OCR text, and a page that fails to convert (`ObrWorker.Reading`, `SerialLine.Conversion`);
- dialog answers;
- operating-system errors of a rename;
- the index at which cancel is seen;
- `urlparse`, `parse_qs`, `quote` and `unquote`;
- the token request, the folder listing and the Excel save.

Several surprising behaviours of the code are reproduced as written and proved about
(`ObrFields.PayeeColonQuirk`, `ObrFields.UngroupedAmount`, `SaroGuess.AutoAtTakesFirstDigit`,
`SharePoint.RefusedKeepsOldContext`, `Ledger.RowSums`):
- A line that is exactly `Payee:` gives the payee ":". The optional `[:\-]?` backtracks so that `(.+)` can take the colon.
- The payee label takes only the immediately following line. If that line is blank, scanning goes on.
- An ungrouped amount such as `1234.56` contributes only `234.56` to the fallback sum. The pattern is unanchored.
- "SARO No.123" gives the guess "23". The `.?` after the optional dot swallows the first digit.
- A row whose Payment cell does not parse still adds its Total to the TOTAL row.
- Undo and redo write with signals blocked, so Balance and TOTAL are not recomputed.
- A new edit does not clear the redo stack.
- A manually typed SARO name gets the "A-" prefix only. Its `~` and `–` are not mapped to `-`.
- Refused credentials move `site_url` but keep the previous client context.
- In `extract_pdfs`, the `log_action(... os.listdir(self.folder_path))` call sits inside the `except` branch. It runs only when no recalculation link was connected, and it ends the handler when that folder cannot be listed (`Ledger.Extract`'s `folderPathListed`).

## Model

| member | source | states |
|---|---|---|
| Text.Strip | obr_extractor.py:133 | `str.strip()`: the result has no leading or trailing whitespace and is no longer than the input |
| Text.StripIdempotent | obr_extractor.py:133 | stripping twice is stripping once |
| Text.StripEmptyIffBlank | obr_extractor.py:145 | a line strips to "" exactly when every character is whitespace |
| Text.Split | obr_extractor.py:116 | `str.split(c)`: at least one piece, no piece holds `c`, and joining the pieces with `c` gives the text back |
| Text.SplitJoin | obr_extractor.py:116 | splitting a join of separator-free pieces gives the pieces back (the other half of the round trip) |
| Text.SplitLines | obr_extractor.py:311 | `str.splitlines()`: no piece holds a line boundary, and only the empty text has no lines |
| Text.SplitLinesAt | obr_extractor.py:311 | a boundary-free line followed by one terminator ("\r\n" counted once) is the first piece, and splitting goes on after it |
| Text.SplitLinesJoin | obr_extractor.py:311 | joining boundary-free lines with "\n" and splitting gives the lines back, when the last is not empty |
| Text.AfterLast | core/file_utils.py:35 | `line.split(pat)[-1]`: a suffix of the line that does not contain `pat`, preceded by `pat` when the line contains it, and the whole line otherwise |
| Text.Search | obr_extractor.py:112 | `re.search` from a matcher: None exactly when no position matches, otherwise the match at the first position that matches |
| Text.RunChars | obr_extractor.py:112 | every character a greedy run `c*` takes is in the class (the run's other half: the next character is not) |
| Money.FormatCents | obr_extractor.py:159 | `f"{x:,.2f}"`: a minus sign exactly for a negative amount, a comma-grouped whole part whose digits without commas are the units, a point, and the two cent digits |
| Money.GroupShape | obr_extractor.py:159 | inserting thousands separators gives one to three leading digits, then groups of a comma and three digits |
| Money.UngroupGroup | obr_extractor.py:536 | dropping the commas of a comma-grouped digit string gives the digits back |
| Money.FormatParseRoundTrip | obr_extractor.py:566-571 | reading a rendered amount (commas dropped, `float`) gives the amount back, negative balances included |
| Money.ParseAmount | obr_extractor.py:566 | a cell with nothing but commas reads as 0 (the `or 0` default) |
| ObrFields.LastIndex | obr_extractor.py:110 | the last position holding the character, or None when it does not occur |
| ObrFields.Stem | obr_extractor.py:110 | `os.path.splitext(name)[0]`: a prefix cut at the last dot, kept whole when that dot has only dots before it or there is none |
| ObrFields.GreedyGap | obr_extractor.py:112 | the ends of every way of matching `\s*[:\-]?\s*` from a point are exactly the positions from there to the greedy end |
| ObrFields.DateAt | obr_extractor.py:112 | a match at `p` is the case-insensitive keyword, a separator gap and a group whose text is a word, 1-2 digits, a comma and 4 digits |
| ObrFields.DateGroupFound | obr_extractor.py:112 | cut points that a word, spaces, digits, comma, spaces and four digits end at make a date text |
| ObrFields.DateAtFinds | obr_extractor.py:112 | conversely, every keyword, gap and date-shaped text at `p` is found, with the same group bounds |
| ObrFields.ExtractDate | obr_extractor.py:112-113 | the date is "" exactly when the pattern matches nowhere, and a date text otherwise |
| ObrFields.ExtractDateFirst | obr_extractor.py:112-113 | the date is the group of the first position where the pattern matches |
| ObrFields.PayeeAt | obr_extractor.py:118 | the pattern matches at `p` exactly when the keyword occurs there with something after it, and the group is the suffix after the last gap end before the end of the line |
| ObrFields.PayeeStart | obr_extractor.py:118 | where the `(.+)` group starts: the greedy gap's end, or one character back when the gap reaches the end of the line |
| ObrFields.PayeeAtFinds | obr_extractor.py:118 | conversely, the suffix after the last gap end is the group found at `p` |
| ObrFields.PayeeGroup | obr_extractor.py:118 | `re.search` over a line: none exactly when no position matches, else the group at the first matching position |
| ObrFields.LinePayee | obr_extractor.py:117-126 | a line whose group is not blank gives that group stripped; otherwise a bare label line gives the next line stripped exactly when one follows and is not blank; else nothing |
| ObrFields.ExtractPayee | obr_extractor.py:115-126 | the payee is "" exactly when no line settles it, and otherwise what the first settling line gives |
| ObrFields.PayeeColonQuirk | obr_extractor.py:118-120 | a line that is exactly "Payee:" gives the payee ":", whatever the next line says |
| ObrFields.PayeeNextLine | obr_extractor.py:122-126 | a bare label line "Payee: " takes the following stripped line as the payee |
| ObrFields.BlankPaddedLabel | obr_extractor.py:118-122 | "Payee: " matches the label pattern with a blank group and is also a bare label line |
| ObrFields.Next | obr_extractor.py:132-152 | a stopped collector stays stopped and keeps nothing; a kept piece is non-empty, stripped, and resets the blank count |
| ObrFields.Step | obr_extractor.py:132-152 | the collector ignores every line once stopped, and keeps only clean pieces |
| ObrFields.FoldKeepsClean | obr_extractor.py:128-152 | every collected particulars piece is non-empty and stripped |
| ObrFields.StoppedAbsorbs | obr_extractor.py:143-148 | after a stop word or a second blank line, no further line changes the particulars |
| ObrFields.StopIgnoresRest | obr_extractor.py:143-148 | once the collector has stopped on a prefix of the lines, the remaining lines do not matter |
| ObrFields.NoPhraseNoPieces | obr_extractor.py:135-140 | without a line containing "to obligate", nothing is collected |
| ObrFields.CleanParticulars | obr_extractor.py:154-155 | the particulars are the stripped text before the first cut point (a long number, an amount, or a bar before digits) |
| ObrFields.TotalAt | obr_extractor.py:157 | the group found at `p` is an amount text after the label |
| ObrFields.TotalAtMatches | obr_extractor.py:157 | a group found at `p` is "Total", colons and whitespace, then digits and commas, a point and two digits |
| ObrFields.TotalAtFinds | obr_extractor.py:157 | conversely, every such match at `p` is found, with the same group bounds |
| ObrFields.AmountAt | obr_extractor.py:161 | a match of `\d{1,3}(,\d{3})*\.\d{2}` at `p` is an amount text of that shape |
| ObrFields.GroupsEndOf | obr_extractor.py:161 | comma groups that stop at a point are exactly what the greedy `(,\d{3})*` takes |
| ObrFields.AmountAtFinds | obr_extractor.py:161 | conversely, every text of the amount shape at `p` is the match found there, with the same end |
| ObrFields.Tokens | obr_extractor.py:161 | `re.findall` of the amount pattern: every token has the amount shape, and there are none exactly when no position matches |
| ObrFields.TokensAt | obr_extractor.py:161 | the tokens are the first match's text, then the tokens from that match's end on |
| ObrFields.TotalText | obr_extractor.py:157-162 | the rendered total reads back as the total, has no sign, is comma-grouped with the total's units as its digits, and ends in the total's two cent digits |
| ObrFields.AmountCentsParses | obr_extractor.py:159 | an amount text reads, commas dropped, as its value in cents |
| ObrFields.LabelledTotal | obr_extractor.py:157-159 | when a "Total" label with an amount occurs, the first one gives the total |
| ObrFields.UnlabelledTotal | obr_extractor.py:160-162 | without a labelled total, the total is the sum of all amount tokens |
| ObrFields.NoAmountsTotal | obr_extractor.py:157-162 | a text with no labelled total and no amount gets "0.00" |
| ObrFields.UngroupedAmount | obr_extractor.py:161 | the fallback reads "1234.56" as the single token "234.56" |
| ObrFields.Cells | obr_extractor.py:164 | the row is file name, serial, date, payee, particulars, total, "", "", total |
| ObrFields.ResultRow | obr_extractor.py:108-164 | the result row is the file, its stem, the extracted date (a date text or ""), the extracted payee and the cleaned particulars (both stripped), the total text, two blanks, and the total again; Total and Balance read as the total |
| ObrWorker.Outcome | obr_extractor.py:106-168 | a readable file gives its result row, and an unreadable one gives "Failed to process {name}: {reason}" |
| ObrWorker.Emitted | obr_extractor.py:103-107 | each started file contributes a progress event followed by its outcome |
| ObrWorker.EmittedAt | obr_extractor.py:103-107 | event 2k is the progress of file k, and event 2k+1 is its outcome |
| ObrWorker.Started | obr_extractor.py:103-105 | the files started are all of them, or those before the cancel point |
| ObrWorker.Run | obr_extractor.py:102-170 | the trace has two events per started file, plus one, and ends in finished |
| ObrWorker.Signals | obr_extractor.py:102-170 | for any per-file outcome, the trace has two signals per started file, plus one, ending in finished |
| ObrWorker.SignalsShape | obr_extractor.py:103-168 | signal 2k is file k's progress and signal 2k+1 its outcome, for any per-file outcome |
| ObrWorker.RunShape | obr_extractor.py:103-168 | files are processed in order, each progress event coming before that file's outcome |
| ObrWorker.FinishedOnce | obr_extractor.py:170 | finished occurs exactly once, as the last event |
| ObrWorker.ResultSource | obr_extractor.py:164-165 | every result event is the outcome of a started file, at odd position 2k+1 |
| ObrWorker.NothingAfterCancel | obr_extractor.py:99-105 | no file at or after the cancel point gets a progress event |
| ObrWorker.SignalOf | obr_extractor.py:103-168 | every signal before finished is a started file's progress, or that file's row or error |
| ObrWorker.CancelIsPrefix | obr_extractor.py:99-105 | cancelling earlier gives a prefix of the trace of cancelling later (finished aside) |
| Ledger.CellText | obr_extractor.py:335 | a cell's text, and "" for an empty cell or a position outside the table |
| Ledger.Put | obr_extractor.py:341 | `setItem`: the table keeps its shape, the cell holds the new item, and every other cell is unchanged |
| Ledger.Fixed | obr_extractor.py:555 | a TOTAL-row cell carries its text and cannot be edited |
| Ledger.Balance | obr_extractor.py:565-569 | a balance exists exactly when Total, Payment and Tax all read |
| Ledger.RecalcRow | obr_extractor.py:560-576 | only the Balance cell changes; it becomes Total − Payment − Tax rendered when all three read, and the TOTAL row and unreadable rows are left alone |
| Ledger.RecalcRowBalanced | obr_extractor.py:565-573 | after recalculation, a ledger row's Balance is Total − Payment − Tax whenever the three read |
| Ledger.RecalcRowTwice | obr_extractor.py:560-576 | recalculating a row twice is recalculating it once |
| Ledger.BalanceLaw | obr_extractor.py:560-577 | after `recalculate_totals`, every row above the TOTAL row is balanced |
| Ledger.RowSums | obr_extractor.py:533-541 | a row's contribution to the totals: columns are added left to right until one fails to read, and the ones before still count |
| Ledger.WithoutTotals | obr_extractor.py:529-531 | all TOTAL rows are removed and every other row is kept |
| Ledger.TotalRow | obr_extractor.py:543-556 | the TOTAL row has ten columns, "TOTAL" first, and nine non-editable cells |
| Ledger.TotalRowReads | obr_extractor.py:545 | the TOTAL row's four amount cells read back as the four sums |
| Ledger.UpdateTotalRow | obr_extractor.py:527-558 | the rows without TOTAL rows, then exactly one TOTAL row summing them, last |
| Ledger.UpdateTotalRowTwice | obr_extractor.py:527-558 | updating the TOTAL row twice is updating it once |
| Ledger.MapWithoutTotals | obr_extractor.py:561-564 | a per-row step that keeps TOTAL rows commutes with removing them |
| Ledger.RecalculateIdempotent | obr_extractor.py:560-577 | recalculating the totals twice is recalculating them once |
| Ledger.SignalledWrite | obr_extractor.py:322-329 | a write with signals on logs a change from "" and pushes `(r, c, "")` onto undo, leaving redo alone |
| Ledger.UserEdit | obr_extractor.py:322-329 | a typed change to an editable item pushes its `old_text` (default "") onto undo, logs the change and shows the text; an empty cell is a signalled write; a read-only or unchanged item changes nothing; redo is never cleared |
| Ledger.Undo | obr_extractor.py:331-343 | a no-op on an empty stack; otherwise it pops `(r, c, old)`, pushes the current text to redo, and writes `old` into that cell only |
| Ledger.Redo | obr_extractor.py:345-357 | the mirror of undo: it pops redo, pushes the current text to undo, and writes the entry into that cell only |
| Ledger.UndoThenRedo | obr_extractor.py:331-357 | undo followed by redo restores both stacks and every cell text |
| Ledger.RedoThenUndo | obr_extractor.py:331-357 | redo followed by undo restores both stacks and every cell text |
| Ledger.WriteColumns | obr_extractor.py:491-498 | writing a row's cells only grows the undo stack and the edit log |
| Ledger.AddRow | obr_extractor.py:488-498 | `add_row` only grows the undo stack and the edit log |
| Ledger.AddRowPlain | obr_extractor.py:488-498 | with recalculation disconnected, `add_row` appends the data padded to ten columns, with one `(r, c, "")` undo entry per column |
| Ledger.PartialRow | obr_extractor.py:491-495 | part-way through `add_row`, the columns written so far hold the padded data and the rest are empty |
| Ledger.FreshRowBalanced | obr_extractor.py:488-498 | a freshly added result row has Balance equal to Total, and recalculation keeps it so |
| Ledger.FilledBalanced | obr_extractor.py:488-498 | any nine-cell row with blank Payment and Tax and Balance equal to Total is balanced once added |
| Ledger.PasteOne | obr_extractor.py:313-320 | a pasted value inside the table pushes the old text and then "" onto undo; outside the table nothing happens |
| Ledger.PasteOnePlain | obr_extractor.py:313-320 | one pasted value changes only its own cell, which then shows it |
| Ledger.LineCells | obr_extractor.py:311-314 | every pasted position lies within the clipboard's rows below the start row, at or right of the start column |
| Ledger.LineCellsOrdered | obr_extractor.py:311-314 | pasted positions come in reading order |
| Ledger.Paste | obr_extractor.py:307-320 | pasting only grows the undo stack and the edit log |
| Ledger.PasteWritesPlain | obr_extractor.py:311-320 | every in-table pasted cell shows its value, and every cell not pasted into is untouched |
| Ledger.PasteShowsValues | obr_extractor.py:307-320 | with recalculation disconnected (during an extraction), `paste_to_selection` keeps the table shape, shows each pasted value, and leaves other cells alone |
| Ledger.RecalculateSettles | obr_extractor.py:560-577 | `recalculate_totals` on ten-column rows leaves ten-column rows, exactly one TOTAL row, last, and every row above it balanced |
| Ledger.PasteOneConnected | obr_extractor.py:313-320 | with recalculation connected, a pasted value inside the table leaves the rows recalculated, and one outside leaves them as they were |
| Ledger.PasteConnectedFold | obr_extractor.py:307-320 | with recalculation connected, once a value lands in the table the rows stay recalculated through the rest of the paste |
| Ledger.PasteSettles | obr_extractor.py:284-320 | an ordinary paste, with recalculation connected, a non-empty clipboard and the current cell in the table, ends with exactly one TOTAL row, last, and every row above it balanced |
| Ledger.Handle | obr_extractor.py:473-482 | a worker signal keeps redo and only adds messages; only finished reconnects recalculation |
| Ledger.Finish | obr_extractor.py:479-482 | finished updates the TOTAL row and reconnects recalculation |
| Ledger.Detach | obr_extractor.py:446-453 | the table is cleared and one recalculation link, if any, is dropped |
| Ledger.Extract | obr_extractor.py:445-462 | an unlistable browse folder ends the handler unchanged; an invalid folder or one without PDFs clears the table and shows the message |
| Ledger.Results | obr_extractor.py:477 | every row handed to `add_row` is a result event of the run |
| Ledger.HandleSignals | obr_extractor.py:473-478 | before finished, the signals leave links and redo alone and show one message per error |
| Ledger.HandleSignalsPlain | obr_extractor.py:477 | before finished, the table grows by exactly the result rows, in order |
| Ledger.ExtractRuns | obr_extractor.py:469-486 | an extraction is the window's handling of the worker's run over the folder's PDFs |
| Ledger.RunEnds | obr_extractor.py:479-482 | the finished signal leaves the TOTAL row last and one more recalculation link |
| Ledger.ExtractionEnds | obr_extractor.py:445-486 | after extraction, a TOTAL row is last, one link is connected, and the errors are shown in order |
| Ledger.ExtractionRows | obr_extractor.py:445-498 | starting connected, the table ends as the result rows in order, then their TOTAL row |
| Ledger.ResultNames | obr_extractor.py:164-165 | every result row names one of the run's files |
| RenamePage.OcrLines | ui_pages/rename_page.py:48 | the NCA lines are non-empty and stripped |
| RenamePage.NonBlankMembers | ui_pages/rename_page.py:48 | a line is kept exactly when it is the non-empty strip of some OCR line |
| RenamePage.NcaAt | ui_pages/rename_page.py:56 | a match of `NCA-[A-Z]{2,5}-[A-Z]-\d{2,4}-\d{w}` at the position |
| RenamePage.NcaAtFinds | ui_pages/rename_page.py:56-61 | every way the NCA pattern can match at a position is found, with that text |
| RenamePage.PlainAt | ui_pages/rename_page.py:66 | a match of `\d{5,7}[-–]\d{1,3}`, taking as many trailing digits as possible |
| RenamePage.PlainAtFinds | ui_pages/rename_page.py:66 | whenever the plain code pattern can match at a position, the matcher finds a match |
| RenamePage.NcaSearch | ui_pages/rename_page.py:56-63 | the NCA search finds something exactly when the line holds an NCA number of that width |
| RenamePage.PlainSearch | ui_pages/rename_page.py:66-68 | the plain-code search finds something exactly when the line holds such a code |
| RenamePage.NcaCandidatePriority | ui_pages/rename_page.py:55-68 | the 7-digit form beats the 6-digit form, which beats the plain code, and there is no candidate only when none occurs |
| RenamePage.NcaFrom | ui_pages/rename_page.py:50-53 | line i yields a number exactly when it is not the first line, contains "2067", and the line above holds a candidate |
| RenamePage.FirstFromFirst | ui_pages/rename_page.py:50-70 | a scan returns the first index with a result, and None when no index has one |
| RenamePage.NcaNumberSource | ui_pages/rename_page.py:50-70 | the NCA number is the candidate of the first "2067" line that yields one; later anchors are tried, and the result is None when none yields |
| RenamePage.NcaFromReading | ui_pages/rename_page.py:45-73 | an OCR failure gives None |
| RenamePage.SaroEnd | ui_pages/rename_page.py:88 | where the long SARO pattern ends, at least sixteen characters on |
| RenamePage.SaroEndSound | ui_pages/rename_page.py:88 | an end found is the end of a real parse of `SARO[-\s]?[A-Z]{3}[-\s]?[A-Z]?[-\s]?\d{2}[-\s]?\d{7}` |
| RenamePage.SaroEndFinds | ui_pages/rename_page.py:88 | every parse of the long SARO pattern is the one found |
| RenamePage.SaroAt | ui_pages/rename_page.py:88 | a long SARO match is the text of a parse of the pattern |
| RenamePage.SaroAtFinds | ui_pages/rename_page.py:88 | every parse of the long SARO pattern at a position is matched there |
| RenamePage.ShortAt | ui_pages/rename_page.py:89 | the `\b[A-Z]-\d{2}-\d{5}\b` matcher succeeds exactly on its pattern, with the ten-character shape |
| RenamePage.SaroSearch | ui_pages/rename_page.py:88 | the long search finds something exactly when the text holds a long SARO number |
| RenamePage.ShortSearch | ui_pages/rename_page.py:89 | the short search finds something exactly when the text holds a short number |
| RenamePage.Clean | ui_pages/rename_page.py:95 | a returned SARO number has no spaces |
| RenamePage.SaroNumberPriority | ui_pages/rename_page.py:86-98 | the long pattern is tried first and then the short one, with spaces removed, and the result is None only when neither occurs |
| RenamePage.SerialHead | ui_pages/rename_page.py:172 | an alternative of `CA-MOOE\S+`, `MOOE\S+`, `PGF\S+`, `PS\S+` whose prefix occurs at the position with room for its `\S+`, and None only when no alternative has |
| RenamePage.SerialAt | ui_pages/rename_page.py:172 | a serial match is an alternative's prefix plus at least one non-space, extended to the next whitespace |
| RenamePage.SerialAtFinds | ui_pages/rename_page.py:172 | every parse of the serial pattern at a position is matched there, as the whole non-space run |
| RenamePage.ObrSerial | ui_pages/rename_page.py:172-174 | the serial is the first match, and is non-empty with no whitespace |
| RenamePage.SerialSearch | ui_pages/rename_page.py:172 | the search finds a serial exactly when the text holds one |
| RenamePage.ObrSerialFound | ui_pages/rename_page.py:172-174 | the serial is the non-space run at the first position where the pattern matches |
| SaroGuess.AutoAt | ui_pages/rename_page.py:258 | a match of `SARO\s*No\.?.?[:\-~]?\s*([A-Z0-9\-~]+)`, case-insensitive, starts with "saro", and its group is a non-empty run of guess characters |
| SaroGuess.AutoAtFinds | ui_pages/rename_page.py:258 | whenever the pattern can match at a position, the matcher finds a match |
| SaroGuess.AutoAtTakesFirstDigit | ui_pages/rename_page.py:258-260 | "SARO No.123" gives the group "23" |
| SaroGuess.SaroPrefixed | ui_pages/rename_page.py:261-262 | the name is kept when it starts (any case) with "SARO-" or "A-", and gets "A-" in front otherwise |
| SaroGuess.SaroPrefixedIdempotent | ui_pages/rename_page.py:261-262 | prefixing twice is prefixing once |
| SaroGuess.Dashed | ui_pages/rename_page.py:270 | every `~` and `–` becomes `-`, and every other character is kept |
| SaroGuess.AutoGuess | ui_pages/rename_page.py:257-262 | there is an auto guess exactly when the pattern matches, and it carries the prefix |
| SaroGuess.ManualName | ui_pages/rename_page.py:281-284 | a blank answer gives no name; otherwise the stripped answer, prefixed if needed |
| SaroGuess.LineGuess | ui_pages/rename_page.py:270-271 | a line is a guess exactly when its stripped, dashed form is a whole SARO or short name |
| SaroGuess.AddNew | ui_pages/rename_page.py:272-273 | appending when absent keeps the list distinct and adds exactly the one name |
| SaroGuess.Take | ui_pages/rename_page.py:269-273 | one line adds its guess at the end when it is new, keeps the list distinct, and keeps what came before |
| SaroGuess.CollectMembers | ui_pages/rename_page.py:269-273 | a name is collected exactly when it is a seed or some line's guess |
| SaroGuess.FromKeys | ui_pages/rename_page.py:275 | `dict.fromkeys`: a distinct list with the same members |
| SaroGuess.FromKeysDistinct | ui_pages/rename_page.py:275 | `dict.fromkeys` leaves a list without duplicates unchanged |
| SaroGuess.GuessList | ui_pages/rename_page.py:264-275 | at most three distinct guesses |
| SaroGuess.GuessListPrefix | ui_pages/rename_page.py:275 | the guesses are the first three of the collected list |
| SaroGuess.GuessListAutoFirst | ui_pages/rename_page.py:266-267 | the auto guess, when there is one, comes first |
| SaroGuess.GuessListMembers | ui_pages/rename_page.py:264-275 | every guess is the auto guess or some line's guess |
| SaroGuess.GuessListComplete | ui_pages/rename_page.py:269-275 | when at most three are collected, every line's guess is offered |
| SaroGuess.Guesses | ui_pages/rename_page.py:257-275 | the dialog gets at most three distinct guesses, led by the auto guess |
| RenameLoop.ObrChoice | ui_pages/rename_page.py:168-212 | an exception means error; a found serial names the file; otherwise Cancel means cancel, a blank answer is blank, and any other answer, stripped, names the file |
| RenameLoop.SaroChoice | ui_pages/rename_page.py:253-300 | an exception means error; Cancel and a blank answer are told apart; a non-blank answer names the file through its manual name, which carries the SARO prefix |
| RenameLoop.Decide | ui_pages/rename_page.py:173-212 | a file is renamed exactly when its name is chosen, the target is free, and the rename works; a taken target, a failed rename, an exception, a cancel and a blank answer each give their own skip note |
| RenameLoop.Steps | ui_pages/rename_page.py:159-212 | one step per file, in order |
| RenameLoop.StepsKeepSize | ui_pages/rename_page.py:173-204 | renaming never merges two files: the folder keeps its size |
| RenameLoop.StepsKeepUnlisted | ui_pages/rename_page.py:173-204 | files the loop does not visit stay in the folder |
| RenameLoop.EveryFileAccounted | ui_pages/rename_page.py:157-212 | renamed plus skipped is the number of files visited |
| RenameLoop.Shown | ui_pages/rename_page.py:218-220 | the first ten skip notes, with "..." after them only when there are more than ten |
| RenameLoop.MessageLines | ui_pages/rename_page.py:216-220 | the message is the header alone, or the header lines followed by the shown notes, one per line |
| RenameLoop.MessageRoundTrip | ui_pages/rename_page.py:216-220 | splitting the message on newlines gives back the header lines and the shown notes |
| RenameLoop.RenameFolder | ui_pages/rename_page.py:142-222 | no folder, no PDFs, or one step per visited PDF in order, with the message built from them |
| RenameLoop.RenameFolderSafe | ui_pages/rename_page.py:142-212 | the folder keeps its size, non-PDF files stay, and every visited file is accounted for |
| RenameLoop.RunSteps | ui_pages/rename_page.py:159-212 | the loop's steps are those of the visited files against the starting folder |
| RenameLoop.SaroTargetsPrefixed | ui_pages/rename_page.py:279-290 | every SARO rename target is a prefixed name plus ".pdf" |
| RenameLoop.ObrSerialDecides | ui_pages/rename_page.py:172-183 | a file whose page holds a serial is renamed to `serial.pdf`, skipped as existing, or skipped on error |
| RenameLoop.ObrAnswerDecides | ui_pages/rename_page.py:185-212 | an OBR file without a serial and with a non-blank dialog answer is renamed to the stripped answer plus ".pdf", skipped as existing, or skipped on error |
| RenameLoop.SaroAnswerDecides | ui_pages/rename_page.py:279-300 | a SARO file with a non-blank dialog answer is renamed to the answer's manual name plus ".pdf", skipped as existing, or skipped on error |
| SerialLine.PageSerialFirstLine | core/file_utils.py:33-36 | a page's serial comes from its first label line only |
| SerialLine.FindSerialFirstPage | core/file_utils.py:30-38 | the serial is that of the first page yielding a non-empty one, and none exactly when no page does |
| SerialLine.FindSerialSanitized | core/file_utils.py:35 | a found serial is non-empty and is the sanitiser's output |
| SerialLine.ReadPages | core/file_utils.py:30-38 | a failed lookup carries the reason of a page whose OCR raised, and when no page raises the lookup cannot fail |
| SerialLine.ReadPagesAllRead | core/file_utils.py:30-38 | when every page reads, the lookup gives the serial the page texts give |
| SerialLine.ReadPagesRaises | core/file_utils.py:30-38 | the lookup fails with an OCR error exactly when some page raises before a serial is found |
| SerialLine.ReadPagesRaisedAt | core/file_utils.py:30-38 | the error reported is that of the first page that raises |
| SerialLine.ReadPagesSanitized | core/file_utils.py:35-37 | a serial found is non-empty and an output of the sanitiser |
| SerialLine.PdfNames | core/file_utils.py:12 | exactly the names ending in ".pdf" (any case), in listing order |
| SerialLine.Outcomes | core/file_utils.py:22-52 | one outcome per PDF in order, up to the first OCR failure; an outcome is an abort exactly when that PDF's OCR raised, and only the last can be |
| SerialLine.OutcomeFollowsLookup | core/file_utils.py:24-52 | a conversion failure, a missing serial, or a serial deciding the target `serial.pdf` |
| SerialLine.OutcomesKeepSize | core/file_utils.py:40-50 | no rename overwrites: the folder keeps its size |
| SerialLine.OutcomesKeepUnlisted | core/file_utils.py:40-50 | files that are not PDFs stay where they are |
| SerialLine.OutcomesRenamedLand | core/file_utils.py:43-46 | every renamed file is in the folder afterwards under its target name |
| SerialLine.Progress | core/file_utils.py:54-55 | the progress values start at 0 and never exceed the number of files handled |
| SerialLine.ProgressMarks | core/file_utils.py:24-55 | progress rises strictly, and file k sets the value k+1 exactly when it was converted |
| SerialLine.RenameBySerial | core/file_utils.py:7-55 | an invalid folder exactly when there is no listing, no PDFs exactly when the listing has none, else one outcome per PDF in order, stopped only by an OCR failure |
| SerialLine.RenameBySerialSafe | core/file_utils.py:40-50 | a folder run keeps the folder's size, keeps non-PDF files, and lands every renamed target |
| SerialLine.Reported | core/file_utils.py:27-52 | the messages shown: exactly the outcomes that are not an abort |
| FileUtils.TargetsAreSanitized | core/file_utils.py:35-41 | every target is a non-empty run of letters, digits, `-` and `_`, not starting with `_`, plus ".pdf" |
| FileUtils.CleanTarget | core/file_utils.py:41 | a non-empty sanitised serial plus ".pdf" is such a target |
| PdfTools.TargetsAreSanitized | core/pdf_tools.py:45-51 | every target is a stripped name free of forbidden characters and spaces, plus ".pdf" |
| PdfTools.CleanTarget | core/pdf_tools.py:51 | a non-empty sanitised serial plus ".pdf" is such a target |
| PdfTools.ManualTarget | core/pdf_tools.py:129-131 | the sanitised name, with ".pdf" added only when it does not already end so |
| PdfTools.PdfSuffixClean | core/pdf_tools.py:130-131 | adding ".pdf" keeps a sanitised name sanitised |
| PdfTools.ManualTargetStable | core/pdf_tools.py:129-131 | entering a name the dialog produced gives the same name again |
| PdfTools.RenameFile | core/pdf_tools.py:123-142 | nothing without a selection or a name; an existing target is refused; a rename swaps the old name for the new and keeps the folder's size |
| PdfTools.MoveFile | core/pdf_tools.py:157-173 | nothing without a selection or destination; an existing name there is refused; a move transfers exactly the one file |
| PdfUtils.KeepAllowed | core/pdf_utils.py:9 | a character is kept exactly when it occurs in the input and is a letter, digit, `-` or `_`; the kept characters stay in input order (a subsequence) |
| PdfUtils.KeepAllowedConcat | core/pdf_utils.py:9 | filtering a concatenation filters each part |
| PdfUtils.SanitizeFilename | core/pdf_utils.py:8-9 | the filtered input after its leading run of `_`: allowed characters only, never starting with `_`, a subsequence of the input, and every allowed character other than `_` survives |
| PdfUtils.KeepAllowedFixes | core/pdf_utils.py:9 | a string of allowed characters passes the filter unchanged |
| PdfUtils.SanitizeFixes | core/pdf_utils.py:9 | allowed characters not starting with `_` come back unchanged |
| PdfUtils.SanitizeIdempotent | core/pdf_utils.py:9 | sanitising twice is sanitising once |
| Helpers.RemoveForbidden | utils/helpers.py:8 | none of `\ / * ? : " < > \|` remains, and every other character of the input does |
| Helpers.RemoveForbiddenConcat | utils/helpers.py:8 | the filter works character by character: filtering a concatenation filters each part |
| Helpers.SanitizeFilename | utils/helpers.py:3-9 | the filtered input, stripped, with each space turned into `_`: clean, stripped, no longer than the input |
| Helpers.StripKeepsAllowed | utils/helpers.py:9 | stripping keeps a string free of forbidden characters |
| Helpers.ReplaceSpaces | utils/helpers.py:9 | turning the inner spaces of a stripped clean string into `_` leaves a clean name |
| Helpers.RemoveForbiddenFixes | utils/helpers.py:8 | a string without forbidden characters passes the filter unchanged |
| Helpers.SanitizeFixes | utils/helpers.py:8-9 | a clean, stripped name comes back unchanged |
| Helpers.SanitizeIdempotent | utils/helpers.py:8-9 | sanitising twice is sanitising once |
| SharePoint.Segments | core/sharepoint_tools.py:35 | `path.strip("/").split("/")`: the segments join back into the path without its outer slashes |
| SharePoint.SitesIndex | core/sharepoint_tools.py:36-37 | `list.index("sites")`: present exactly when "sites" is a segment, and the first such |
| SharePoint.Window | core/sharepoint_tools.py:38 | Python slicing `parts[i:j]`, clipped to the list |
| SharePoint.SiteUrl | core/sharepoint_tools.py:34-40 | the site URL starts with `https://netloc`, and is exactly that without a "sites" segment |
| SharePoint.SiteUrlNamesSite | core/sharepoint_tools.py:36-38 | with "sites", the site URL is `https://netloc/sites/<next segment>`, or `https://netloc/sites` when it is last |
| SharePoint.Authenticate | core/sharepoint_tools.py:19-54 | the base link never changes, and a new context is only ever one for the current site URL |
| SharePoint.AuthenticateValidates | core/sharepoint_tools.py:21-31 | blank credentials or a blank link give the matching warning, change nothing, and request no token |
| SharePoint.AuthenticateSucceeds | core/sharepoint_tools.py:33-50 | the ready status appears exactly when the inputs are present, the link parses, and the token is granted; the session is then bound to the site URL |
| SharePoint.RefusedKeepsOldContext | core/sharepoint_tools.py:43-47 | refused credentials show the error and move the site URL, but keep the old client context |
| SharePoint.Logout | core/sharepoint_tools.py:57-65 | logout empties both contexts, the site URL and the base link |
| SharePoint.FolderSource | core/sharepoint_tools.py:81-89 | the unquoted `id` parameter when present, else the unquoted path, with leading slashes removed; an empty `id` list raises |
| SharePoint.FolderPath | core/sharepoint_tools.py:91-96 | a suffix of the full path, the whole path without a "sites" segment |
| SharePoint.SiteThenFolder | core/sharepoint_tools.py:91-99 | site URL, "/" and folder path spell out the full path from "sites" on |
| SharePoint.EncodedPathRoundTrip | core/sharepoint_tools.py:98 | quoting is per segment, and unquoting the segments gives the folder path back |
| SharePoint.BaseLink | core/sharepoint_tools.py:98-99 | the base link is the site URL, "/", the encoded folder and a final "/" |
| SharePoint.PdfRows | core/sharepoint_tools.py:107-112 | exactly the names ending in ".pdf" (case-sensitive), each linked as base link plus name |
| SharePoint.PdfRowsConcat | core/sharepoint_tools.py:107-112 | the listing is filtered name by name, in order |
| SharePoint.Extract | core/sharepoint_tools.py:68-138 | extraction changes only the base link, which extends the site URL, and every row links under it |
| SharePoint.LogoutBlocksExtract | core/sharepoint_tools.py:57-72 | after logout, extraction only warns that authentication is needed |
| SharePoint.NoContextBlocksExtract | core/sharepoint_tools.py:70-72 | with no client context, whatever the other globals hold, extraction only warns that authentication is needed and changes nothing |
| SharePoint.ExtractListsPdfs | core/sharepoint_tools.py:80-117 | a listed folder sets the base link and yields its PDF rows, and no rows exactly when no name ends in ".pdf" |

## Left out

- Qt widgets, dialogs, progress dialogs and message boxes are left out. A dialog's answer is a parameter, and a message box is a value in the result.
- OCR and PDF-to-image conversion (pytesseract, pdf2image) are left out. The model takes the page text, or the failure, as input.
- Threads and signal timing are left out. The extraction worker runs to completion, and the window then handles its signals in order.
- Floating point is not modelled. Amounts are integer cents. `float` accepts more syntax than `Money.ParseAmount`'s grammar (sign, digits, at most two decimals): exponents, "inf" and "nan", underscores, and more decimals. Rounding of very large sums is left out too.
- Money.ParseAmount: its ensures states only the blank-reads-as-zero case. What it reads is stated by `Money.FormatParseRoundTrip` and `ObrFields.AmountCentsParses`.
- Table sorting (`setSortingEnabled`) is left out. The rows are kept in insertion order.
- `log_action`, the activity log and `log_output` texts are left out. The model keeps the condition under which `extract_pdfs` lists the browse folder.
- `delete_file`, `open_file`, `open_and_manage_files`, `scan_pdf_to_cell` and the skipped-files preview are left out. They are side effects or UI with no decision logic.
- An OCR error in either serial renamer (core/file_utils.py:32, core/pdf_tools.py:42) is raised outside any `try`, so it ends the whole run. The model records it as a final aborted outcome that prints nothing. What the caller does with the exception is left out.
- ObrFields.TotalAt: its ensures states only that the group is an amount text after the label. The exact match shape is stated by `ObrFields.TotalAtMatches`, and that every match is found by `ObrFields.TotalAtFinds`.
- ObrFields.AmountAt: its ensures states soundness only. That every match is found is stated by `ObrFields.AmountAtFinds`.
- The extractor splits the OCR text on "\n" only (`text.split("\n")`), so a "\r" stays inside a line. The particulars and payee rules see it as whitespace, as Python does.
- The `summary` list in both rename loops is left out because it is never shown.
- `rename_nca_files` is left out because it is not defined in `ui_pages/rename_page.py` (line 136 calls it).
- `RenamePage.NcaNumber` and `RenamePage.SaroNumber` are modelled, but no loop calls them, as in the code.
- Unicode is limited. `isalnum`, `isspace`, `\s`, `\b`, `\d`, the digits `float` accepts, `str.lower` and case-insensitive matching are modelled on ASCII, with the few extra whitespace and boundary characters the code meets. Python's `\d` and `float` also accept non-ASCII decimal digits; the model's `IsDigit` does not.
- File names are compared exactly, as on a case-sensitive file system. `os.path.exists` (core/file_utils.py:43, core/pdf_tools.py:53, 134 and 165, ui_pages/rename_page.py:177, 199 and 287) ignores case on Windows and macOS, so there a target differing from an existing name only in case is skipped, where `SerialLine.Decide`, `RenameLoop.Decide`, `PdfTools.RenameFile` and `PdfTools.MoveFile` rename or move the file. Folder contents are a set of exact names.
- Path separators in chosen names, and `os.path.join` with absolute names, are not modelled. A target is a name in one folder.
- SaroGuess.AutoAt: soundness is stated only as "starts with SARO and yields a non-empty guess". That the group is exactly the regex's group is shown on a concrete input (`SaroGuess.AutoAtTakesFirstDigit`), not for all inputs.
- SaroGuess.AutoAtFinds: it states that a match is found, not which one.
- RenamePage.PlainAtFinds: it states that a match is found. The matched text is stated by `RenamePage.PlainAt`.
- RenameLoop.MessageRoundTrip: it requires that no skip note contains a newline. A file name with a newline would split into two lines.
- Ledger.Paste and Ledger.AddRow: their ensures state stack growth only. `Ledger.AddRowPlain` states the cells `add_row` writes; it runs only during an extraction, when recalculation is disconnected.
- Ledger.PasteShowsValues: it states the pasted cells' contents only while recalculation is disconnected. That happens only when a paste comes during an extraction. An ordinary paste runs with recalculation connected (obr_extractor.py:210). For that case `Ledger.PasteSettles` states that every write recalculates: the table ends with exactly one TOTAL row, last, and every row above it balanced. Which row each pasted value ends in, once recalculation has moved the TOTAL row, is not stated.
- SharePoint's network, token and Excel steps are parameters. The Excel file name uses a timestamp, which is not modelled, and the Excel formatting is left out.
- `urlparse`, `parse_qs`, `quote` and `unquote` are parameters. `SharePoint.EncodedPathRoundTrip` assumes only that quoting keeps `/` out of a segment and that unquoting inverts it.
- The exception texts of SharePoint calls are opaque strings. An exception from `AuthenticationContext` or `ClientContext` is modelled as coming from the token request.
- Clearing the username and password fields on logout is left out because they are widgets.
- SharePoint.Authenticate: its ensures states only how the globals may change. The outcomes are stated by `SharePoint.AuthenticateValidates`, `SharePoint.AuthenticateSucceeds` and `SharePoint.RefusedKeepsOldContext`.
- The login, signup, two-factor, email, merge, split, theme and main-window pages are outside the modelled core.

=== FILE: file_utils.dfy ===
/** `core/file_utils.extract_and_rename_pdfs`: the serial-line rename with the
    alphanumeric sanitiser of `core/pdf_utils` and "->" in its log lines. */
module FileUtils {
  import opened Wrappers
  import opened Text
  import opened SerialLine
  import PdfUtils

  /** Converting and reading one file, serial sanitised by `core/pdf_utils`. */
  function Lookups(convert: string -> Conversion): string -> Lookup {
    name => LookUp(convert(name), PdfUtils.SanitizeFilename)
  }

  /** The run over a folder listing (`None` when the path is not a directory). */
  function ExtractAndRename(listing: Option<seq<string>>, convert: string -> Conversion,
                            renameError: string -> Option<string>): FolderRun {
    RenameBySerial(listing, Lookups(convert), renameError)
  }

  /** The lines the run appends to the output widget. */
  function Output(run: FolderRun): seq<string> {
    Log(run, "->")
  }

  /** Every name the run renames to, skips for, or fails to rename to is a non-empty run of
      letters, digits, `-` and `_`, not starting with `_`, followed by ".pdf". */
  lemma TargetsAreSanitized(listing: seq<string>, convert: string -> Conversion,
                            renameError: string -> Option<string>, k: nat)
    requires ExtractAndRename(Some(listing), convert, renameError).Processed?
    requires k < |ExtractAndRename(Some(listing), convert, renameError).outcomes|
    requires var o := ExtractAndRename(Some(listing), convert, renameError).outcomes[k];
      o.Renamed? || o.Skipped? || o.RenameFailed?
    ensures var t := ExtractAndRename(Some(listing), convert, renameError).outcomes[k].target;
      && |t| > 4 && EndsWith(t, ".pdf") && t[0] != '_'
      && forall i :: 0 <= i < |t| - 4 ==> PdfUtils.Allowed(t[i])
  {
    var pdfs := PdfNames(listing);
    var start := NameSet(listing);
    var lookup := Lookups(convert);
    var run := ExtractAndRename(Some(listing), convert, renameError);
    assert run.outcomes == Outcomes(pdfs, start, lookup, renameError);
    OutcomeFollowsLookup(pdfs, start, lookup, renameError, k);
    var conv := convert(pdfs[k]);
    assert lookup(pdfs[k]) == LookUp(conv, PdfUtils.SanitizeFilename);
    ReadPagesSanitized(conv.pages, PdfUtils.SanitizeFilename);
    var serial := ReadPages(conv.pages, PdfUtils.SanitizeFilename).serial.value;
    var x :| serial == PdfUtils.SanitizeFilename(x);
    CleanTarget(serial, x);
  }

  lemma CleanTarget(serial: string, x: string)
    requires serial == PdfUtils.SanitizeFilename(x) && serial != []
    ensures var t := serial + ".pdf";
      && |t| > 4 && EndsWith(t, ".pdf") && t[0] != '_'
      && forall i :: 0 <= i < |t| - 4 ==> PdfUtils.Allowed(t[i])
  {
    var t := serial + ".pdf";
    assert t[|t| - 4..] == ".pdf";
    assert forall i :: 0 <= i < |t| - 4 ==> t[i] == serial[i];
  }
}

=== FILE: helpers.dfy ===
/** `utils/helpers.sanitize_filename`: deletes the characters `\ / * ? : " < > |`,
    strips surrounding whitespace, then turns every remaining space into `_`. */
module Helpers {
  import opened Text

  predicate Forbidden(c: char) {
    c == '\\' || c == '/' || c == '*' || c == '?' || c == ':' || c == '"' || c == '<' || c == '>' || c == '|'
  }

  /** No forbidden character and no space. */
  predicate NameChars(s: string) {
    forall i :: 0 <= i < |s| ==> !Forbidden(s[i]) && s[i] != ' '
  }

  /** Deletes every forbidden character, as the `re.sub` in `sanitize_filename` does: the
      characters kept are exactly the input's characters that are not forbidden. */
  function RemoveForbidden(s: string): (r: string)
    ensures |r| <= |s|
    ensures forall i :: 0 <= i < |r| ==> !Forbidden(r[i])
    ensures forall c :: c in r <==> c in s && !Forbidden(c)
    decreases |s|
  {
    if s == [] then []
    else if Forbidden(s[0]) then RemoveForbidden(s[1..])
    else [s[0]] + RemoveForbidden(s[1..])
  }

  /** The sanitised name has no forbidden character, no space, no whitespace at either end,
      and is no longer than the input; character by character it is the stripped name
      without forbidden characters, with `_` for each space. */
  function SanitizeFilename(name: string): (r: string)
    ensures NameChars(r)
    ensures Trimmed(r)
    ensures |r| <= |name|
    ensures |r| == |Strip(RemoveForbidden(name))|
    ensures forall i :: 0 <= i < |r| ==>
      r[i] == (if Strip(RemoveForbidden(name))[i] == ' ' then '_' else Strip(RemoveForbidden(name))[i])
  {
    var stripped := Strip(RemoveForbidden(name));
    StripKeepsAllowed(RemoveForbidden(name));
    ReplaceSpaces(stripped);
    ReplaceChar(stripped, ' ', '_')
  }

  /** Stripping a string with no forbidden character leaves none. */
  lemma StripKeepsAllowed(s: string)
    requires forall i :: 0 <= i < |s| ==> !Forbidden(s[i])
    ensures forall i :: 0 <= i < |Strip(s)| ==> !Forbidden(Strip(s)[i])
  {
    var left := TrimLeft(s, IsSpace);
    var cut := |s| - |left|;
    StripShape(s);
    forall i | 0 <= i < |Strip(s)| ensures !Forbidden(Strip(s)[i]) {
      assert Strip(s)[i] == left[i] == s[cut + i];
    }
  }

  /** Turning the spaces of a trimmed string without forbidden characters into `_` gives
      a name of name characters with no whitespace at either end. */
  lemma ReplaceSpaces(s: string)
    requires forall i :: 0 <= i < |s| ==> !Forbidden(s[i])
    requires Trimmed(s)
    ensures NameChars(ReplaceChar(s, ' ', '_')) && Trimmed(ReplaceChar(s, ' ', '_'))
  {
    var r := ReplaceChar(s, ' ', '_');
    if s != [] {
      assert r[0] == s[0] && r[|r| - 1] == s[|s| - 1];
    }
  }

  /** Removal works character by character: on a concatenation it is the concatenation of
      the removals... */
  lemma {:induction false} RemoveForbiddenConcat(a: string, b: string)
    ensures RemoveForbidden(a + b) == RemoveForbidden(a) + RemoveForbidden(b)
    decreases |a|
  {
    if a == [] {
      assert a + b == b;
    } else {
      assert (a + b)[0] == a[0] && (a + b)[1..] == a[1..] + b;
      RemoveForbiddenConcat(a[1..], b);
    }
  }

  /** ...and one character is dropped exactly when it is forbidden. */
  lemma RemoveForbiddenChar(c: char)
    ensures RemoveForbidden([c]) == if Forbidden(c) then [] else [c]
  {
  }

  lemma {:induction false} RemoveForbiddenFixes(s: string)
    requires forall i :: 0 <= i < |s| ==> !Forbidden(s[i])
    ensures RemoveForbidden(s) == s
    decreases |s|
  {
    if s != [] {
      RemoveForbiddenFixes(s[1..]);
    }
  }

  /** A name with no forbidden character, no space and no whitespace at either end is
      left unchanged. */
  lemma SanitizeFixes(s: string)
    requires NameChars(s) && Trimmed(s)
    ensures SanitizeFilename(s) == s
  {
    RemoveForbiddenFixes(s);
    StripClean(s);
    assert ReplaceChar(s, ' ', '_') == s;
  }

  /** Sanitising twice is sanitising once. */
  lemma SanitizeIdempotent(s: string)
    ensures SanitizeFilename(SanitizeFilename(s)) == SanitizeFilename(s)
  {
    SanitizeFixes(SanitizeFilename(s));
  }
}

=== FILE: ledger.dfy ===
/** The OBR ledger of `PDFExtractor` in `obr_extractor.py`: a ten-column table of text
    cells with a derived Balance column and one synthetic TOTAL row, an edit log, and undo
    and redo stacks of `(row, column, text to restore)`.

    A cell is empty or holds an item: its text, the `old_text` attribute `log_edit` leaves
    on it, and whether the user may edit it. Writing an item into the table (`setItem`)
    notifies `log_edit` and, while connected, `recalculate_totals`, unless the write is
    made with signals blocked. A write outside the table does nothing. Amounts are integer
    cents (module `Money`). */
module Ledger {
  import opened Wrappers
  import opened Text
  import opened Money
  import ObrFields
  import ObrWorker
  import SerialLine

  const Columns: nat := 10

  datatype Item = Item(text: string, oldText: Option<string>, editable: bool)

  type Cell = Option<Item>
  type Row = seq<Cell>

  /** An undo or redo entry: a position and the text to put back there. Positions are
      integers because a paste from no current cell starts at row and column -1. */
  datatype Entry = Entry(row: int, col: int, text: string)

  /** One line of the edit log: position, previous text, new text. */
  datatype Edit = Edit(row: nat, col: nat, before: string, after: string)

  /** The window's table state. `recalcLinks` counts the connections of
      `recalculate_totals` to the table's change signal. */
  datatype Ledger = Ledger(rows: seq<Row>, undo: seq<Entry>, redo: seq<Entry>, edits: seq<Edit>,
                           recalcLinks: nat)

  /** Every row has the ten columns. */
  predicate WellFormed(rows: seq<Row>) {
    forall r :: 0 <= r < |rows| ==> |rows[r]| == Columns
  }

  function TextOf(cell: Cell): string {
    if cell.Some? then cell.value.text else ""
  }

  predicate InRange(rows: seq<Row>, r: int, c: int) {
    0 <= r < |rows| && 0 <= c < |rows[r]|
  }

  /** `item(r, c).text() if item(r, c) else ""`: empty outside the table too. */
  function CellText(rows: seq<Row>, r: int, c: int): (t: string)
    ensures !InRange(rows, r, c) ==> t == ""
    ensures InRange(rows, r, c) ==> t == TextOf(rows[r][c])
  {
    if InRange(rows, r, c) then TextOf(rows[r][c]) else ""
  }

  /** `setItem(r, c, item)` on the cells alone: ignored outside the table. */
  function Put(rows: seq<Row>, r: int, c: int, cell: Cell): (res: seq<Row>)
    ensures |res| == |rows|
    ensures forall i :: 0 <= i < |rows| ==> |res[i]| == |rows[i]|
    ensures InRange(rows, r, c) ==> res[r][c] == cell
    ensures forall i, j :: 0 <= i < |rows| && 0 <= j < |rows[i]| && (i != r || j != c) ==> res[i][j] == rows[i][j]
  {
    if InRange(rows, r, c) then rows[r := rows[r][c := cell]] else rows
  }

  // ---------------------------------------------------------------- balance and TOTAL

  /** A fixed cell of the TOTAL row: not editable, no `old_text`. */
  function Fixed(text: string): (c: Cell)
    ensures c.Some? && c.value.text == text && !c.value.editable
  {
    Some(Item(text, None, false))
  }

  function At(row: Row, c: nat): Cell {
    if c < |row| then row[c] else None
  }

  /** `float(item(r, c).text().replace(",", "") or 0)`; a missing item is a failure too. */
  function Amount(row: Row, c: nat): Option<int> {
    match At(row, c)
    case None => None
    case Some(item) => ParseAmount(item.text)
  }

  /** A row whose first cell reads "TOTAL". */
  predicate IsTotalRow(row: Row) {
    |row| > 0 && row[0].Some? && row[0].value.text == "TOTAL"
  }

  /** Total − Payment − Tax, when all three read. */
  function Balance(row: Row): (b: Option<int>)
    ensures b.Some? <==> Amount(row, 5).Some? && Amount(row, 6).Some? && Amount(row, 7).Some?
  {
    Difference(Amount(row, 5), Amount(row, 6), Amount(row, 7))
  }

  function Difference(total: Option<int>, payment: Option<int>, tax: Option<int>): Option<int> {
    match (total, payment, tax)
    case (Some(t), Some(p), Some(x)) => Some(t - p - x)
    case _ => None
  }

  /** `recalculate_totals` on one row: a non-TOTAL row whose Total, Payment and Tax all
      read gets a fresh editable Balance item; any other row is unchanged. */
  function RecalcRow(row: Row): (r: Row)
    ensures |r| == |row| && IsTotalRow(r) == IsTotalRow(row)
    ensures forall c :: 0 <= c < |row| && c != 8 ==> r[c] == row[c]
    ensures IsTotalRow(row) || Balance(row).None? ==> r == row
    ensures !IsTotalRow(row) && Balance(row).Some? && |row| > 8
      ==> r[8] == Some(Item(FormatCents(Balance(row).value), None, true))
  {
    if IsTotalRow(row) || |row| <= 8 then row
    else match Balance(row)
      case Some(b) => row[8 := Some(Item(FormatCents(b), None, true))]
      case None => row
  }

  /** Column sums of the TOTAL row. */
  datatype Sums = Sums(total: int, payment: int, tax: int, balance: int)

  function Add(a: Sums, b: Sums): Sums {
    Sums(a.total + b.total, a.payment + b.payment, a.tax + b.tax, a.balance + b.balance)
  }

  /** What one row adds to the sums. The four columns are read in order inside one `try`,
      so a row whose reading fails partway keeps the columns read before the failure. */
  function RowSums(row: Row): (s: Sums)
    ensures Amount(row, 5).None? ==> s == Sums(0, 0, 0, 0)
    ensures Amount(row, 5).Some? && Amount(row, 6).None? ==> s == Sums(Amount(row, 5).value, 0, 0, 0)
    ensures Amount(row, 5).Some? && Amount(row, 6).Some? && Amount(row, 7).None?
      ==> s == Sums(Amount(row, 5).value, Amount(row, 6).value, 0, 0)
    ensures Amount(row, 5).Some? && Amount(row, 6).Some? && Amount(row, 7).Some?
      ==> s.total == Amount(row, 5).value && s.payment == Amount(row, 6).value && s.tax == Amount(row, 7).value
    ensures s.balance != 0 ==> Amount(row, 8).Some? && s.balance == Amount(row, 8).value
  {
    match Amount(row, 5)
    case None => Sums(0, 0, 0, 0)
    case Some(t) =>
      match Amount(row, 6)
      case None => Sums(t, 0, 0, 0)
      case Some(p) =>
        match Amount(row, 7)
        case None => Sums(t, p, 0, 0)
        case Some(x) =>
          match Amount(row, 8)
          case None => Sums(t, p, x, 0)
          case Some(b) => Sums(t, p, x, b)
  }

  function SumRows(rows: seq<Row>): Sums
    decreases |rows|
  {
    if rows == [] then Sums(0, 0, 0, 0) else Add(RowSums(rows[0]), SumRows(rows[1..]))
  }

  /** The rows that are not TOTAL rows, in order. */
  function WithoutTotals(rows: seq<Row>): (r: seq<Row>)
    ensures |r| <= |rows|
    ensures forall i :: 0 <= i < |r| ==> !IsTotalRow(r[i]) && r[i] in rows
    ensures forall row :: row in rows && !IsTotalRow(row) ==> row in r
    decreases |rows|
  {
    if rows == [] then []
    else if IsTotalRow(rows[0]) then WithoutTotals(rows[1..])
    else [rows[0]] + WithoutTotals(rows[1..])
  }

  /** The synthetic TOTAL row: the label, four blanks, the four sums, and no Remarks item. */
  function TotalRow(s: Sums): (r: Row)
    ensures |r| == Columns && IsTotalRow(r) && r[9].None?
    ensures forall c :: 0 <= c < 9 ==> r[c].Some? && !r[c].value.editable
  {
    seq(Columns, c requires 0 <= c < Columns => TotalCell(s, c))
  }

  /** Column `c` of the TOTAL row. */
  function TotalCell(s: Sums, c: nat): Cell {
    if c == 0 then Fixed("TOTAL")
    else if c < 5 then Fixed("")
    else if c == 5 then Fixed(FormatCents(s.total))
    else if c == 6 then Fixed(FormatCents(s.payment))
    else if c == 7 then Fixed(FormatCents(s.tax))
    else if c == 8 then Fixed(FormatCents(s.balance))
    else None
  }

  /** `update_total_row`: every TOTAL row removed, one appended after the others. */
  function UpdateTotalRow(rows: seq<Row>): (r: seq<Row>)
    ensures |r| >= 1 && r[..|r| - 1] == WithoutTotals(rows)
    ensures r[|r| - 1] == TotalRow(SumRows(WithoutTotals(rows)))
    ensures forall i :: 0 <= i < |r| ==> (IsTotalRow(r[i]) <==> i == |r| - 1)
  {
    var kept := WithoutTotals(rows);
    kept + [TotalRow(SumRows(kept))]
  }

  /** `f` applied to every row. */
  function MapRows(f: Row -> Row, rows: seq<Row>): (r: seq<Row>)
    ensures |r| == |rows| && forall i :: 0 <= i < |rows| ==> r[i] == f(rows[i])
    decreases |rows|
  {
    if rows == [] then [] else [f(rows[0])] + MapRows(f, rows[1..])
  }

  /** `recalculate_totals`: every row's Balance, then the TOTAL row. Signals are blocked
      throughout, so nothing is logged. */
  function Recalculate(rows: seq<Row>): seq<Row> {
    UpdateTotalRow(MapRows(RecalcRow, rows))
  }

  // ---------------------------------------------------------------- writes and edits

  /** The item a signalled write leaves behind: editable, stamped by `log_edit` with its
      own text as `old_text`. */
  function Written(text: string): Cell {
    Some(Item(text, Some(text), true))
  }

  /** A `setItem` of a new item with signals on: `log_edit` records the change from ""
      (a new item has no `old_text`), pushes that onto the undo stack and stamps the item;
      then, while connected, the totals are recalculated. */
  function SignalledWrite(l: Ledger, r: int, c: int, text: string): (res: Ledger)
    ensures res.redo == l.redo && res.recalcLinks == l.recalcLinks
    ensures !InRange(l.rows, r, c) ==> res == l
    ensures InRange(l.rows, r, c) ==> res.undo == l.undo + [Entry(r, c, "")]
    ensures InRange(l.rows, r, c) ==> res.edits == l.edits + [Edit(r, c, "", text)]
    ensures InRange(l.rows, r, c) && l.recalcLinks == 0 ==> res.rows == Put(l.rows, r, c, Written(text))
  {
    if !InRange(l.rows, r, c) then l
    else
      var rows := Put(l.rows, r, c, Written(text));
      Ledger(if l.recalcLinks > 0 then Recalculate(rows) else rows,
             l.undo + [Entry(r, c, "")], l.redo, l.edits + [Edit(r, c, "", text)], l.recalcLinks)
  }

  /** The user types `text` into cell (r, c). An item the user may not edit stays as it
      is, and so does one whose text does not change. An empty cell gets a new item, as a
      signalled write. Otherwise the item's text changes and `log_edit` records the change
      from its `old_text` (or "" without one). */
  function UserEdit(l: Ledger, r: int, c: int, text: string): (res: Ledger)
    ensures res.redo == l.redo && res.recalcLinks == l.recalcLinks
    ensures !InRange(l.rows, r, c) ==> res == l
    ensures InRange(l.rows, r, c) && l.rows[r][c].None? ==> res == SignalledWrite(l, r, c, text)
    ensures (InRange(l.rows, r, c) && l.rows[r][c].Some?
             && (!l.rows[r][c].value.editable || l.rows[r][c].value.text == text)) ==> res == l
    ensures (InRange(l.rows, r, c) && l.rows[r][c].Some?
             && l.rows[r][c].value.editable && l.rows[r][c].value.text != text) ==>
      && res.undo == l.undo + [Entry(r, c, l.rows[r][c].value.oldText.GetOr(""))]
      && res.edits == l.edits + [Edit(r, c, l.rows[r][c].value.oldText.GetOr(""), text)]
      && (l.recalcLinks == 0 ==> CellText(res.rows, r, c) == text)
  {
    if !InRange(l.rows, r, c) then l
    else match l.rows[r][c]
      case None => SignalledWrite(l, r, c, text)
      case Some(item) =>
        if !item.editable || item.text == text then l
        else
          var prior := item.oldText.GetOr("");
          var rows := Put(l.rows, r, c, Some(Item(text, Some(text), item.editable)));
          Ledger(if l.recalcLinks > 0 then Recalculate(rows) else rows,
                 l.undo + [Entry(r, c, prior)], l.redo, l.edits + [Edit(r, c, prior, text)], l.recalcLinks)
  }

  function Last(s: seq<Entry>): Entry
    requires s != []
  {
    s[|s| - 1]
  }

  /** `b` is `a` with at most the cell (r, c) changed. */
  predicate OnlyCellChanged(a: seq<Row>, b: seq<Row>, r: int, c: int) {
    |a| == |b| && (forall i :: 0 <= i < |a| ==> |a[i]| == |b[i]|)
    && forall i, j :: 0 <= i < |a| && 0 <= j < |a[i]| && (i != r || j != c) ==> b[i][j] == a[i][j]
  }

  /** `undo_edit`: nothing on an empty stack; otherwise the last entry is popped, the cell's
      current text is pushed onto the redo stack, and the entry's text is written back with
      signals blocked, so neither the log, the Balance column nor the TOTAL row see it. */
  function Undo(l: Ledger): (res: Ledger)
    ensures l.undo == [] ==> res == l
    ensures res.edits == l.edits && res.recalcLinks == l.recalcLinks
    ensures l.undo != [] ==> var e := Last(l.undo);
      && res.undo == l.undo[..|l.undo| - 1]
      && res.redo == l.redo + [Entry(e.row, e.col, CellText(l.rows, e.row, e.col))]
      && OnlyCellChanged(l.rows, res.rows, e.row, e.col)
      && (InRange(l.rows, e.row, e.col) ==> CellText(res.rows, e.row, e.col) == e.text)
  {
    if l.undo == [] then l
    else
      var e := Last(l.undo);
      var current := CellText(l.rows, e.row, e.col);
      Ledger(Put(l.rows, e.row, e.col, Some(Item(e.text, Some(e.text), true))),
             l.undo[..|l.undo| - 1], l.redo + [Entry(e.row, e.col, current)], l.edits, l.recalcLinks)
  }

  /** `redo_edit`: the mirror of `Undo` between the two stacks. */
  function Redo(l: Ledger): (res: Ledger)
    ensures l.redo == [] ==> res == l
    ensures res.edits == l.edits && res.recalcLinks == l.recalcLinks
    ensures l.redo != [] ==> var e := Last(l.redo);
      && res.redo == l.redo[..|l.redo| - 1]
      && res.undo == l.undo + [Entry(e.row, e.col, CellText(l.rows, e.row, e.col))]
      && OnlyCellChanged(l.rows, res.rows, e.row, e.col)
      && (InRange(l.rows, e.row, e.col) ==> CellText(res.rows, e.row, e.col) == e.text)
  {
    if l.redo == [] then l
    else
      var e := Last(l.redo);
      var current := CellText(l.rows, e.row, e.col);
      Ledger(Put(l.rows, e.row, e.col, Some(Item(e.text, Some(e.text), true))),
             l.undo + [Entry(e.row, e.col, current)], l.redo[..|l.redo| - 1], l.edits, l.recalcLinks)
  }

  /** Undo followed by redo puts back every cell's text and both stacks, when the undone
      position lies inside the table. */
  lemma UndoThenRedo(l: Ledger)
    requires l.undo != [] && InRange(l.rows, Last(l.undo).row, Last(l.undo).col)
    ensures var res := Redo(Undo(l));
      && res.undo == l.undo && res.redo == l.redo
      && |res.rows| == |l.rows|
      && forall i, j :: CellText(res.rows, i, j) == CellText(l.rows, i, j)
  {
    var e := Last(l.undo);
    var u := Undo(l);
    var res := Redo(u);
    assert Last(u.redo) == Entry(e.row, e.col, CellText(l.rows, e.row, e.col));
    assert u.redo[..|u.redo| - 1] == l.redo;
    assert res.undo == l.undo[..|l.undo| - 1] + [e];
    forall i, j ensures CellText(res.rows, i, j) == CellText(l.rows, i, j) {
      if InRange(l.rows, i, j) && (i != e.row || j != e.col) {
        assert res.rows[i][j] == u.rows[i][j] == l.rows[i][j];
      }
    }
  }

  /** Redo followed by undo likewise restores the texts and both stacks. */
  lemma RedoThenUndo(l: Ledger)
    requires l.redo != [] && InRange(l.rows, Last(l.redo).row, Last(l.redo).col)
    ensures var res := Undo(Redo(l));
      && res.undo == l.undo && res.redo == l.redo
      && |res.rows| == |l.rows|
      && forall i, j :: CellText(res.rows, i, j) == CellText(l.rows, i, j)
  {
    var e := Last(l.redo);
    var d := Redo(l);
    var res := Undo(d);
    assert Last(d.undo) == Entry(e.row, e.col, CellText(l.rows, e.row, e.col));
    assert d.undo[..|d.undo| - 1] == l.undo;
    assert res.redo == l.redo[..|l.redo| - 1] + [e];
    forall i, j ensures CellText(res.rows, i, j) == CellText(l.rows, i, j) {
      if InRange(l.rows, i, j) && (i != e.row || j != e.col) {
        assert res.rows[i][j] == d.rows[i][j] == l.rows[i][j];
      }
    }
  }

  // ---------------------------------------------------------------- properties of the totals

  /** The TOTAL row's amount cells read back as the sums they were rendered from. */
  lemma TotalRowReads(s: Sums)
    ensures Amount(TotalRow(s), 5) == Some(s.total) && Amount(TotalRow(s), 6) == Some(s.payment)
    ensures Amount(TotalRow(s), 7) == Some(s.tax) && Amount(TotalRow(s), 8) == Some(s.balance)
  {
    TotalReads(s);
    PaymentReads(s);
    TaxReads(s);
    BalanceReads(s);
  }

  lemma TotalReads(s: Sums)
    ensures Amount(TotalRow(s), 5) == Some(s.total)
  {
    AmountOfFormatted(TotalRow(s), 5, s.total);
  }

  lemma PaymentReads(s: Sums)
    ensures Amount(TotalRow(s), 6) == Some(s.payment)
  {
    AmountOfFormatted(TotalRow(s), 6, s.payment);
  }

  lemma TaxReads(s: Sums)
    ensures Amount(TotalRow(s), 7) == Some(s.tax)
  {
    AmountOfFormatted(TotalRow(s), 7, s.tax);
  }

  lemma BalanceReads(s: Sums)
    ensures Amount(TotalRow(s), 8) == Some(s.balance)
  {
    AmountOfFormatted(TotalRow(s), 8, s.balance);
  }

  /** A cell holding a rendered amount reads back as that amount. */
  lemma AmountOfFormatted(row: Row, c: nat, v: int)
    requires c < |row| && row[c].Some? && row[c].value.text == FormatCents(v)
    ensures Amount(row, c) == Some(v)
  {
    FormatParseRoundTrip(v);
  }

  /** Two rows with the same cell read the same amount there. */
  lemma AmountSameCell(a: Row, b: Row, c: nat)
    requires At(a, c) == At(b, c)
    ensures Amount(a, c) == Amount(b, c)
  {
  }

  /** After a recalculation every row but the last (the TOTAL row) has a Balance that
      reads as Total − Payment − Tax whenever those three read. */
  lemma BalanceLaw(rows: seq<Row>, i: nat)
    requires WellFormed(rows)
    requires i < |Recalculate(rows)| - 1
    ensures Balanced(Recalculate(rows)[i])
  {
    var recalced := MapRows(RecalcRow, rows);
    assert Recalculate(rows)[i] == WithoutTotals(recalced)[i];
    var k := RowOrigin(recalced, i);
    RecalcRowBalanced(rows[k]);
  }

  /** The Balance cell reads as Total − Payment − Tax, for a row whose three read. */
  predicate Balanced(row: Row) {
    Balance(row).Some? ==> Amount(row, 8) == Balance(row)
  }

  lemma RecalcRowBalanced(row: Row)
    requires |row| == Columns && !IsTotalRow(row)
    ensures Balanced(RecalcRow(row))
  {
    var r := RecalcRow(row);
    SameBalance(row, r);
    if Balance(row).Some? {
      AmountOfFormatted(r, 8, Balance(row).value);
    }
  }

  /** Each kept row comes from some row of the input. */
  lemma RowOrigin(rows: seq<Row>, i: nat) returns (k: nat)
    requires i < |WithoutTotals(rows)|
    ensures k < |rows| && WithoutTotals(rows)[i] == rows[k]
  {
    assert WithoutTotals(rows)[i] in rows;
    k :| 0 <= k < |rows| && rows[k] == WithoutTotals(rows)[i];
  }

  /** Recalculating a row twice is recalculating it once. */
  lemma RecalcRowTwice(row: Row)
    ensures RecalcRow(RecalcRow(row)) == RecalcRow(row)
  {
    var once := RecalcRow(row);
    if !IsTotalRow(row) && |row| > 8 && Balance(row).Some? {
      SameBalance(row, once);
      assert once[8 := once[8]] == once;
    }
  }

  /** Rows that agree on Total, Payment and Tax have the same balance. */
  lemma SameBalance(a: Row, b: Row)
    requires |a| == |b| > 7 && a[5] == b[5] && a[6] == b[6] && a[7] == b[7]
    ensures Balance(a) == Balance(b)
  {
    AmountSameCell(a, b, 5);
    AmountSameCell(a, b, 6);
    AmountSameCell(a, b, 7);
  }

  lemma {:induction false} WithoutTotalsNone(rows: seq<Row>)
    requires forall i :: 0 <= i < |rows| ==> !IsTotalRow(rows[i])
    ensures WithoutTotals(rows) == rows
    decreases |rows|
  {
    if rows != [] {
      WithoutTotalsNone(rows[1..]);
    }
  }

  lemma {:induction false} WithoutTotalsAppend(rows: seq<Row>, last: Row)
    ensures WithoutTotals(rows + [last]) == WithoutTotals(rows) + WithoutTotals([last])
    decreases |rows|
  {
    if rows != [] {
      var tail := rows[1..];
      assert (rows + [last])[1..] == tail + [last] && (rows + [last])[0] == rows[0];
      WithoutTotalsAppend(tail, last);
      var head := if IsTotalRow(rows[0]) then [] else [rows[0]];
      calc {
        WithoutTotals(rows + [last]);
        { WithoutTotalsCons(rows + [last]); }
        head + WithoutTotals(tail + [last]);
        head + (WithoutTotals(tail) + WithoutTotals([last]));
        { RowsAssoc(head, WithoutTotals(tail), WithoutTotals([last])); }
        (head + WithoutTotals(tail)) + WithoutTotals([last]);
        { WithoutTotalsCons(rows); }
        WithoutTotals(rows) + WithoutTotals([last]);
      }
    } else {
      assert rows + [last] == [last];
    }
  }

  lemma WithoutTotalsCons(rows: seq<Row>)
    requires rows != []
    ensures WithoutTotals(rows)
      == (if IsTotalRow(rows[0]) then [] else [rows[0]]) + WithoutTotals(rows[1..])
  {
  }

  lemma RowsAssoc(a: seq<Row>, b: seq<Row>, c: seq<Row>)
    ensures a + (b + c) == (a + b) + c
  {
  }

  /** `f` never makes a row a TOTAL row or stops it being one. */
  ghost predicate KeepsTotals(f: Row -> Row) {
    forall row :: IsTotalRow(f(row)) == IsTotalRow(row)
  }

  /** Mapping such an `f` commutes with dropping the TOTAL rows. */
  lemma {:induction false} MapWithoutTotals(f: Row -> Row, rows: seq<Row>)
    requires KeepsTotals(f)
    ensures WithoutTotals(MapRows(f, rows)) == MapRows(f, WithoutTotals(rows))
    decreases |rows|
  {
    if rows != [] {
      MapWithoutTotals(f, rows[1..]);
      assert MapRows(f, rows)[1..] == MapRows(f, rows[1..]);
      if !IsTotalRow(rows[0]) {
        assert MapRows(f, [rows[0]] + WithoutTotals(rows[1..])) == [f(rows[0])] + MapRows(f, WithoutTotals(rows[1..]));
      }
    }
  }

  /** A map whose function fixes every element changes nothing. */
  lemma {:induction false} MapFixed(f: Row -> Row, rows: seq<Row>)
    requires forall i :: 0 <= i < |rows| ==> f(rows[i]) == rows[i]
    ensures MapRows(f, rows) == rows
    decreases |rows|
  {
    if rows != [] {
      MapFixed(f, rows[1..]);
    }
  }

  /** `update_total_row` twice is `update_total_row` once. */
  lemma UpdateTotalRowTwice(rows: seq<Row>)
    ensures UpdateTotalRow(UpdateTotalRow(rows)) == UpdateTotalRow(rows)
  {
    var kept := WithoutTotals(rows);
    DropAppendedTotal(kept, TotalRow(SumRows(kept)));
  }

  lemma DropAppendedTotal(kept: seq<Row>, total: Row)
    requires forall i :: 0 <= i < |kept| ==> !IsTotalRow(kept[i])
    requires IsTotalRow(total)
    ensures WithoutTotals(kept + [total]) == kept
  {
    WithoutTotalsAppend(kept, total);
    WithoutTotalsNone(kept);
    assert WithoutTotals([total]) == [];
  }

  /** `recalculate_totals` is idempotent: running it again changes nothing. This is why
      the model runs it once however many times it is connected. */
  lemma RecalculateIdempotent(rows: seq<Row>)
    ensures Recalculate(Recalculate(rows)) == Recalculate(rows)
  {
    var m := MapRows(RecalcRow, rows);
    calc {
      Recalculate(Recalculate(rows));
      UpdateTotalRow(MapRows(RecalcRow, UpdateTotalRow(m)));
      { KeptRowsSettled(rows); SettledRowsStay(m); }
      UpdateTotalRow(UpdateTotalRow(m));
      { UpdateTotalRowTwice(m); }
      UpdateTotalRow(m);
    }
  }

  /** Recalculating any of `rows` changes nothing. */
  predicate Settled(rows: seq<Row>) {
    forall i :: 0 <= i < |rows| ==> RecalcRow(rows[i]) == rows[i]
  }

  /** The rows kept beside the TOTAL row after one recalculation are already settled. */
  lemma KeptRowsSettled(rows: seq<Row>)
    ensures Settled(WithoutTotals(MapRows(RecalcRow, rows)))
  {
    MapWithoutTotals(RecalcRow, rows);
    var kept := WithoutTotals(MapRows(RecalcRow, rows));
    forall i | 0 <= i < |kept| ensures RecalcRow(kept[i]) == kept[i] {
      RecalcRowTwice(WithoutTotals(rows)[i]);
    }
  }

  /** When the rows beside the TOTAL row are settled, recalculating every row of the
      updated table changes nothing. */
  lemma SettledRowsStay(m: seq<Row>)
    requires Settled(WithoutTotals(m))
    ensures MapRows(RecalcRow, UpdateTotalRow(m)) == UpdateTotalRow(m)
  {
    var once := UpdateTotalRow(m);
    forall i | 0 <= i < |once| ensures RecalcRow(once[i]) == once[i] {
      if i < |once| - 1 {
        assert once[i] == WithoutTotals(m)[i];
      }
    }
    MapFixed(RecalcRow, once);
  }

  // ---------------------------------------------------------------- add_row

  /** The text `add_row` writes into column `c`: the datum, or "" past the data's end. */
  function Pad(data: seq<string>, c: nat): string {
    if c < |data| then data[c] else ""
  }

  /** Columns `c` to 9 of row `r`, each a signalled write, in order. */
  function WriteColumns(l: Ledger, r: int, data: seq<string>, c: nat): (res: Ledger)
    requires c <= Columns
    ensures res.redo == l.redo && res.recalcLinks == l.recalcLinks
    ensures l.undo <= res.undo && l.edits <= res.edits
    decreases Columns - c
  {
    if c == Columns then l
    else
      var next := SignalledWrite(l, r, c, Pad(data, c));
      assert l.undo <= next.undo && l.edits <= next.edits;
      WriteColumns(next, r, data, c + 1)
  }

  /** `add_row`: a blank row appended at the bottom, then every column written with signals
      on, so each write is logged and, while connected, recalculates. Neither stack loses
      an entry and the redo stack is untouched. */
  function AddRow(l: Ledger, data: seq<string>): (res: Ledger)
    ensures res.redo == l.redo && res.recalcLinks == l.recalcLinks
    ensures l.undo <= res.undo && l.edits <= res.edits
  {
    WriteColumns(l.(rows := l.rows + [PartialRow(data, 0)]), |l.rows|, data, 0)
  }

  /** A row of which columns before `c` have been written by `add_row` and the rest are
      still empty. */
  function PartialRow(data: seq<string>, c: nat): (row: Row)
    ensures |row| == Columns
    ensures forall j :: 0 <= j < Columns ==> row[j] == (if j < c then Written(Pad(data, j)) else None)
  {
    seq(Columns, j requires 0 <= j < Columns => if j < c then Written(Pad(data, j)) else None)
  }

  /** The row `add_row` leaves when nothing recalculates. */
  function FilledRow(data: seq<string>): Row {
    PartialRow(data, Columns)
  }

  /** The undo entries and log lines `add_row` produces for columns `c` to 9 of row `r`. */
  function NewEntries(r: int, c: nat): (s: seq<Entry>)
    requires c <= Columns
    ensures |s| == Columns - c && forall k :: 0 <= k < |s| ==> s[k] == Entry(r, c + k, "")
  {
    seq(Columns - c, k requires 0 <= k < Columns - c => Entry(r, c + k, ""))
  }

  function NewEdits(r: nat, data: seq<string>, c: nat): (s: seq<Edit>)
    requires c <= Columns
    ensures |s| == Columns - c && forall k :: 0 <= k < |s| ==> s[k] == Edit(r, c + k, "", Pad(data, c + k))
  {
    seq(Columns - c, k requires 0 <= k < Columns - c => Edit(r, c + k, "", Pad(data, c + k)))
  }

  lemma PartialStep(data: seq<string>, c: nat)
    requires c < Columns
    ensures PartialRow(data, c)[c := Written(Pad(data, c))] == PartialRow(data, c + 1)
  {
  }

  /** One column of `add_row` with recalculation disconnected. */
  lemma WriteColumnPlain(l: Ledger, data: seq<string>, c: nat)
    requires l.recalcLinks == 0 && c < Columns && |l.rows| >= 1
    requires l.rows[|l.rows| - 1] == PartialRow(data, c)
    ensures var n := |l.rows| - 1;
      var next := SignalledWrite(l, n, c, Pad(data, c));
      && next.rows == l.rows[..n] + [PartialRow(data, c + 1)]
      && next.undo == l.undo + [Entry(n, c, "")]
      && next.edits == l.edits + [Edit(n, c, "", Pad(data, c))]
      && next.recalcLinks == 0 && next.redo == l.redo
  {
    var n := |l.rows| - 1;
    assert InRange(l.rows, n, c);
    PartialStep(data, c);
    assert l.rows[n := PartialRow(data, c + 1)] == l.rows[..n] + [PartialRow(data, c + 1)];
  }

  lemma {:induction false} WriteColumnsPlain(l: Ledger, data: seq<string>, c: nat)
    requires l.recalcLinks == 0 && c <= Columns && |l.rows| >= 1
    requires l.rows[|l.rows| - 1] == PartialRow(data, c)
    ensures var n := |l.rows| - 1;
      var res := WriteColumns(l, n, data, c);
      && res.rows == l.rows[..n] + [FilledRow(data)]
      && res.undo == l.undo + NewEntries(n, c)
      && res.edits == l.edits + NewEdits(n, data, c)
    decreases Columns - c
  {
    var n := |l.rows| - 1;
    if c == Columns {
      assert l.rows == l.rows[..n] + [l.rows[n]];
    } else {
      var next := SignalledWrite(l, n, c, Pad(data, c));
      WriteColumnPlain(l, data, c);
      assert |next.rows| - 1 == n && next.rows[..n] == l.rows[..n];
      WriteColumnsPlain(next, data, c + 1);
      var res := WriteColumns(next, n, data, c + 1);
      WriteColumnsUnfold(l, n, data, c);
      NewStep(l.undo, l.edits, n, data, c);
      assert res.undo == next.undo + NewEntries(n, c + 1);
      assert res.edits == next.edits + NewEdits(n, data, c + 1);
    }
  }

  /** Writing from column `c` is one write, then writing from `c + 1`. */
  lemma WriteColumnsUnfold(l: Ledger, r: int, data: seq<string>, c: nat)
    requires c < Columns
    ensures WriteColumns(l, r, data, c) == WriteColumns(SignalledWrite(l, r, c, Pad(data, c)), r, data, c + 1)
  {
  }

  lemma NewStep(undo: seq<Entry>, edits: seq<Edit>, n: nat, data: seq<string>, c: nat)
    requires c < Columns
    ensures undo + [Entry(n, c, "")] + NewEntries(n, c + 1) == undo + NewEntries(n, c)
    ensures edits + [Edit(n, c, "", Pad(data, c))] + NewEdits(n, data, c + 1) == edits + NewEdits(n, data, c)
  {
    assert NewEntries(n, c) == [Entry(n, c, "")] + NewEntries(n, c + 1);
    assert NewEdits(n, data, c) == [Edit(n, c, "", Pad(data, c))] + NewEdits(n, data, c + 1);
  }

  /** While recalculation is disconnected, `add_row` appends exactly the padded row and
      logs ten writes from "" into it, one per column in order. */
  lemma AddRowPlain(l: Ledger, data: seq<string>)
    requires l.recalcLinks == 0
    ensures var res := AddRow(l, data);
      && res.rows == l.rows + [FilledRow(data)]
      && res.undo == l.undo + NewEntries(|l.rows|, 0)
      && res.edits == l.edits + NewEdits(|l.rows|, data, 0)
  {
    var start := l.(rows := l.rows + [PartialRow(data, 0)]);
    WriteColumnsPlain(start, data, 0);
    assert start.rows[..|l.rows|] == l.rows;
  }

  /** The padded row of a worker result has the file name first, the total in both Total
      and Balance, and blank Payment and Tax; once recalculated, its Balance still reads as
      the total. */
  lemma FreshRowBalanced(filename: string, text: string)
    ensures var row := FilledRow(ObrFields.ResultRow(filename, text));
      && TextOf(row[0]) == filename && TextOf(row[9]) == ""
      && TextOf(row[8]) == TextOf(row[5])
      && Amount(row, 5) == Some(ObrFields.TotalCents(text))
      && (!IsTotalRow(row) ==> Amount(RecalcRow(row), 8) == Some(ObrFields.TotalCents(text)))
  {
    FilledBalanced(ObrFields.ResultRow(filename, text), ObrFields.TotalCents(text));
  }

  /** The padded row of nine cells whose Payment and Tax are blank and whose Balance repeats
      a Total that reads as `v`. */
  lemma FilledBalanced(data: seq<string>, v: int)
    requires |data| == 9 && data[6] == "" && data[7] == "" && data[5] == data[8]
    requires ParseAmount(data[5]) == Some(v)
    ensures var row := FilledRow(data);
      && TextOf(row[0]) == data[0] && TextOf(row[9]) == ""
      && TextOf(row[8]) == TextOf(row[5])
      && Amount(row, 5) == Some(v)
      && (!IsTotalRow(row) ==> Amount(RecalcRow(row), 8) == Some(v))
  {
    var row := FilledRow(data);
    assert row[5] == Written(data[5]) && row[6] == Written("") && row[7] == Written("");
    assert row[0] == Written(data[0]) && row[8] == Written(data[8]) && row[9] == Written("");
    WrittenReads(row, 5, data[5]);
    WrittenReads(row, 6, "");
    WrittenReads(row, 7, "");
    assert ParseAmount("") == Some(0);
    if !IsTotalRow(row) {
      RecalcRowBalanced(row);
    }
  }

  lemma WrittenReads(row: Row, c: nat, t: string)
    requires c < |row| && row[c] == Written(t)
    ensures Amount(row, c) == ParseAmount(t)
  {
  }

  // ---------------------------------------------------------------- paste_to_selection

  /** The writes of one pasted line: value `j` goes to column `col + j` of row `row`. */
  function ValueCells(vals: seq<string>, row: int, col: int): (s: seq<Entry>)
    ensures |s| == |vals| && forall j :: 0 <= j < |s| ==> s[j] == Entry(row, col + j, vals[j])
  {
    seq(|vals|, j requires 0 <= j < |vals| => Entry(row, col + j, vals[j]))
  }

  /** The writes of the pasted lines, line `i` going to row `row + i`, in order. */
  function LineCells(lines: seq<string>, row: int, col: int): (s: seq<Entry>)
    ensures forall k :: 0 <= k < |s| ==> row <= s[k].row < row + |lines| && col <= s[k].col
    decreases |lines|
  {
    if lines == [] then []
    else ValueCells(Split(lines[0], '\t'), row, col) + LineCells(lines[1..], row + 1, col)
  }

  /** Every clipboard value, by line (`splitlines`) and by tab, with its target cell counted
      from the current cell (-1 when there is none). */
  function PasteCells(startRow: int, startCol: int, clip: string): seq<Entry> {
    LineCells(SplitLines(clip), startRow, startCol)
  }

  /** `a` comes before `b` in reading order. */
  predicate Before(a: Entry, b: Entry) {
    a.row < b.row || (a.row == b.row && a.col < b.col)
  }

  predicate InReadingOrder(s: seq<Entry>) {
    forall i, j :: 0 <= i < j < |s| ==> Before(s[i], s[j])
  }

  /** The paste targets come in reading order, so no cell is written twice. */
  lemma {:induction false} LineCellsOrdered(lines: seq<string>, row: int, col: int)
    ensures InReadingOrder(LineCells(lines, row, col))
    decreases |lines|
  {
    if lines != [] {
      var head := ValueCells(Split(lines[0], '\t'), row, col);
      var rest := LineCells(lines[1..], row + 1, col);
      LineCellsOrdered(lines[1..], row + 1, col);
      var s := head + rest;
      forall i, j | 0 <= i < j < |s| ensures Before(s[i], s[j]) {
        if j < |head| {
          assert s[i] == head[i] && s[j] == head[j];
        } else if i < |head| {
          assert s[i] == head[i] && s[j] == rest[j - |head|];
        } else {
          assert s[i] == rest[i - |head|] && s[j] == rest[j - |head|];
        }
      }
    }
  }

  /** One pasted value: inside the row count and the ten columns, the cell's current text is
      pushed onto the undo stack and the value is written with signals on, which logs the
      write (from "", since the item is new) and pushes a second entry. */
  function PasteOne(l: Ledger, e: Entry): (res: Ledger)
    ensures res.redo == l.redo && res.recalcLinks == l.recalcLinks
    ensures l.undo <= res.undo && l.edits <= res.edits
    ensures !(e.row < |l.rows| && e.col < Columns) ==> res == l
    ensures InRange(l.rows, e.row, e.col) && e.col < Columns ==>
      res.undo == l.undo + [Entry(e.row, e.col, CellText(l.rows, e.row, e.col)), Entry(e.row, e.col, "")]
    ensures e.row < |l.rows| && e.col < Columns && !InRange(l.rows, e.row, e.col) ==>
      res.undo == l.undo + [Entry(e.row, e.col, "")] && res.rows == l.rows
  {
    if e.row < |l.rows| && e.col < Columns then
      var pushed := l.(undo := l.undo + [Entry(e.row, e.col, CellText(l.rows, e.row, e.col))]);
      SignalledWrite(pushed, e.row, e.col, e.text)
    else l
  }

  /** With recalculation disconnected, one pasted value inside the ten columns changes its
      own cell only, and the cell then shows the value. */
  lemma PasteOnePlain(l: Ledger, e: Entry)
    requires l.recalcLinks == 0
    ensures OnlyCellChanged(l.rows, PasteOne(l, e).rows, e.row, e.col)
    ensures InRange(l.rows, e.row, e.col) && e.col < Columns ==> CellText(PasteOne(l, e).rows, e.row, e.col) == e.text
  {
  }

  /** `paste_to_selection`: the values applied one after another. The redo stack and the
      connections are untouched and neither the undo stack nor the log loses an entry. */
  function Paste(l: Ledger, startRow: int, startCol: int, clip: string): (res: Ledger)
    ensures res.redo == l.redo && res.recalcLinks == l.recalcLinks
    ensures l.undo <= res.undo && l.edits <= res.edits
  {
    var cells := PasteCells(startRow, startCol, clip);
    PasteGrows(l, cells);
    Fold(PasteOne, l, cells)
  }

  lemma {:induction false} PasteGrows(l: Ledger, cells: seq<Entry>)
    ensures var res := Fold(PasteOne, l, cells);
      && res.redo == l.redo && res.recalcLinks == l.recalcLinks
      && l.undo <= res.undo && l.edits <= res.edits
    decreases |cells|
  {
    if cells != [] {
      PasteGrows(PasteOne(l, cells[0]), cells[1..]);
    }
  }

  /** Some entry of `cells` targets (i, j). */
  predicate Hit(cells: seq<Entry>, i: int, j: int) {
    exists k :: 0 <= k < |cells| && cells[k].row == i && cells[k].col == j
  }

  /** With recalculation disconnected, pasting writes in reading order leaves every targeted
      cell inside the table showing its value, and every other cell as it was. */
  lemma {:induction false} PasteWritesPlain(l: Ledger, cells: seq<Entry>)
    requires l.recalcLinks == 0 && WellFormed(l.rows) && InReadingOrder(cells)
    ensures var res := Fold(PasteOne, l, cells);
      && |res.rows| == |l.rows| && (forall i :: 0 <= i < |l.rows| ==> |res.rows[i]| == |l.rows[i]|)
      && (forall k :: 0 <= k < |cells| && InRange(l.rows, cells[k].row, cells[k].col)
            ==> CellText(res.rows, cells[k].row, cells[k].col) == cells[k].text)
      && (forall i, j :: InRange(l.rows, i, j) && !Hit(cells, i, j) ==> res.rows[i][j] == l.rows[i][j])
    decreases |cells|
  {
    if cells != [] {
      var m := PasteOne(l, cells[0]);
      PasteOnePlain(l, cells[0]);
      var rest := cells[1..];
      assert InReadingOrder(rest) by {
        forall i, j | 0 <= i < j < |rest| ensures Before(rest[i], rest[j]) {
          assert rest[i] == cells[i + 1] && rest[j] == cells[j + 1];
        }
      }
      PasteWritesPlain(m, rest);
      var res := Fold(PasteOne, m, rest);
      assert res == Fold(PasteOne, l, cells);
      var e := cells[0];
      assert !Hit(rest, e.row, e.col) by {
        forall k | 0 <= k < |rest| ensures rest[k].row != e.row || rest[k].col != e.col {
          assert Before(cells[0], cells[k + 1]);
        }
      }
      forall k | 0 <= k < |cells| && InRange(l.rows, cells[k].row, cells[k].col)
        ensures CellText(res.rows, cells[k].row, cells[k].col) == cells[k].text
      {
        if k > 0 {
          assert cells[k] == rest[k - 1];
        }
      }
      forall i, j | InRange(l.rows, i, j) && !Hit(cells, i, j) ensures res.rows[i][j] == l.rows[i][j] {
        assert i != e.row || j != e.col;
      }
    }
  }

  /** With recalculation disconnected, every pasted value that lands inside the table shows
      in its cell afterwards, and no cell outside the pasted block changes. */
  lemma PasteShowsValues(l: Ledger, startRow: int, startCol: int, clip: string)
    requires l.recalcLinks == 0 && WellFormed(l.rows)
    ensures var cells := PasteCells(startRow, startCol, clip);
      var res := Paste(l, startRow, startCol, clip);
      && |res.rows| == |l.rows| && WellFormed(res.rows)
      && (forall k :: 0 <= k < |cells| && InRange(l.rows, cells[k].row, cells[k].col)
            ==> CellText(res.rows, cells[k].row, cells[k].col) == cells[k].text)
      && (forall i, j :: InRange(l.rows, i, j) && !Hit(cells, i, j) ==> res.rows[i][j] == l.rows[i][j])
  {
    LineCellsOrdered(SplitLines(clip), startRow, startCol);
    PasteWritesPlain(l, PasteCells(startRow, startCol, clip));
  }

  /** What `recalculate_totals` leaves: exactly one TOTAL row, last, and every row above
      it balanced. */
  predicate Recalculated(rows: seq<Row>) {
    TotalLast(rows) && forall i :: 0 <= i < |rows| - 1 ==> Balanced(rows[i])
  }

  /** A recalculation of ten-column rows gives ten-column rows in that state. */
  lemma RecalculateSettles(rows: seq<Row>)
    requires WellFormed(rows)
    ensures WellFormed(Recalculate(rows)) && Recalculated(Recalculate(rows))
  {
    var mapped := MapRows(RecalcRow, rows);
    var res := Recalculate(rows);
    UpdatedTotalLast(mapped);
    forall i | 0 <= i < |res| - 1 ensures Balanced(res[i]) {
      BalanceLaw(rows, i);
    }
    forall i | 0 <= i < |res| ensures |res[i]| == Columns {
      if i < |res| - 1 {
        assert res[i] == WithoutTotals(mapped)[i];
        assert res[i] in mapped;
      }
    }
  }

  /** With recalculation connected, one pasted value inside the table leaves the rows
      recalculated; a value outside leaves them as they were. */
  lemma PasteOneConnected(l: Ledger, e: Entry)
    requires l.recalcLinks >= 1 && WellFormed(l.rows)
    ensures WellFormed(PasteOne(l, e).rows)
    ensures InRange(l.rows, e.row, e.col) ==> Recalculated(PasteOne(l, e).rows)
    ensures !InRange(l.rows, e.row, e.col) ==> PasteOne(l, e).rows == l.rows
  {
    if InRange(l.rows, e.row, e.col) {
      RecalculateSettles(Put(l.rows, e.row, e.col, Written(e.text)));
    }
  }

  /** With recalculation connected, once a value has landed inside the table the rows stay
      recalculated through the rest of the paste. */
  lemma {:induction false} PasteConnectedFold(l: Ledger, cells: seq<Entry>)
    requires l.recalcLinks >= 1 && WellFormed(l.rows)
    requires Recalculated(l.rows) || (cells != [] && InRange(l.rows, cells[0].row, cells[0].col))
    ensures WellFormed(Fold(PasteOne, l, cells).rows) && Recalculated(Fold(PasteOne, l, cells).rows)
    decreases |cells|
  {
    if cells != [] {
      var m := PasteOne(l, cells[0]);
      PasteOneConnected(l, cells[0]);
      PasteGrows(l, [cells[0]]);
      assert m.recalcLinks == l.recalcLinks;
      PasteConnectedFold(m, cells[1..]);
    }
  }

  /** An ordinary paste, with recalculation connected as the window sets it up: when the
      clipboard holds something and the current cell is in the table, every write
      recalculates, so the table ends with exactly one TOTAL row, last, and every row above
      it balanced. */
  lemma PasteSettles(l: Ledger, startRow: int, startCol: int, clip: string)
    requires l.recalcLinks >= 1 && WellFormed(l.rows)
    requires InRange(l.rows, startRow, startCol) && clip != []
    ensures var res := Paste(l, startRow, startCol, clip);
      && WellFormed(res.rows) && TotalLast(res.rows)
      && forall i :: 0 <= i < |res.rows| - 1 ==> Balanced(res.rows[i])
  {
    var lines := SplitLines(clip);
    var vals := Split(lines[0], '\t');
    var cells := PasteCells(startRow, startCol, clip);
    assert cells == ValueCells(vals, startRow, startCol) + LineCells(lines[1..], startRow + 1, startCol);
    assert cells[0] == Entry(startRow, startCol, vals[0]);
    PasteConnectedFold(l, cells);
  }

  // ---------------------------------------------------------------- extract_pdfs

  /** The window after an extraction, and the message boxes it showed, in order. */
  datatype Extracted = Extracted(ledger: Ledger, messages: seq<string>)

  /** The window's handling of one worker signal: a row is added, an error shown, and on
      `finished` the TOTAL row is rebuilt and recalculation connected once more. Progress
      only moves the progress dialog. */
  function Handle(x: Extracted, e: ObrWorker.Event): (res: Extracted)
    ensures res.ledger.redo == x.ledger.redo
    ensures res.ledger.recalcLinks == x.ledger.recalcLinks + (if e.Finished? then 1 else 0)
    ensures x.messages <= res.messages
  {
    match e
    case Progress(_, _) => x
    case Result(row) => x.(ledger := AddRow(x.ledger, row))
    case Error(message) => x.(messages := x.messages + [message])
    case Finished => Finish(x)
  }

  /** `finished`: the TOTAL row rebuilt and recalculation connected once more. */
  function Finish(x: Extracted): (res: Extracted)
    ensures res.ledger.rows == UpdateTotalRow(x.ledger.rows)
    ensures res.ledger.recalcLinks == x.ledger.recalcLinks + 1
    ensures res.ledger.redo == x.ledger.redo && res.messages == x.messages
  {
    x.(ledger := x.ledger.(rows := UpdateTotalRow(x.ledger.rows), recalcLinks := x.ledger.recalcLinks + 1))
  }

  /** The state once the handler has disconnected one recalculation link (if any) and
      emptied the table. The stacks and the log are kept. */
  function Detach(l: Ledger): (res: Ledger)
    ensures res.rows == [] && res.undo == l.undo && res.redo == l.redo && res.edits == l.edits
    ensures res.recalcLinks == if l.recalcLinks > 0 then l.recalcLinks - 1 else 0
  {
    l.(rows := [], recalcLinks := if l.recalcLinks > 0 then l.recalcLinks - 1 else 0)
  }

  /** `extract_pdfs`, with the worker run to completion before the window handles its
      signals in order. `folderPathListed` says whether the directory last chosen with the
      browse button can be listed: when no recalculation link was connected, the handler
      lists it for the activity log before anything else, and an error there ends the
      handler with nothing changed. `listing` lists the folder actually used (`None` when it
      is not a directory); `read` is the worker's reading of each file and `cancelAt` the
      index at which the worker finds the cancel flag set. */
  function Extract(l: Ledger, folderPathListed: bool, listing: Option<seq<string>>,
                   read: string -> ObrWorker.Reading, cancelAt: nat): (res: Extracted)
    ensures l.recalcLinks == 0 && !folderPathListed ==> res == Extracted(l, [])
    ensures (l.recalcLinks > 0 || folderPathListed) && listing.None?
      ==> res == Extracted(Detach(l), ["Invalid folder path."])
    ensures (l.recalcLinks > 0 || folderPathListed) && listing.Some? && SerialLine.PdfNames(listing.value) == []
      ==> res == Extracted(Detach(l), ["No PDF files found."])
  {
    if l.recalcLinks == 0 && !folderPathListed then Extracted(l, [])
    else
      var cleared := Detach(l);
      match listing
      case None => Extracted(cleared, ["Invalid folder path."])
      case Some(names) =>
        var pdfs := SerialLine.PdfNames(names);
        if pdfs == [] then Extracted(cleared, ["No PDF files found."])
        else Fold(Handle, Extracted(cleared, []), ObrWorker.Run(pdfs, read, cancelAt))
  }

  /** The rows of the `result` signals, in order. */
  function Results(events: seq<ObrWorker.Event>): (r: seq<seq<string>>)
    ensures forall k :: 0 <= k < |r| ==> ObrWorker.Result(r[k]) in events
    decreases |events|
  {
    if events == [] then []
    else (if events[0].Result? then [events[0].row] else []) + Results(events[1..])
  }

  /** The messages of the `error` signals, in order. */
  function Errors(events: seq<ObrWorker.Event>): seq<string>
    decreases |events|
  {
    if events == [] then []
    else (if events[0].Error? then [events[0].message] else []) + Errors(events[1..])
  }

  function FilledRows(data: seq<seq<string>>): (rows: seq<Row>)
    ensures |rows| == |data| && forall i :: 0 <= i < |data| ==> rows[i] == FilledRow(data[i])
  {
    seq(|data|, i requires 0 <= i < |data| => FilledRow(data[i]))
  }

  /** `step` handles every signal other than `finished` without touching the connections
      or the redo stack, showing exactly the error messages. */
  ghost predicate KeepsLinks(step: (Extracted, ObrWorker.Event) -> Extracted) {
    forall x: Extracted, e: ObrWorker.Event :: !e.Finished? ==>
      && step(x, e).ledger.recalcLinks == x.ledger.recalcLinks
      && step(x, e).ledger.redo == x.ledger.redo
      && step(x, e).messages == x.messages + Errors([e])
  }

  /** With recalculation disconnected, `step` handles a signal other than `finished` by
      appending the padded row of a result, and nothing else to the rows. */
  ghost predicate AppendsResults(step: (Extracted, ObrWorker.Event) -> Extracted) {
    forall x: Extracted, e: ObrWorker.Event :: !e.Finished? && x.ledger.recalcLinks == 0 ==>
      step(x, e).ledger.rows == x.ledger.rows + FilledRows(Results([e]))
  }

  lemma HandleKeepsLinks()
    ensures KeepsLinks(Handle)
  {
    forall x: Extracted, e: ObrWorker.Event | !e.Finished?
      ensures Handle(x, e).messages == x.messages + Errors([e])
    {
      if e.Error? {
        assert Errors([e]) == [e.message];
      } else {
        assert Errors([e]) == [];
      }
    }
  }

  lemma HandleAppendsResults()
    ensures AppendsResults(Handle)
  {
    forall x: Extracted, e: ObrWorker.Event | !e.Finished? && x.ledger.recalcLinks == 0
      ensures Handle(x, e).ledger.rows == x.ledger.rows + FilledRows(Results([e]))
    {
      if e.Result? {
        AddRowPlain(x.ledger, e.row);
        assert Results([e]) == [e.row];
      } else {
        assert Results([e]) == [];
      }
    }
  }

  /** Handling signals other than `finished` keeps the connections and the redo stack, and
      shows exactly the error messages. */
  lemma {:induction false} HandleSignals(step: (Extracted, ObrWorker.Event) -> Extracted,
                                         x: Extracted, events: seq<ObrWorker.Event>)
    requires KeepsLinks(step)
    requires forall i :: 0 <= i < |events| ==> !events[i].Finished?
    ensures var res := Fold(step, x, events);
      && res.ledger.recalcLinks == x.ledger.recalcLinks && res.ledger.redo == x.ledger.redo
      && res.messages == x.messages + Errors(events)
    decreases |events|
  {
    if events != [] {
      HandleSignals(step, step(x, events[0]), events[1..]);
      ErrorsConcat([events[0]], events[1..]);
      assert [events[0]] + events[1..] == events;
    }
  }

  /** ... and, with recalculation disconnected, appends exactly the padded result rows. */
  lemma {:induction false} HandleSignalsPlain(step: (Extracted, ObrWorker.Event) -> Extracted,
                                              x: Extracted, events: seq<ObrWorker.Event>)
    requires KeepsLinks(step) && AppendsResults(step)
    requires x.ledger.recalcLinks == 0
    requires forall i :: 0 <= i < |events| ==> !events[i].Finished?
    ensures Fold(step, x, events).ledger.rows == x.ledger.rows + FilledRows(Results(events))
    decreases |events|
  {
    if events != [] {
      var next := step(x, events[0]);
      HandleSignalsPlain(step, next, events[1..]);
      ResultsStep(x.ledger.rows, events);
    }
  }

  lemma ResultsStep(rows: seq<Row>, events: seq<ObrWorker.Event>)
    requires events != []
    ensures rows + FilledRows(Results([events[0]])) + FilledRows(Results(events[1..]))
      == rows + FilledRows(Results(events))
  {
    ResultsConcat([events[0]], events[1..]);
    assert [events[0]] + events[1..] == events;
    FilledRowsConcat(Results([events[0]]), Results(events[1..]));
  }

  lemma {:induction false} ResultsConcat(a: seq<ObrWorker.Event>, b: seq<ObrWorker.Event>)
    ensures Results(a + b) == Results(a) + Results(b)
    decreases |a|
  {
    if a != [] {
      assert (a + b)[1..] == a[1..] + b;
      ResultsConcat(a[1..], b);
    } else {
      assert a + b == b;
    }
  }

  lemma FilledRowsConcat(a: seq<seq<string>>, b: seq<seq<string>>)
    ensures FilledRows(a + b) == FilledRows(a) + FilledRows(b)
  {
  }

  /** The worker's signals before `finished`. */
  lemma RunSplit(files: seq<string>, read: string -> ObrWorker.Reading, cancelAt: nat)
    returns (body: seq<ObrWorker.Event>)
    ensures ObrWorker.Run(files, read, cancelAt) == body + [ObrWorker.Finished]
    ensures forall i :: 0 <= i < |body| ==> !body[i].Finished?
  {
    var run := ObrWorker.Run(files, read, cancelAt);
    body := run[..|run| - 1];
    assert run == body + [run[|run| - 1]];
    forall i | 0 <= i < |body| ensures !body[i].Finished? {
      ObrWorker.FinishedOnce(files, read, cancelAt, i);
    }
  }

  /** `step` handles `finished` by rebuilding the TOTAL row and connecting recalculation
      once more, and nothing else. */
  ghost predicate FinishesTotals(step: (Extracted, ObrWorker.Event) -> Extracted) {
    forall x: Extracted ::
      && step(x, ObrWorker.Finished).ledger.rows == UpdateTotalRow(x.ledger.rows)
      && step(x, ObrWorker.Finished).ledger.recalcLinks == x.ledger.recalcLinks + 1
      && step(x, ObrWorker.Finished).ledger.redo == x.ledger.redo
      && step(x, ObrWorker.Finished).messages == x.messages
  }

  lemma HandleFinishesTotals()
    ensures FinishesTotals(Handle)
  {
    forall x: Extracted ensures Handle(x, ObrWorker.Finished) == Finish(x) {
    }
  }

  /** An extraction that found PDF files handles the worker's whole run from the emptied
      table. */
  lemma ExtractRuns(l: Ledger, folderPathListed: bool, names: seq<string>,
                    read: string -> ObrWorker.Reading, cancelAt: nat)
    requires l.recalcLinks > 0 || folderPathListed
    requires SerialLine.PdfNames(names) != []
    ensures Extract(l, folderPathListed, Some(names), read, cancelAt)
      == Fold(Handle, Extracted(Detach(l), []), ObrWorker.Run(SerialLine.PdfNames(names), read, cancelAt))
  {
  }

  /** The TOTAL row is the last row and the only one. */
  predicate TotalLast(rows: seq<Row>) {
    |rows| >= 1 && forall i :: 0 <= i < |rows| ==> (IsTotalRow(rows[i]) <==> i == |rows| - 1)
  }

  lemma FoldLast<S, T>(step: (S, T) -> S, x: S, body: seq<T>, last: T)
    ensures Fold(step, x, body + [last]) == step(Fold(step, x, body), last)
  {
    FoldConcat(step, x, body, [last]);
    var mid := Fold(step, x, body);
    assert Fold(step, mid, [last]) == step(mid, last);
  }

  /** Handling signals that end with the only `finished` leaves exactly one TOTAL row, at
      the end, one more connection, the redo stack as it was and the error messages shown. */
  lemma RunEnds(step: (Extracted, ObrWorker.Event) -> Extracted, x: Extracted,
                body: seq<ObrWorker.Event>)
    requires KeepsLinks(step) && FinishesTotals(step)
    requires forall i :: 0 <= i < |body| ==> !body[i].Finished?
    ensures var res := Fold(step, x, body + [ObrWorker.Finished]);
      && TotalLast(res.ledger.rows)
      && res.ledger.recalcLinks == x.ledger.recalcLinks + 1
      && res.ledger.redo == x.ledger.redo
      && res.messages == x.messages + Errors(body + [ObrWorker.Finished])
  {
    FoldLast(step, x, body, ObrWorker.Finished);
    HandleSignals(step, x, body);
    var mid := Fold(step, x, body);
    UpdatedTotalLast(mid.ledger.rows);
    ErrorsConcat(body, [ObrWorker.Finished]);
    assert Errors([ObrWorker.Finished]) == [];
  }

  lemma UpdatedTotalLast(rows: seq<Row>)
    ensures TotalLast(UpdateTotalRow(rows))
  {
  }

  /** After an extraction that ran, the table ends with exactly one TOTAL row, recalculation
      is connected once more than during the run (so as before, or once if it was not), the
      redo stack is as it was, and the message boxes are the worker's error messages. */
  lemma ExtractionEnds(l: Ledger, folderPathListed: bool, names: seq<string>,
                       read: string -> ObrWorker.Reading, cancelAt: nat)
    requires l.recalcLinks > 0 || folderPathListed
    requires SerialLine.PdfNames(names) != []
    ensures var res := Extract(l, folderPathListed, Some(names), read, cancelAt);
      && TotalLast(res.ledger.rows)
      && res.ledger.recalcLinks == (if l.recalcLinks > 0 then l.recalcLinks else 1)
      && res.ledger.redo == l.redo
      && res.messages == Errors(ObrWorker.Run(SerialLine.PdfNames(names), read, cancelAt))
  {
    var pdfs := SerialLine.PdfNames(names);
    var body := RunSplit(pdfs, read, cancelAt);
    ExtractRuns(l, folderPathListed, names, read, cancelAt);
    HandleKeepsLinks();
    HandleFinishesTotals();
    RunEnds(Handle, Extracted(Detach(l), []), body);
  }

  /** A PDF file's name never reads "TOTAL". */
  lemma PdfNameNotTotal(name: string)
    requires SerialLine.IsPdfName(name)
    ensures name != "TOTAL"
  {
    assert |name| == 5 ==> Lower(name)[4] == ToLower(name[4]);
  }

  /** Every row the worker emits starts with the name of a PDF file of the run. */
  lemma ResultNames(files: seq<string>, read: string -> ObrWorker.Reading, cancelAt: nat, k: nat)
    requires k < |Results(ObrWorker.Run(files, read, cancelAt))|
    ensures var data := Results(ObrWorker.Run(files, read, cancelAt))[k];
      |data| > 0 && data[0] in files
  {
    var run := ObrWorker.Run(files, read, cancelAt);
    var data := Results(run)[k];
    var i :| 0 <= i < |run| && run[i] == ObrWorker.Result(data);
    ResultAt(files, read, cancelAt, i);
  }

  lemma ResultAt(files: seq<string>, read: string -> ObrWorker.Reading, cancelAt: nat, i: nat)
    requires i < |ObrWorker.Run(files, read, cancelAt)|
    requires ObrWorker.Run(files, read, cancelAt)[i].Result?
    ensures var data := ObrWorker.Run(files, read, cancelAt)[i].row;
      |data| > 0 && data[0] in files
  {
    var k := ObrWorker.ResultSource(files, read, cancelAt, i);
    OutcomeName(files[k], read(files[k]));
  }

  lemma OutcomeName(name: string, reading: ObrWorker.Reading)
    ensures var e := ObrWorker.Outcome(name, reading);
      e.Result? ==> |e.row| > 0 && e.row[0] == name
  {
  }

  /** With recalculation disconnected during the run (it was connected at most once), an
      extraction shows one filled row per `result` signal, in the worker's order, and then
      the TOTAL row of their sums. */
  lemma ExtractionRows(l: Ledger, folderPathListed: bool, names: seq<string>,
                       read: string -> ObrWorker.Reading, cancelAt: nat)
    requires l.recalcLinks == 1 || (l.recalcLinks == 0 && folderPathListed)
    requires SerialLine.PdfNames(names) != []
    ensures var run := ObrWorker.Run(SerialLine.PdfNames(names), read, cancelAt);
      var filled := FilledRows(Results(run));
      Extract(l, folderPathListed, Some(names), read, cancelAt).ledger.rows
        == filled + [TotalRow(SumRows(filled))]
  {
    var pdfs := SerialLine.PdfNames(names);
    var body := RunSplit(pdfs, read, cancelAt);
    ExtractRuns(l, folderPathListed, names, read, cancelAt);
    ResultRowsPlain(pdfs, read, cancelAt);
    RunRows(Extracted(Detach(l), []), body);
  }

  /** A run handled from an empty, disconnected table leaves the padded result rows and
      then the TOTAL row of their sums, provided no result row reads "TOTAL". */
  lemma RunRows(x: Extracted, body: seq<ObrWorker.Event>)
    requires x.ledger.rows == [] && x.ledger.recalcLinks == 0
    requires forall i :: 0 <= i < |body| ==> !body[i].Finished?
    requires var filled := FilledRows(Results(body + [ObrWorker.Finished]));
      WithoutTotals(filled) == filled
    ensures var filled := FilledRows(Results(body + [ObrWorker.Finished]));
      Fold(Handle, x, body + [ObrWorker.Finished]).ledger.rows == filled + [TotalRow(SumRows(filled))]
  {
    FoldLast(Handle, x, body, ObrWorker.Finished);
    ResultsFinished(body);
    BodyRows(x, body);
    FinishRows(Fold(Handle, x, body));
  }

  lemma ResultsFinished(body: seq<ObrWorker.Event>)
    ensures Results(body + [ObrWorker.Finished]) == Results(body)
  {
    ResultsConcat(body, [ObrWorker.Finished]);
    assert Results([ObrWorker.Finished]) == [];
  }

  /** `finished` on a table without a TOTAL row appends the TOTAL row of its sums. */
  lemma FinishRows(y: Extracted)
    requires WithoutTotals(y.ledger.rows) == y.ledger.rows
    ensures Handle(y, ObrWorker.Finished).ledger.rows
      == y.ledger.rows + [TotalRow(SumRows(y.ledger.rows))]
  {
    assert Handle(y, ObrWorker.Finished) == Finish(y);
  }

  /** Before finished, the signals of a run append its result rows to an empty,
      disconnected table. */
  lemma BodyRows(x: Extracted, body: seq<ObrWorker.Event>)
    requires x.ledger.rows == [] && x.ledger.recalcLinks == 0
    requires forall i :: 0 <= i < |body| ==> !body[i].Finished?
    ensures Fold(Handle, x, body).ledger.rows == FilledRows(Results(body))
  {
    assert KeepsLinks(Handle) by { HandleKeepsLinks(); }
    assert AppendsResults(Handle) by { HandleAppendsResults(); }
    HandleSignalsPlain(Handle, x, body);
    assert x.ledger.rows + FilledRows(Results(body)) == FilledRows(Results(body));
  }

  /** No result row of a run over PDFs reads "TOTAL" in its first cell. */
  lemma ResultRowsPlain(pdfs: seq<string>, read: string -> ObrWorker.Reading, cancelAt: nat)
    requires forall k :: 0 <= k < |pdfs| ==> SerialLine.IsPdfName(pdfs[k])
    ensures var filled := FilledRows(Results(ObrWorker.Run(pdfs, read, cancelAt)));
      WithoutTotals(filled) == filled
  {
    var results := Results(ObrWorker.Run(pdfs, read, cancelAt));
    var filled := FilledRows(results);
    forall k | 0 <= k < |filled| ensures !IsTotalRow(filled[k]) {
      ResultNames(pdfs, read, cancelAt, k);
      PdfNameNotTotal(results[k][0]);
    }
    WithoutTotalsNone(filled);
  }

  lemma {:induction false} ErrorsConcat(a: seq<ObrWorker.Event>, b: seq<ObrWorker.Event>)
    ensures Errors(a + b) == Errors(a) + Errors(b)
    decreases |a|
  {
    if a != [] {
      assert (a + b)[1..] == a[1..] + b;
      ErrorsConcat(a[1..], b);
    } else {
      assert a + b == b;
    }
  }
}

=== FILE: money.dfy ===
/** Money as integer cents: the `f"{x:,.2f}"` rendering the ledger writes into its
    amount columns, and the `float(text.replace(",", "") or 0)` reading it applies to them.

    The reading accepts an optional sign, decimal digits and at most two fraction digits,
    with surrounding whitespace; Python's `float` accepts more (see the README). */
module Money {
  import opened Wrappers
  import opened Text

  function Abs(c: int): nat {
    if c < 0 then -c else c
  }

  // ---------------------------------------------------------------- rendering

  /** Inserts a comma between groups of three digits, counted from the right. */
  function Group(ds: string): (r: string)
    ensures |ds| <= 3 ==> r == ds
    decreases |ds|
  {
    if |ds| <= 3 then ds else Group(ds[..|ds| - 3]) + "," + ds[|ds| - 3..]
  }

  function TwoDigits(n: nat): (r: string)
    requires n < 100
    ensures |r| == 2 && IsDigit(r[0]) && IsDigit(r[1])
  {
    [DigitChar(n / 10), DigitChar(n % 10)]
  }

  /** Groups of a comma and three digits, one after another. */
  predicate CommaGroups(u: string)
    decreases |u|
  {
    u == [] || (|u| >= 4 && u[0] == ',' && AllDigits(u[1..4]) && CommaGroups(u[4..]))
  }

  /** `n` leading digits (one to three), then comma groups. */
  predicate LeadGroups(w: string, n: nat) {
    1 <= n <= 3 && n <= |w| && AllDigits(w[..n]) && CommaGroups(w[n..])
  }

  /** The shape of a whole part written with the `,` option: one to three digits, then
      groups of a comma and three digits. */
  predicate Grouped(w: string) {
    LeadGroups(w, 1) || LeadGroups(w, 2) || LeadGroups(w, 3)
  }

  /** `f"{x:,.2f}"` for the amount `c` in cents: a minus sign exactly for a negative amount,
      the whole units in comma-grouped decimal, a point and the two cent digits. */
  function FormatCents(c: int): (r: string)
    ensures |r| >= 4 + (if c < 0 then 1 else 0) && r[|r| - 3] == '.' && IsDigit(r[|r| - 2]) && IsDigit(r[|r| - 1])
    ensures c < 0 <==> r[0] == '-'
    ensures Grouped(r[(if c < 0 then 1 else 0)..|r| - 3])
    ensures RemoveChar(r[(if c < 0 then 1 else 0)..|r| - 3], ',') == Digits(Abs(c) / 100)
    ensures r[|r| - 2..] == TwoDigits(Abs(c) % 100)
  {
    var a := Abs(c);
    var ds := Digits(a / 100);
    var tt := TwoDigits(a % 100);
    var sign := if c < 0 then "-" else "";
    GroupStartsWithDigit(ds);
    GroupShape(ds);
    UngroupGroup(ds);
    Layout(sign, Group(ds), tt);
    sign + Group(ds) + "." + tt
  }

  /** Where sign, whole part, point and cents sit in a rendered amount. */
  lemma Layout(sign: string, w: string, tt: string)
    requires |w| >= 1 && |tt| == 2
    ensures var r := sign + w + "." + tt;
      && |r| == |sign| + |w| + 3 && r[|sign|..|r| - 3] == w && r[|r| - 3] == '.' && r[|r| - 2..] == tt
      && r[0] == (if sign == [] then w[0] else sign[0])
  {
    var r := sign + w + "." + tt;
    assert r[|sign|..|r| - 3] == w;
    assert r[|r| - 2..] == tt;
  }

  /** A further comma group keeps comma groups. */
  lemma {:induction false} CommaGroupsAppend(u: string, lo: string)
    requires CommaGroups(u) && |lo| == 3 && AllDigits(lo)
    ensures CommaGroups(u + "," + lo)
    decreases |u|
  {
    var v := u + "," + lo;
    if u == [] {
      assert v[1..4] == lo && v[4..] == [];
    } else {
      CommaGroupsAppend(u[4..], lo);
      assert v[1..4] == u[1..4];
      assert v[4..] == u[4..] + "," + lo;
    }
  }

  lemma LeadGroupsAppend(g: string, n: nat, lo: string)
    requires LeadGroups(g, n) && |lo| == 3 && AllDigits(lo)
    ensures LeadGroups(g + "," + lo, n)
  {
    var w := g + "," + lo;
    CommaGroupsAppend(g[n..], lo);
    assert w[..n] == g[..n];
    assert w[n..] == g[n..] + "," + lo;
  }

  /** Comma grouping a digit string gives the grouped shape. */
  lemma {:induction false} GroupShape(ds: string)
    requires |ds| >= 1 && AllDigits(ds)
    ensures Grouped(Group(ds))
    decreases |ds|
  {
    if |ds| <= 3 {
      assert ds[..|ds|] == ds && ds[|ds|..] == [];
      assert LeadGroups(ds, |ds|);
    } else {
      var hi := ds[..|ds| - 3];
      var lo := ds[|ds| - 3..];
      GroupShape(hi);
      var g := Group(hi);
      var w := g + "," + lo;
      assert Group(ds) == w;
      var n: nat := if LeadGroups(g, 1) then 1 else if LeadGroups(g, 2) then 2 else 3;
      assert LeadGroups(g, n);
      LeadGroupsAppend(g, n, lo);
    }
  }

  lemma {:induction false} GroupStartsWithDigit(ds: string)
    requires |ds| >= 1 && forall i :: 0 <= i < |ds| ==> IsDigit(ds[i])
    ensures |Group(ds)| >= 1 && IsDigit(Group(ds)[0])
    decreases |ds|
  {
    if |ds| > 3 {
      GroupStartsWithDigit(ds[..|ds| - 3]);
    }
  }

  // ---------------------------------------------------------------- reading

  /** Cents denoted by zero, one or two fraction digits. */
  function FractionCents(frac: string): nat
    requires |frac| <= 2
  {
    if |frac| == 0 then 0
    else if |frac| == 1 then CharValue(frac[0]) * 10
    else CharValue(frac[0]) * 10 + CharValue(frac[1])
  }

  predicate AllDigits(s: string) {
    forall i :: 0 <= i < |s| ==> IsDigit(s[i])
  }

  /** An unsigned decimal: digits, then optionally a point and up to two digits,
      with at least one digit in all. */
  function ParseUnsigned(t: string): (r: Option<nat>)
    ensures r.Some? ==> |t| >= 1
  {
    var k := Run(t, 0, IsDigit);
    if k == |t| then
      (if k == 0 then None else Some(DigitsValue(t) * 100))
    else if t[k] != '.' then None
    else
      var frac := t[k + 1..];
      if |frac| > 2 || !AllDigits(frac) || (k == 0 && |frac| == 0) then None
      else Some(DigitsValue(t[..k]) * 100 + FractionCents(frac))
  }

  function ParseSigned(t: string): Option<int> {
    if t == [] then None
    else if t[0] == '-' then
      match ParseUnsigned(t[1..])
      case None => None
      case Some(v) => Some(0 - v)
    else if t[0] == '+' then
      match ParseUnsigned(t[1..])
      case None => None
      case Some(v) => Some(v)
    else
      match ParseUnsigned(t)
      case None => None
      case Some(v) => Some(v)
  }

  /** `float(text.replace(",", "") or 0)`: commas are ignored, an empty remainder reads as
      zero, and anything outside the decimal grammar is a failure (`None`). */
  function ParseAmount(text: string): (r: Option<int>)
    ensures RemoveChar(text, ',') == [] ==> r == Some(0)
  {
    var u := RemoveChar(text, ',');
    if u == [] then Some(0) else ParseSigned(Strip(u))
  }

  // ---------------------------------------------------------------- round trip

  lemma {:induction false} RemoveCharConcat(a: string, b: string, c: char)
    ensures RemoveChar(a + b, c) == RemoveChar(a, c) + RemoveChar(b, c)
    decreases |a|
  {
    if a != [] {
      assert (a + b)[0] == a[0];
      assert (a + b)[1..] == a[1..] + b;
      RemoveCharConcat(a[1..], b, c);
      if a[0] != c {
        assert [a[0]] + (RemoveChar(a[1..], c) + RemoveChar(b, c))
            == ([a[0]] + RemoveChar(a[1..], c)) + RemoveChar(b, c);
      }
    } else {
      assert a + b == b;
    }
  }

  lemma {:induction false} RemoveCharAbsent(s: string, c: char)
    requires c !in s
    ensures RemoveChar(s, c) == s
    decreases |s|
  {
    if s != [] {
      RemoveCharAbsent(s[1..], c);
    }
  }

  /** Dropping the commas of a grouped digit string gives the digits back. */
  lemma {:induction false} UngroupGroup(ds: string)
    requires AllDigits(ds)
    ensures RemoveChar(Group(ds), ',') == ds
    decreases |ds|
  {
    if |ds| <= 3 {
      RemoveCharAbsent(ds, ',');
    } else {
      var hi := ds[..|ds| - 3];
      var lo := ds[|ds| - 3..];
      UngroupGroup(hi);
      RemoveCharConcat(Group(hi) + ",", lo, ',');
      RemoveCharConcat(Group(hi), ",", ',');
      RemoveCharAbsent(lo, ',');
      assert hi + lo == ds;
    }
  }

  lemma {:induction false} RunStopsAt(s: string, p: nat, m: nat)
    requires p + m < |s| && !IsDigit(s[p + m])
    requires forall i :: p <= i < p + m ==> IsDigit(s[i])
    ensures Run(s, p, IsDigit) == m
    decreases m
  {
    if m > 0 {
      RunStopsAt(s, p + 1, m - 1);
    }
  }

  lemma FractionOfTwoDigits(n: nat)
    requires n < 100
    ensures FractionCents(TwoDigits(n)) == n
  {
  }

  /** A digit string, a point and two digits reads as whole units and cents. */
  lemma ParsePlain(ds: string, tt: string)
    requires |ds| >= 1 && AllDigits(ds)
    requires |tt| == 2 && AllDigits(tt)
    ensures ParseUnsigned(ds + "." + tt) == Some(DigitsValue(ds) * 100 + FractionCents(tt))
  {
    PlainShape(ds, tt);
    UnsignedWithPoint(ds + "." + tt, |ds|, ds, tt);
  }

  /** Where the digits of `ds + "." + tt` stop and what lies on either side of the point. */
  lemma PlainShape(ds: string, tt: string)
    requires AllDigits(ds)
    ensures var t := ds + "." + tt;
      Run(t, 0, IsDigit) == |ds| && t[|ds|] == '.' && t[..|ds|] == ds && t[|ds| + 1..] == tt
  {
    var t := ds + "." + tt;
    var k := |ds|;
    assert forall i :: 0 <= i < k ==> IsDigit(t[i]) by {
      forall i | 0 <= i < k ensures IsDigit(t[i]) {
        assert t[i] == ds[i];
      }
    }
    RunStopsAt(t, 0, k);
    assert t[..k] == ds;
    assert t[k + 1..] == tt;
  }

  /** `ParseUnsigned` on digits `ds`, a point and at most two digits `tt`. */
  lemma UnsignedWithPoint(t: string, k: nat, ds: string, tt: string)
    requires 1 <= k < |t| && Run(t, 0, IsDigit) == k && t[k] == '.'
    requires t[..k] == ds && t[k + 1..] == tt && |tt| <= 2 && AllDigits(tt)
    ensures ParseUnsigned(t) == Some(DigitsValue(ds) * 100 + FractionCents(tt))
  {
  }

  /** Dropping the commas of a rendered amount leaves sign, digits, point and cents. */
  lemma UngroupFormat(c: int)
    ensures RemoveChar(FormatCents(c), ',')
         == (if c < 0 then "-" else "") + Digits(Abs(c) / 100) + "." + TwoDigits(Abs(c) % 100)
  {
    var a := Abs(c);
    var ds := Digits(a / 100);
    var tt := TwoDigits(a % 100);
    var sign := if c < 0 then "-" else "";
    assert FormatCents(c) == sign + Group(ds) + "." + tt;
    RemoveCharConcat(sign + Group(ds) + ".", tt, ',');
    RemoveCharConcat(sign + Group(ds), ".", ',');
    RemoveCharConcat(sign, Group(ds), ',');
    RemoveCharAbsent(sign, ',');
    RemoveCharAbsent(".", ',');
    RemoveCharAbsent(tt, ',');
    UngroupGroup(ds);
  }

  lemma ParseNegativePlain(t: string, v: nat)
    requires |t| >= 1 && t[0] == '-' && ParseUnsigned(t[1..]) == Some(v)
    ensures ParseSigned(t) == Some(-(v as int))
  {
  }

  lemma ParseNonNegativePlain(t: string, v: nat)
    requires |t| >= 1 && IsDigit(t[0]) && ParseUnsigned(t) == Some(v)
    ensures ParseSigned(t) == Some(v)
  {
  }

  lemma ParseAmountClean(f: string, u: string)
    requires RemoveChar(f, ',') == u && u != []
    requires !IsSpace(u[0]) && !IsSpace(u[|u| - 1])
    ensures ParseAmount(f) == ParseSigned(u)
  {
    StripClean(u);
  }

  /** The sign, digits, point and cents that a rendered amount reduces to read back as it. */
  lemma ParsePlainAmount(c: int)
    ensures ParseSigned((if c < 0 then "-" else "") + Digits(Abs(c) / 100) + "." + TwoDigits(Abs(c) % 100))
         == Some(c)
  {
    var a := Abs(c);
    var ds := Digits(a / 100);
    var tt := TwoDigits(a % 100);
    var plain := ds + "." + tt;
    UnsignedCents(a);
    assert plain[0] == ds[0];
    if c < 0 {
      assert "-" + ds + "." + tt == "-" + plain;
      SignedMinus(plain, a);
    } else {
      assert "" + ds + "." + tt == plain;
      ParseNonNegativePlain(plain, a);
    }
  }

  /** The digits, point and cents of `a` read back as `a`. */
  lemma UnsignedCents(a: nat)
    ensures ParseUnsigned(Digits(a / 100) + "." + TwoDigits(a % 100)) == Some(a)
    ensures IsDigit(Digits(a / 100)[0])
  {
    ParsePlain(Digits(a / 100), TwoDigits(a % 100));
    DigitsRoundTrip(a / 100);
    FractionOfTwoDigits(a % 100);
  }

  lemma SignedMinus(plain: string, v: nat)
    requires ParseUnsigned(plain) == Some(v)
    ensures ParseSigned("-" + plain) == Some(-(v as int))
  {
    assert ("-" + plain)[1..] == plain;
    ParseNegativePlain("-" + plain, v);
  }

  /** Reading a rendered amount gives the amount back: the ledger's parser inverts its
      formatter on every value, negative balances included. */
  lemma FormatParseRoundTrip(c: int)
    ensures ParseAmount(FormatCents(c)) == Some(c)
  {
    var a := Abs(c);
    var ds := Digits(a / 100);
    var tt := TwoDigits(a % 100);
    var u := (if c < 0 then "-" else "") + ds + "." + tt;
    UngroupFormat(c);
    assert u[|u| - 1] == tt[1];
    assert u[0] == '-' || u[0] == ds[0];
    ParseAmountClean(FormatCents(c), u);
    ParsePlainAmount(c);
  }
}

=== FILE: obr_fields.dfy ===
/** The field rules of the OBR extractor (`ExtractWorker.run` in `obr_extractor.py`): from
    the OCR text of an Obligation Request's first page and its file name, one table row of
    file name, serial, date, payee, particulars and total.

    Each regular expression of `ExtractWorker.run` is a hand-written matcher at a start position,
    reproducing the backtracking outcome of Python's `re` for that pattern; `Leftmost` and
    `FirstAt` supply the search over start positions. Character classes are ASCII. */
module ObrFields {
  import opened Wrappers
  import opened Text
  import opened Money

  // ---------------------------------------------------------------- serial

  /** Index of the last `c` in `s`. */
  function LastIndex(s: string, c: char): (r: Option<nat>)
    ensures r.Some? ==> r.value < |s| && s[r.value] == c
    ensures r.Some? ==> forall j :: r.value < j < |s| ==> s[j] != c
    ensures r.None? ==> forall j :: 0 <= j < |s| ==> s[j] != c
    decreases |s|
  {
    if s == [] then None
    else if s[|s| - 1] == c then Some(|s| - 1)
    else LastIndex(s[..|s| - 1], c)
  }

  /** `os.path.splitext(name)[0]` for a bare file name: everything before the last `.`,
      unless only dots precede that `.` (a leading-dot name has no extension). */
  function Stem(name: string): (r: string)
    ensures |r| <= |name| && r == name[..|r|]
    ensures |r| < |name| ==> name[|r|] == '.'
    ensures |r| < |name| ==> forall j :: |r| < j < |name| ==> name[j] != '.'
    ensures |r| < |name| ==> exists j :: 0 <= j < |r| && name[j] != '.'
    ensures |r| == |name| ==> forall d :: 0 <= d < |name| && name[d] == '.' && (forall j :: d < j < |name| ==> name[j] != '.')
                                ==> forall j :: 0 <= j < d ==> name[j] == '.'
  {
    match LastIndex(name, '.')
    case None => name
    case Some(d) => if exists j :: 0 <= j < d && name[j] != '.' then name[..d] else name
  }

  // ---------------------------------------------------------------- label separator

  predicate IsLabelSep(c: char) { c == ':' || c == '-' }

  /** `\s*[:\-]?\s*` spans `s[a..i]` with the separator, if any, at `m`: whitespace up to
      `m`, then either nothing more (`m == i`) or the separator and whitespace up to `i`. */
  predicate Gap(s: string, a: nat, m: nat, i: nat) {
    a <= m <= i <= |s| && AllOf(s[a..m], IsSpace)
    && (m == i || (IsLabelSep(s[m]) && AllOf(s[m + 1..i], IsSpace)))
  }

  /** Some way of matching `\s*[:\-]?\s*` spans `s[a..i]`. */
  predicate GapTo(s: string, a: nat, i: nat) {
    exists m: nat :: a <= m <= i && Gap(s, a, m, i)
  }

  /** The end of `\s*[:\-]?\s*` taken greedily from `a`. Every shorter way of matching it
      ends earlier, and every position up to the greedy end is the end of some way: the
      gap's possible ends are exactly `a` to `r`. */
  function GreedyGap(s: string, a: nat): (r: nat)
    requires a <= |s|
    ensures a <= r <= |s|
    ensures forall i: nat :: GapTo(s, a, i) <==> a <= i <= r
    ensures forall k :: a <= k < r ==> IsSpace(s[k]) || IsLabelSep(s[k])
  {
    var q1 := a + Run(s, a, IsSpace);
    var q2 := if q1 < |s| && IsLabelSep(s[q1]) then q1 + 1 else q1;
    var q3 := q2 + Run(s, q2, IsSpace);
    RunChars(s, a, IsSpace);
    RunChars(s, q2, IsSpace);
    GapEnds(s, a, q1, q2, q3);
    q3
  }

  lemma GapEnds(s: string, a: nat, q1: nat, q2: nat, q3: nat)
    requires a <= |s| && q1 == a + Run(s, a, IsSpace)
    requires q2 == if q1 < |s| && IsLabelSep(s[q1]) then q1 + 1 else q1
    requires q3 == q2 + Run(s, q2, IsSpace)
    ensures forall i: nat :: GapTo(s, a, i) <==> a <= i <= q3
  {
    forall i: nat | a <= i <= q3 ensures GapTo(s, a, i) {
      GapEndIn(s, a, q1, q2, q3, i);
    }
    forall i: nat, m: nat | a <= m <= i && Gap(s, a, m, i) ensures i <= q3 {
      GapEndOut(s, a, q1, q2, q3, m, i);
    }
  }

  lemma GapEndIn(s: string, a: nat, q1: nat, q2: nat, q3: nat, i: nat)
    requires a <= |s| && q1 == a + Run(s, a, IsSpace)
    requires q2 == if q1 < |s| && IsLabelSep(s[q1]) then q1 + 1 else q1
    requires q3 == q2 + Run(s, q2, IsSpace)
    requires a <= i <= q3
    ensures GapTo(s, a, i)
  {
    if i <= q1 {
      RunSlice(s, a, i, IsSpace);
      assert Gap(s, a, i, i);
    } else {
      RunSlice(s, a, q1, IsSpace);
      RunSlice(s, q2, i, IsSpace);
      assert Gap(s, a, q1, i);
    }
  }

  lemma GapEndOut(s: string, a: nat, q1: nat, q2: nat, q3: nat, m: nat, i: nat)
    requires a <= |s| && q1 == a + Run(s, a, IsSpace)
    requires q2 == if q1 < |s| && IsLabelSep(s[q1]) then q1 + 1 else q1
    requires q3 == q2 + Run(s, q2, IsSpace)
    requires Gap(s, a, m, i)
    ensures i <= q3
  {
    RunReaches(s, a, m, IsSpace);
    RunChars(s, a, IsSpace);
    if m < i {
      assert m == q1;
      RunReaches(s, q2, i, IsSpace);
    }
  }

  // ---------------------------------------------------------------- date

  /** The shape of a date group, with its cut points: letters, whitespace, one or two
      digits, a comma, whitespace, four digits. */
  predicate DateShape(t: string, a: nat, b: nat, c: nat, y: nat) {
    0 < a < b < c <= b + 2 && c + 1 < y && y + 4 == |t|
    && AllOf(t[..a], IsAlpha) && AllOf(t[a..b], IsSpace) && AllOf(t[b..c], IsDigit)
    && t[c] == ',' && AllOf(t[c + 1..y], IsSpace) && AllOf(t[y..], IsDigit)
  }

  ghost predicate IsDateText(t: string) {
    exists a: nat, b: nat, c: nat, y: nat :: DateShape(t, a, b, c, y)
  }

  /** A word from `g` to `w`, whitespace to `d`, one or two digits to `c`, a comma,
      whitespace to `y` and four digits: the date's cut points in the whole text. */
  predicate DateTextAt(s: string, g: nat, w: nat, d: nat, c: nat, y: nat) {
    g < w < d < c <= d + 2 && c + 1 < y && y + 4 <= |s|
    && AllOf(s[g..w], IsAlpha) && AllOf(s[w..d], IsSpace) && AllOf(s[d..c], IsDigit)
    && s[c] == ',' && AllOf(s[c + 1..y], IsSpace) && AllOf(s[y..y + 4], IsDigit)
  }

  lemma DateGroupShape(s: string, g: nat, w: nat, d: nat, c: nat, y: nat)
    requires DateTextAt(s, g, w, d, c, y)
    ensures IsDateText(s[g..y + 4])
  {
    var e := y + 4;
    var t := s[g..e];
    AllOfWithin(s, g, e, 0, w - g, IsAlpha);
    AllOfWithin(s, g, e, w - g, d - g, IsSpace);
    AllOfWithin(s, g, e, d - g, c - g, IsDigit);
    AllOfWithin(s, g, e, c - g + 1, y - g, IsSpace);
    AllOfWithin(s, g, e, y - g, e - g, IsDigit);
    assert t[..w - g] == t[0..w - g] && t[y - g..] == t[y - g..e - g];
    assert t[c - g] == s[c];
    assert DateShape(t, w - g, d - g, c - g, y - g);
  }

  /** Conversely, a date text's own cut points are cut points in the whole text. */
  lemma DateTextOf(s: string, g: nat, e: nat, a: nat, b: nat, c: nat, y: nat)
    requires g < e <= |s| && DateShape(s[g..e], a, b, c, y)
    ensures DateTextAt(s, g, g + a, g + b, g + c, g + y) && e == g + y + 4
  {
    var t := s[g..e];
    assert t[..a] == t[0..a] && t[y..] == t[y..e - g];
    AllOfOutside(s, g, e, 0, a, IsAlpha);
    AllOfOutside(s, g, e, a, b, IsSpace);
    AllOfOutside(s, g, e, b, c, IsDigit);
    AllOfOutside(s, g, e, c + 1, y, IsSpace);
    AllOfOutside(s, g, e, y, e - g, IsDigit);
    assert t[c] == s[g + c];
  }

  lemma AllOfWithin(s: string, g: nat, e: nat, i: nat, j: nat, cls: char -> bool)
    requires g <= e <= |s| && i <= j <= e - g && AllOf(s[g + i..g + j], cls)
    ensures AllOf(s[g..e][i..j], cls)
  {
    SliceOfSlice(s, g, e, i, j);
  }

  lemma AllOfOutside(s: string, g: nat, e: nat, i: nat, j: nat, cls: char -> bool)
    requires g <= e <= |s| && i <= j <= e - g && AllOf(s[g..e][i..j], cls)
    ensures AllOf(s[g + i..g + j], cls)
  {
    SliceOfSlice(s, g, e, i, j);
  }

  lemma SliceOfSlice(s: string, i: nat, j: nat, a: nat, b: nat)
    requires i <= j <= |s| && a <= b <= j - i
    ensures s[i..j][a..b] == s[i + a..i + b]
  {
    assert forall k :: 0 <= k < b - a ==> s[i..j][a..b][k] == s[i + a + k];
  }

  /** The cut points the greedy runs of `[A-Za-z]+\s+\d{1,2},\s+\d{4}` give from `g`
      form a date: a word, whitespace, one or two digits, a comma, whitespace and four
      digits. A run that is too long cannot be shortened by backtracking, as the next
      element never matches a character of the run's class. */
  predicate DateCuts(s: string, g: nat, w: nat, d: nat, c: nat, y: nat) {
    g < w < d < c <= d + 2 && c < |s| && s[c] == ','
    && c + 1 < y && y + 4 <= |s| && AllOf(s[y..y + 4], IsDigit)
  }

  /** Cut points in a date: the ends of the word, of the whitespace after it, of the day,
      and of the whitespace after the comma. */
  datatype Cuts = Cuts(w: nat, d: nat, c: nat, y: nat)

  /** The cut points of the greedy runs from `g`. */
  function DateCutsFrom(s: string, g: nat): (k: Cuts)
    ensures g <= k.w <= k.d <= k.c && k.c + 1 <= k.y
  {
    CutsAfterWord(s, g + Run(s, g, IsAlpha))
  }

  function CutsAfterWord(s: string, w: nat): (k: Cuts)
    ensures w == k.w <= k.d <= k.c && k.c + 1 <= k.y
  {
    CutsAfterGap(s, w, w + Run(s, w, IsSpace))
  }

  function CutsAfterGap(s: string, w: nat, d: nat): (k: Cuts)
    requires w <= d
    ensures w == k.w && d == k.d <= k.c && k.c + 1 <= k.y
  {
    CutsAfterDay(s, w, d, d + Run(s, d, IsDigit))
  }

  function CutsAfterDay(s: string, w: nat, d: nat, c: nat): (k: Cuts)
    requires w <= d <= c
    ensures k.w == w && k.d == d && k.c == c && c + 1 <= k.y
  {
    Cuts(w, d, c, c + 1 + Run(s, c + 1, IsSpace))
  }

  lemma DateCutsFound(s: string, g: nat, w: nat, d: nat, c: nat, y: nat)
    requires DateCutsFrom(s, g) == Cuts(w, d, c, y) && DateCuts(s, g, w, d, c, y)
    ensures IsDateText(s[g..y + 4])
  {
    CutsFromFields(s, g, w, d, c, y);
    DateGroupFound(s, g, w, d, c, y);
  }

  /** The cut points are the ends of the four greedy runs. */
  lemma CutsFromFields(s: string, g: nat, w: nat, d: nat, c: nat, y: nat)
    requires DateCutsFrom(s, g) == Cuts(w, d, c, y)
    ensures w == g + Run(s, g, IsAlpha) && d == w + Run(s, w, IsSpace)
    ensures c == d + Run(s, d, IsDigit) && y == c + 1 + Run(s, c + 1, IsSpace)
  {
    var w0 := g + Run(s, g, IsAlpha);
    assert CutsAfterWord(s, w0) == Cuts(w, d, c, y);
    assert w0 == w;
    AfterWordFields(s, w, d, c, y);
  }

  lemma AfterWordFields(s: string, w: nat, d: nat, c: nat, y: nat)
    requires CutsAfterWord(s, w) == Cuts(w, d, c, y)
    ensures d == w + Run(s, w, IsSpace)
    ensures c == d + Run(s, d, IsDigit) && y == c + 1 + Run(s, c + 1, IsSpace)
  {
    assert CutsAfterGap(s, w, w + Run(s, w, IsSpace)) == Cuts(w, d, c, y);
    AfterGapFields(s, w, d, c, y);
  }

  lemma AfterGapFields(s: string, w: nat, d: nat, c: nat, y: nat)
    requires w <= d && CutsAfterGap(s, w, d) == Cuts(w, d, c, y)
    ensures c == d + Run(s, d, IsDigit) && y == c + 1 + Run(s, c + 1, IsSpace)
  {
    assert CutsAfterDay(s, w, d, d + Run(s, d, IsDigit)) == Cuts(w, d, c, y);
  }

  lemma DateGroupFound(s: string, g: nat, w: nat, d: nat, c: nat, y: nat)
    requires w == g + Run(s, g, IsAlpha) && d == w + Run(s, w, IsSpace)
    requires c == d + Run(s, d, IsDigit) && y == c + 1 + Run(s, c + 1, IsSpace)
    requires DateCuts(s, g, w, d, c, y)
    ensures IsDateText(s[g..y + 4])
  {
    RunAllOf(s, g, w, IsAlpha);
    RunAllOf(s, w, d, IsSpace);
    RunAllOf(s, d, c, IsDigit);
    RunAllOf(s, c + 1, y, IsSpace);
    DateGroupShape(s, g, w, d, c, y);
  }

  /** End of the group `[A-Za-z]+\s+\d{1,2},\s+\d{4}` matched at `g`. */
  function DateGroup(s: string, g: nat): (e: Option<nat>)
    ensures e.Some? ==> g < e.value <= |s| && IsDateText(s[g..e.value])
  {
    var k := DateCutsFrom(s, g);
    if DateCuts(s, g, k.w, k.d, k.c, k.y) then
      DateCutsFound(s, g, k.w, k.d, k.c, k.y);
      Some(k.y + 4)
    else None
  }

  /** Bounds of a regular expression's group: from `start` up to `end`. */
  datatype Span = Span(start: nat, end: nat)

  /** Bounds of the group of `(?:Date\s*[:\-]?\s*)([A-Za-z]+\s+\d{1,2},\s+\d{4})` matched
      case-insensitively at `p`: the keyword, a separator gap, and a date text. The gap is
      taken whole, as the group cannot start with whitespace or a separator. */
  function DateAt(s: string, p: nat): (r: Option<Span>)
    ensures r.Some? ==> p < r.value.start < r.value.end <= |s| && IsDateText(s[r.value.start..r.value.end])
    ensures r.Some? ==> OccursAtCi(s, "date", p) && GapTo(s, p + 4, r.value.start)
  {
    if !OccursAtCi(s, "date", p) then None
    else
      var g := GreedyGap(s, p + 4);
      match DateGroup(s, g)
      case None => None
      case Some(e) => Some(Span(g, e))
  }

  /** Every match of the date pattern at `p` is found there, with the same group: the
      keyword, any separator gap and a date text from `g` to `e`. */
  lemma DateAtFinds(s: string, p: nat, g: nat, e: nat, a: nat, b: nat, c: nat, y: nat)
    requires OccursAtCi(s, "date", p) && GapTo(s, p + 4, g)
    requires g < e <= |s| && DateShape(s[g..e], a, b, c, y)
    ensures DateAt(s, p) == Some(Span(g, e))
  {
    DateGroupOf(s, g, e, a, b, c, y);
    DateAtIs(s, p, g, e);
  }

  lemma DateGroupOf(s: string, g: nat, e: nat, a: nat, b: nat, c: nat, y: nat)
    requires g < e <= |s| && DateShape(s[g..e], a, b, c, y)
    ensures IsAlpha(s[g]) && DateGroup(s, g) == Some(e)
  {
    DateTextOf(s, g, e, a, b, c, y);
    assert IsAlpha(s[g]) by { assert s[g] == s[g..g + a][0]; }
    DateGroupFromText(s, g, g + a, g + b, g + c, g + y, e);
  }

  /** From cut points that form a date, the greedy runs find exactly those cut points. */
  lemma DateGroupFromText(s: string, g: nat, w: nat, d: nat, c: nat, y: nat, e: nat)
    requires DateTextAt(s, g, w, d, c, y) && e == y + 4
    ensures DateGroup(s, g) == Some(e)
  {
    DateTextRuns(s, g, w, d, c, y);
    DateGroupAt(s, g, w, d, c, y);
  }

  /** Each greedy run of the date pattern stops at the next cut point. */
  lemma DateTextRuns(s: string, g: nat, w: nat, d: nat, c: nat, y: nat)
    requires DateTextAt(s, g, w, d, c, y)
    ensures g + Run(s, g, IsAlpha) == w && w + Run(s, w, IsSpace) == d
    ensures d + Run(s, d, IsDigit) == c && c + 1 + Run(s, c + 1, IsSpace) == y
  {
    WordStops(s, g, w, d, c, y);
    GapStops(s, g, w, d, c, y);
    DayStops(s, g, w, d, c, y);
    YearGapStops(s, g, w, d, c, y);
  }

  lemma WordStops(s: string, g: nat, w: nat, d: nat, c: nat, y: nat)
    requires DateTextAt(s, g, w, d, c, y)
    ensures g + Run(s, g, IsAlpha) == w
  {
    RunUntil(s, g, w, d, IsAlpha, IsSpace);
  }

  lemma GapStops(s: string, g: nat, w: nat, d: nat, c: nat, y: nat)
    requires DateTextAt(s, g, w, d, c, y)
    ensures w + Run(s, w, IsSpace) == d
  {
    RunUntil(s, w, d, c, IsSpace, IsDigit);
  }

  lemma DayStops(s: string, g: nat, w: nat, d: nat, c: nat, y: nat)
    requires DateTextAt(s, g, w, d, c, y)
    ensures d + Run(s, d, IsDigit) == c
  {
    RunOfAll(s, d, c, IsDigit);
  }

  lemma YearGapStops(s: string, g: nat, w: nat, d: nat, c: nat, y: nat)
    requires DateTextAt(s, g, w, d, c, y)
    ensures c + 1 + Run(s, c + 1, IsSpace) == y
  {
    RunUntil(s, c + 1, y, y + 4, IsSpace, IsDigit);
  }

  /** A run of one class followed by a character of a disjoint class stops there. */
  lemma RunUntil(s: string, p: nat, q: nat, r: nat, cls: char -> bool, next: char -> bool)
    requires p <= q < r <= |s| && AllOf(s[p..q], cls) && AllOf(s[q..r], next)
    requires forall ch :: next(ch) ==> !cls(ch)
    ensures p + Run(s, p, cls) == q
  {
    assert next(s[q]) by { assert s[q] == s[q..r][0]; }
    RunOfAll(s, p, q, cls);
  }

  /** Cut points that the greedy runs stop at, with a comma and four digits where the
      pattern wants them, give the group's end. */
  lemma DateGroupAt(s: string, g: nat, w: nat, d: nat, c: nat, y: nat)
    requires g + Run(s, g, IsAlpha) == w && w + Run(s, w, IsSpace) == d
    requires d + Run(s, d, IsDigit) == c && c + 1 + Run(s, c + 1, IsSpace) == y
    requires g < w < d < c <= d + 2 && c + 1 < y && y + 4 <= |s|
    requires s[c] == ',' && AllOf(s[y..y + 4], IsDigit)
    ensures DateGroup(s, g) == Some(y + 4)
  {
    DateCutsFromIs(s, g, w, d, c, y);
    DateGroupIs(s, g, Cuts(w, d, c, y));
  }

  lemma DateGroupIs(s: string, g: nat, k: Cuts)
    requires DateCutsFrom(s, g) == k && DateCuts(s, g, k.w, k.d, k.c, k.y)
    ensures DateGroup(s, g) == Some(k.y + 4)
  {
    assert DateGroup(s, g) == if DateCuts(s, g, k.w, k.d, k.c, k.y) then Some(k.y + 4) else None;
  }

  lemma DateAtIs(s: string, p: nat, g: nat, e: nat)
    requires OccursAtCi(s, "date", p) && GapTo(s, p + 4, g) && g < |s| && IsAlpha(s[g])
    requires DateGroup(s, g) == Some(e)
    ensures DateAt(s, p) == Some(Span(g, e))
  {
    assert GreedyGap(s, p + 4) == g;
    assert DateAt(s, p) == match DateGroup(s, g) case None => None case Some(e') => Some(Span(g, e'));
  }

  lemma DateCutsFromIs(s: string, g: nat, w: nat, d: nat, c: nat, y: nat)
    requires g + Run(s, g, IsAlpha) == w && w + Run(s, w, IsSpace) == d
    requires d + Run(s, d, IsDigit) == c && c + 1 + Run(s, c + 1, IsSpace) == y
    ensures DateCutsFrom(s, g) == Cuts(w, d, c, y)
  {
    CutsAfterWordIs(s, w, d, c, y);
  }

  lemma CutsAfterWordIs(s: string, w: nat, d: nat, c: nat, y: nat)
    requires w + Run(s, w, IsSpace) == d
    requires d + Run(s, d, IsDigit) == c && c + 1 + Run(s, c + 1, IsSpace) == y
    ensures CutsAfterWord(s, w) == Cuts(w, d, c, y)
  {
    CutsAfterGapIs(s, w, d, c, y);
  }

  lemma CutsAfterGapIs(s: string, w: nat, d: nat, c: nat, y: nat)
    requires w <= d && d + Run(s, d, IsDigit) == c && c + 1 + Run(s, c + 1, IsSpace) == y
    ensures CutsAfterGap(s, w, d) == Cuts(w, d, c, y)
  {
  }

  /** The date field: the group of the first match anywhere in the text, or "". */
  function ExtractDate(text: string): (r: string)
    ensures r != [] ==> IsDateText(r)
    ensures r == [] <==> forall p :: 0 <= p <= |text| ==> DateAt(text, p).None?
  {
    match Leftmost(text, DateAt, 0)
    case None => ""
    case Some(p) =>
      var span := DateAt(text, p).value;
      text[span.start..span.end]
  }

  /** The date field is the group of the leftmost match. */
  lemma ExtractDateFirst(text: string, p: nat)
    requires FirstMatch(text, DateAt, 0, p)
    ensures ExtractDate(text) == text[DateAt(text, p).value.start..DateAt(text, p).value.end]
  {
    LeftmostIsFirst(text, DateAt, 0, p);
  }

  // ---------------------------------------------------------------- payee

  /** `i` is where the group of `Payee\s*[:\-]?\s*(.+)` starts when it is matched
      case-insensitively at `p` of a line: the gap after the label ends at `i`, and `i` is
      the last gap end that leaves `.+` at least one character. Lines are cut at `\n`, so
      `.` matches every character of them. */
  predicate PayeeGroupAt(line: string, p: nat, i: nat) {
    OccursAtCi(line, "payee", p) && LastGapEnd(line, p + 5, i)
  }

  /** `i` ends a gap from `a` and is the last such end before the end of `s`. */
  predicate LastGapEnd(s: string, a: nat, i: nat) {
    a <= i < |s| && GapTo(s, a, i) && forall j: nat :: i < j < |s| ==> !GapTo(s, a, j)
  }

  /** The group of the payee pattern matched at `p`, after Python's backtracking: the
      text after the label, the separator and the spaces; when nothing follows them, the
      engine gives back one space, or the separator itself. So a line ending in "Payee:"
      yields ":". */
  function PayeeAt(line: string, p: nat): (r: Option<string>)
    ensures r.Some? <==> OccursAtCi(line, "payee", p) && p + 5 < |line|
    ensures r.Some? ==> exists i: nat :: PayeeGroupAt(line, p, i) && r.value == line[i..]
    ensures r.Some? ==> |r.value| >= 1 && |r.value| <= |line| && r.value == line[|line| - |r.value|..]
  {
    match PayeeStart(line, p)
    case None => None
    case Some(i) => Some(line[i..])
  }

  /** Where the group of the payee pattern matched at `p` starts: the end of the whole
      gap, or one character before it when the gap runs to the end of the line. */
  function PayeeStart(line: string, p: nat): (i: Option<nat>)
    ensures i.Some? <==> OccursAtCi(line, "payee", p) && p + 5 < |line|
    ensures i.Some? ==> PayeeGroupAt(line, p, i.value)
  {
    if !OccursAtCi(line, "payee", p) then None
    else
      var g := GreedyGap(line, p + 5);
      if g < |line| then Some(g)
      else if g > p + 5 then Some(g - 1)
      else None
  }

  /** Every match of the payee pattern at `p` is found there, with the same group. */
  lemma PayeeAtFinds(line: string, p: nat, i: nat)
    requires PayeeGroupAt(line, p, i)
    ensures PayeeAt(line, p) == Some(line[i..])
  {
    var k := PayeeStart(line, p).value;
    assert PayeeGroupAt(line, p, k);
    assert !(i < k) && !(k < i);
  }

  /** `re.search` of the payee pattern in one line. */
  function PayeeGroup(line: string): (r: Option<string>)
    ensures r.None? <==> forall p :: 0 <= p <= |line| ==> PayeeAt(line, p).None?
    ensures forall p :: FirstMatch(line, PayeeAt, 0, p) ==> r == PayeeAt(line, p)
  {
    match Leftmost(line, PayeeAt, 0)
    case None => None
    case Some(p) =>
      assert forall q :: FirstMatch(line, PayeeAt, 0, q) ==> q == p;
      PayeeAt(line, p)
  }

  /** `^\s*Payee\s*[:\-]?\s*$`, case-insensitively: the line holds the label and nothing else. */
  predicate IsBarePayee(line: string) {
    var t := TrimLeft(line, IsSpace);
    OccursAtCi(t, "payee", 0) && GapTo(t, 5, |t|)
  }

  /** The payee pattern matches the line with a group that is not blank. */
  predicate GroupSettles(line: string) {
    PayeeGroup(line).Some? && Strip(PayeeGroup(line).value) != []
  }

  /** What line `i` settles the payee to, if anything: its own group when that is not
      blank, else the next line when this one is a bare label and the next is not blank. */
  function LinePayee(lines: seq<string>, i: nat): (r: Option<string>)
    requires i < |lines|
    ensures r.Some? ==> r.value != [] && Trimmed(r.value)
    ensures GroupSettles(lines[i]) ==> r == Some(Strip(PayeeGroup(lines[i]).value))
    ensures !GroupSettles(lines[i]) ==>
              (r.Some? <==> IsBarePayee(lines[i]) && i + 1 < |lines| && Strip(lines[i + 1]) != [])
    ensures !GroupSettles(lines[i]) && r.Some? ==> r.value == Strip(lines[i + 1])
  {
    var g := PayeeGroup(lines[i]);
    if g.Some? && Strip(g.value) != [] then Some(Strip(g.value))
    else if IsBarePayee(lines[i]) && i + 1 < |lines| && Strip(lines[i + 1]) != [] then Some(Strip(lines[i + 1]))
    else None
  }

  /** What each line settles the payee to. */
  function Settled(lines: seq<string>): (r: seq<Option<string>>)
    ensures |r| == |lines| && forall i :: 0 <= i < |lines| ==> r[i] == LinePayee(lines, i)
  {
    seq(|lines|, i requires 0 <= i < |lines| => LinePayee(lines, i))
  }

  /** The payee field over the text's `\n`-separated lines: what the first line that
      settles it gives, or "" when none does. */
  function ExtractPayee(lines: seq<string>): (r: string)
    ensures r != [] ==> Trimmed(r)
    ensures r == [] <==> forall k :: 0 <= k < |lines| ==> LinePayee(lines, k).None?
    ensures forall k :: (0 <= k < |lines| && LinePayee(lines, k).Some? && NoneBefore(Settled(lines), k))
                          ==> r == LinePayee(lines, k).value
  {
    var settled := Settled(lines);
    var first := FirstSome(settled);
    if first.None? then ""
    else
      var k :| 0 <= k < |settled| && settled[k] == first;
      first.value
  }

  /** A line ending in "Payee:" gives the payee ":", and the next line is never looked at. */
  lemma PayeeColonQuirk(name: string)
    ensures ExtractPayee(["Payee:", name]) == ":"
  {
    var line := "Payee:";
    assert OccursAtCi(line, "payee", 0);
    assert Run(line, 5, IsSpace) == 0;
    assert Run(line, 6, IsSpace) == 0;
    assert PayeeAt(line, 0) == Some(":");
    assert PayeeGroup(line) == Some(":");
    StripClean(":");
    assert LinePayee(["Payee:", name], 0) == Some(":");
  }

  /** A label line followed by a blank-padded "Payee: " takes the next line as the payee. */
  lemma PayeeNextLine(name: string)
    requires name != [] && Trimmed(name)
    ensures ExtractPayee(["Payee: ", name]) == name
  {
    var lines := ["Payee: ", name];
    BlankPaddedLabel();
    StripClean(name);
    assert LinePayee(lines, 0) == Some(name);
    assert NoneBefore(Settled(lines), 0);
  }

  lemma BlankPaddedLabel()
    ensures PayeeGroup("Payee: ") == Some(" ")
    ensures IsBarePayee("Payee: ")
    ensures Strip(" ") == []
  {
    BlankPaddedMatch();
    BlankPaddedBare();
  }

  lemma BlankPaddedMatch()
    ensures PayeeGroup("Payee: ") == Some(" ")
  {
    var line := "Payee: ";
    PayeeLabelCi(line);
    assert Run(line, 5, IsSpace) == 0;
    assert Run(line, 6, IsSpace) == 1;
    assert PayeeAt(line, 0) == Some(" ");
  }

  lemma PayeeLabelCi(line: string)
    requires |line| >= 5 && line[..5] == "Payee"
    ensures OccursAtCi(line, "payee", 0)
  {
    assert Lower(line[0..5]) == "payee";
  }

  lemma BlankPaddedBare()
    ensures IsBarePayee("Payee: ")
  {
    var line := "Payee: ";
    assert TrimLeft(line, IsSpace) == line;
    PayeeLabelCi(line);
    assert Gap(line, 5, 5, 7);
  }

  // ---------------------------------------------------------------- particulars

  /** Where the particulars scan is: before the "to obligate" line, collecting with the
      number of consecutive blank lines seen, or finished. */
  datatype Collector = Idle | Collecting(blanks: nat) | Stopped

  datatype Gathered = Gathered(state: Collector, pieces: seq<string>)

  const StopWords: seq<string> :=
    ["certified", "signature", "position", "printed name", "head", "date:", "status of obligation"]

  predicate HasStopWord(lower: string) {
    exists w | w in StopWords :: Contains(lower, w)
  }

  /** A particulars piece: non-empty, no surrounding whitespace. */
  predicate CleanPieces(pieces: seq<string>) {
    forall i :: 0 <= i < |pieces| ==> pieces[i] != [] && Trimmed(pieces[i])
  }

  /** What one stripped line does to the scan, and the piece it adds. Before collecting,
      a line mentioning "to obligate" (any case) starts the particulars from that phrase
      on; while collecting, a line with a stop word ends the scan, a second consecutive
      blank line ends it, a single blank line is skipped, and any other line is added. */
  function Next(state: Collector, stripped: string): (r: (Collector, Option<string>))
    requires Trimmed(stripped)
    ensures state.Stopped? ==> r == (Stopped, None)
    ensures r.1.Some? ==> r.1.value != [] && Trimmed(r.1.value) && r.0 == Collecting(0)
  {
    var lower := Lower(stripped);
    match state
    case Idle =>
      (match IndexOf(lower, "to obligate")
       case None => (Idle, None)
       case Some(k) =>
         OccursFirst(lower, "to obligate", k);
         PhraseStartTrimmed(stripped, k);
         (Collecting(0), Some(stripped[k..])))
    case Collecting(blanks) =>
      if HasStopWord(lower) then (Stopped, None)
      else if stripped == [] then (if blanks + 1 >= 2 then (Stopped, None) else (Collecting(blanks + 1), None))
      else (Collecting(0), Some(stripped))
    case Stopped => (Stopped, None)
  }

  lemma OccursFirst(s: string, pat: string, k: nat)
    requires OccursAt(s, pat, k) && pat != []
    ensures k < |s| && s[k] == pat[0]
  {
    assert s[k..k + |pat|][0] == s[k];
  }

  lemma PhraseStartTrimmed(s: string, k: nat)
    requires Trimmed(s) && k < |s| && ToLower(s[k]) == 't'
    ensures s[k..] != [] && Trimmed(s[k..])
  {
  }

  /** One line of the particulars scan. */
  function Step(g: Gathered, line: string): (r: Gathered)
    ensures g.state.Stopped? ==> r == g
    ensures CleanPieces(g.pieces) ==> CleanPieces(r.pieces)
  {
    var (state, piece) := Next(g.state, Strip(line));
    match piece
    case None => Gathered(state, g.pieces)
    case Some(p) => Gathered(state, g.pieces + [p])
  }

  /** The scan over the lines, left to right. */
  function Gather(lines: seq<string>): Gathered {
    Fold(Step, Gathered(Idle, []), lines)
  }

  /** The pieces joined with single spaces. */
  function Particulars(lines: seq<string>): string {
    Join(Gather(lines).pieces, " ")
  }

  /** Every piece the scan collects is non-empty and has no surrounding whitespace. */
  lemma {:induction false} FoldKeepsClean(g: Gathered, lines: seq<string>)
    requires CleanPieces(g.pieces)
    ensures CleanPieces(Fold(Step, g, lines).pieces)
    decreases |lines|
  {
    if lines != [] {
      FoldKeepsClean(Step(g, lines[0]), lines[1..]);
    }
  }

  /** Once the scan has stopped, later lines change nothing. */
  lemma {:induction false} StoppedAbsorbs(pieces: seq<string>, lines: seq<string>)
    ensures Fold(Step, Gathered(Stopped, pieces), lines) == Gathered(Stopped, pieces)
    decreases |lines|
  {
    if lines != [] {
      StoppedAbsorbs(pieces, lines[1..]);
    }
  }

  /** The lines after the one that stops the scan do not affect the particulars. */
  lemma StopIgnoresRest(a: seq<string>, b: seq<string>)
    requires Gather(a).state.Stopped?
    ensures Gather(a + b) == Gather(a)
  {
    FoldConcat(Step, Gathered(Idle, []), a, b);
    StoppedAbsorbs(Gather(a).pieces, b);
  }

  /** A text in which no line mentions "to obligate" has no particulars. */
  lemma {:induction false} NoPhraseNoPieces(g: Gathered, lines: seq<string>)
    requires g.state.Idle?
    requires forall i :: 0 <= i < |lines| ==> !Contains(Lower(Strip(lines[i])), "to obligate")
    ensures Fold(Step, g, lines) == g
    decreases |lines|
  {
    if lines != [] {
      assert Step(g, lines[0]) == g;
      NoPhraseNoPieces(g, lines[1..]);
    }
  }

  // ---------------------------------------------------------------- cutting the particulars

  /** One of `\s+\d{10,}`, `\s+\d{3,}\.\d{2}` or `\|\s*\d+` matches at `p`: a long
      number, an amount, or a table bar before a number. */
  predicate CutAt(s: string, p: nat) {
    var w := Run(s, p, IsSpace);
    var n := Run(s, p + w, IsDigit);
    (w >= 1 && n >= 10)
    || (w >= 1 && n >= 3 && p + w + n + 3 <= |s| && s[p + w + n] == '.'
        && IsDigit(s[p + w + n + 1]) && IsDigit(s[p + w + n + 2]))
    || (p < |s| && s[p] == '|' && Run(s, p + 1 + Run(s, p + 1, IsSpace), IsDigit) >= 1)
  }

  /** `re.split(...)[0].strip()`: the text before the first cut point, stripped. */
  function CleanParticulars(full: string): (r: string)
    ensures Trimmed(r)
    ensures exists p :: (0 <= p <= |full| && r == Strip(full[..p])
      && (forall j :: 0 <= j < p ==> !CutAt(full, j))
      && (p < |full| ==> CutAt(full, p)))
  {
    match FirstAt(full, CutAt, 0)
    case None =>
      assert full[..|full|] == full;
      Strip(full)
    case Some(p) =>
      assert CutAt(full, p) ==> p < |full|;
      Strip(full[..p])
  }

  // ---------------------------------------------------------------- total

  predicate IsColonOrSpace(c: char) { c == ':' || IsSpace(c) }
  predicate IsDigitOrComma(c: char) { IsDigit(c) || c == ',' }

  /** Digits and commas, a point and two digits: the text of an amount `ExtractWorker.run` reads. */
  predicate IsAmountText(t: string) {
    |t| >= 3 && t[|t| - 3] == '.' && IsDigit(t[|t| - 2]) && IsDigit(t[|t| - 1])
    && AllOf(t[..|t| - 3], IsDigitOrComma)
  }

  /** `float(t.replace(",", ""))` in cents. */
  function AmountCents(t: string): nat
    requires IsAmountText(t)
  {
    DigitsValue(RemoveChar(t[..|t| - 3], ',')) * 100 + FractionCents(t[|t| - 2..])
  }

  /** A point and two digits at `m`: how every amount pattern ends. */
  predicate PointAt(s: string, m: nat) {
    m + 3 <= |s| && s[m] == '.' && IsDigit(s[m + 1]) && IsDigit(s[m + 2])
  }

  /** A match of `Total\s*[:\s]*([\d,]+\.\d{2})` at `p` (case-sensitive) whose group
      runs from `g` to `e`: the label, colons and whitespace, then digits and commas, a
      point and two digits. */
  predicate TotalMatch(s: string, p: nat, g: nat, e: nat) {
    OccursAt(s, "Total", p) && p + 5 <= g && g + 3 < e && PointAt(s, e - 3)
    && AllOf(s[p + 5..g], IsColonOrSpace) && AllOf(s[g..e - 3], IsDigitOrComma)
  }

  /** Bounds of the group of the total pattern matched at `p`. Colons and whitespace
      cannot start the group and digits and commas cannot be the point, so the greedy runs
      are the only way to match. */
  function TotalAt(s: string, p: nat): (r: Option<Span>)
    ensures r.Some? ==> p < r.value.start < r.value.end <= |s| && IsAmountText(s[r.value.start..r.value.end])
  {
    if !OccursAt(s, "Total", p) then None
    else TotalFrom(s, p + 5 + Run(s, p + 5, IsColonOrSpace))
  }

  /** What the total pattern finds at `p` is a match there. */
  lemma TotalAtMatches(s: string, p: nat)
    requires TotalAt(s, p).Some?
    ensures TotalMatch(s, p, TotalAt(s, p).value.start, TotalAt(s, p).value.end)
  {
    assert OccursAt(s, "Total", p);
    var g := p + 5 + Run(s, p + 5, IsColonOrSpace);
    TotalAtIs(s, p, g);
    RunAllOf(s, p + 5, g, IsColonOrSpace);
    TotalFromMatch(s, p, g);
  }

  lemma TotalFromMatch(s: string, p: nat, g: nat)
    requires OccursAt(s, "Total", p) && p + 5 <= g <= |s| && AllOf(s[p + 5..g], IsColonOrSpace)
    requires TotalFrom(s, g).Some?
    ensures TotalMatch(s, p, g, TotalFrom(s, g).value.end)
  {
    var e := TotalFrom(s, g).value.end;
    assert g + 3 < e && PointAt(s, e - 3) && AllOf(s[g..e - 3], IsDigitOrComma);
    TotalMatchOf(s, p, g, e);
  }

  lemma TotalMatchOf(s: string, p: nat, g: nat, e: nat)
    requires OccursAt(s, "Total", p) && p + 5 <= g && g + 3 < e && PointAt(s, e - 3)
    requires AllOf(s[p + 5..g], IsColonOrSpace) && AllOf(s[g..e - 3], IsDigitOrComma)
    ensures TotalMatch(s, p, g, e)
  {
  }

  /** The group of the total pattern when it starts at `g`. */
  function TotalFrom(s: string, g: nat): (r: Option<Span>)
    ensures r.Some? ==> r.value.start == g && g + 3 < r.value.end && PointAt(s, r.value.end - 3)
    ensures r.Some? ==> AllOf(s[g..r.value.end - 3], IsDigitOrComma) && IsAmountText(s[g..r.value.end])
  {
    var m := g + Run(s, g, IsDigitOrComma);
    if m > g && PointAt(s, m) then
      RunAllOf(s, g, m, IsDigitOrComma);
      AmountTextAt(s, g, m);
      Some(Span(g, m + 3))
    else None
  }

  /** Every match of the total pattern at `p` is found there, with the same group. */
  lemma TotalAtFinds(s: string, p: nat, g: nat, e: nat)
    requires TotalMatch(s, p, g, e)
    ensures TotalAt(s, p) == Some(Span(g, e))
  {
    TotalRuns(s, p, g, e);
    TotalFromIs(s, g, e);
    TotalAtIs(s, p, g);
  }

  lemma TotalAtIs(s: string, p: nat, g: nat)
    requires OccursAt(s, "Total", p) && g == p + 5 + Run(s, p + 5, IsColonOrSpace)
    ensures TotalAt(s, p) == TotalFrom(s, g)
  {
    assert TotalAt(s, p) == TotalFrom(s, p + 5 + Run(s, p + 5, IsColonOrSpace));
  }

  lemma TotalFromIs(s: string, g: nat, e: nat)
    requires g + 3 < e && PointAt(s, e - 3) && Run(s, g, IsDigitOrComma) == e - 3 - g
    ensures TotalFrom(s, g) == Some(Span(g, e))
  {
  }

  lemma TotalRuns(s: string, p: nat, g: nat, e: nat)
    requires TotalMatch(s, p, g, e)
    ensures Run(s, p + 5, IsColonOrSpace) == g - p - 5 && Run(s, g, IsDigitOrComma) == e - 3 - g
  {
    assert IsDigitOrComma(s[g]) by { assert s[g] == s[g..e - 3][0]; }
    RunOfAll(s, p + 5, g, IsColonOrSpace);
    RunOfAll(s, g, e - 3, IsDigitOrComma);
  }

  /** Digits and commas from `g` to `e`, then a point and two digits, form an amount text. */
  lemma AmountTextAt(s: string, g: nat, e: nat)
    requires g <= e && PointAt(s, e) && AllOf(s[g..e], IsDigitOrComma)
    ensures IsAmountText(s[g..e + 3])
  {
    var t := s[g..e + 3];
    SliceOfSlice(s, g, e + 3, 0, e - g);
    assert t[..|t| - 3] == s[g..e];
    assert t[|t| - 3] == s[e] && t[|t| - 2] == s[e + 1] && t[|t| - 1] == s[e + 2];
  }

  /** Consecutive `,ddd` groups from `q` on, greedily: where they end. */
  function GroupsEnd(s: string, q: nat): (r: nat)
    ensures q <= r && (r > q ==> r <= |s|)
    ensures forall i :: q <= i < r ==> IsDigitOrComma(s[i])
    ensures r <= |s| ==> CommaGroups(s[q..r])
    decreases |s| - q
  {
    if q + 4 <= |s| && s[q] == ',' && IsDigit(s[q + 1]) && IsDigit(s[q + 2]) && IsDigit(s[q + 3])
    then
      var r := GroupsEnd(s, q + 4);
      GroupsPrepend(s, q, r);
      r
    else
      assert q <= |s| ==> s[q..q] == [];
      q
  }

  lemma GroupsPrepend(s: string, q: nat, r: nat)
    requires q + 4 <= r <= |s| && s[q] == ',' && IsDigit(s[q + 1]) && IsDigit(s[q + 2]) && IsDigit(s[q + 3])
    requires r <= |s| ==> CommaGroups(s[q + 4..r])
    ensures CommaGroups(s[q..r])
  {
    var u := s[q..r];
    assert u[4..] == s[q + 4..r];
    assert u[1..4] == s[q + 1..q + 4];
  }

  /** Comma groups that stop at a point are exactly what `GroupsEnd` takes. */
  lemma {:induction false} GroupsEndOf(s: string, q: nat, r: nat)
    requires q <= r < |s| && CommaGroups(s[q..r]) && s[r] == '.'
    ensures GroupsEnd(s, q) == r
    decreases r - q
  {
    if q < r {
      var u := s[q..r];
      assert |u| >= 4 && u[0] == ',';
      SliceOfSlice(s, q, r, 1, 4);
      assert IsDigit(u[1..4][0]) && IsDigit(u[1..4][1]) && IsDigit(u[1..4][2]);
      assert u[4..] == s[q + 4..r];
      GroupsEndOf(s, q + 4, r);
    }
  }

  /** The text of a match of `\d{1,3}(?:,\d{3})*\.\d{2}`: one to three digits, comma
      groups of three digits, a point and two digits. */
  predicate AmountShape(t: string) {
    |t| >= 4 && t[|t| - 3] == '.' && IsDigit(t[|t| - 2]) && IsDigit(t[|t| - 1])
    && Grouped(t[..|t| - 3])
  }

  /** End of a match of the amount pattern at `p`. The digit run must be one to three
      long: a longer run leaves a digit where the pattern wants a comma or a point,
      whichever prefix of it is taken. */
  function AmountAt(s: string, p: nat): (r: Option<nat>)
    ensures r.Some? ==> p < r.value <= |s| && IsAmountText(s[p..r.value])
    ensures r.Some? ==> AmountShape(s[p..r.value])
  {
    var n := Run(s, p, IsDigit);
    if n == 0 || n > 3 then None
    else
      var q := GroupsEnd(s, p + n);
      if !PointAt(s, q) then None
      else
        AmountMatch(s, p, n, q);
        Some(q + 3)
  }

  lemma AmountMatch(s: string, p: nat, n: nat, q: nat)
    requires 1 <= n <= 3 && Run(s, p, IsDigit) == n && q == GroupsEnd(s, p + n) && PointAt(s, q)
    ensures p < q + 3 <= |s| && IsAmountText(s[p..q + 3]) && AmountShape(s[p..q + 3])
  {
    SliceOfSlice(s, p, q + 3, 0, q - p);
    RunChars(s, p, IsDigit);
    assert AllOf(s[p..q], IsDigitOrComma);
    RunAllOf(s, p, p + n, IsDigit);
    AmountShapeAt(s, p, n, q);
  }

  lemma AmountShapeAt(s: string, p: nat, n: nat, q: nat)
    requires 1 <= n <= 3 && p + n <= q && q + 3 <= |s|
    requires AllOf(s[p..p + n], IsDigit) && CommaGroups(s[p + n..q])
    requires s[q] == '.' && IsDigit(s[q + 1]) && IsDigit(s[q + 2])
    ensures AmountShape(s[p..q + 3])
  {
    var t := s[p..q + 3];
    var w := t[..|t| - 3];
    assert w == s[p..q];
    assert w[..n] == s[p..p + n];
    assert w[n..] == s[p + n..q];
    assert LeadGroups(w, n);
  }

  /** Every match of the amount pattern at `p` is found there, with the same end. */
  lemma AmountAtFinds(s: string, p: nat, e: nat)
    requires p <= e <= |s| && AmountShape(s[p..e])
    ensures AmountAt(s, p) == Some(e)
  {
    var t := s[p..e];
    var w := t[..|t| - 3];
    var n: nat := if LeadGroups(w, 1) then 1 else if LeadGroups(w, 2) then 2 else 3;
    assert LeadGroups(w, n);
    AmountLead(s, p, e, n);
    GroupsEndOf(s, p + n, e - 3);
    AmountAtIs(s, p, n, e - 3);
  }

  lemma AmountAtIs(s: string, p: nat, n: nat, q: nat)
    requires 1 <= n <= 3 && Run(s, p, IsDigit) == n && GroupsEnd(s, p + n) == q
    requires q + 3 <= |s| && PointAt(s, q)
    ensures AmountAt(s, p) == Some(q + 3)
  {
  }

  lemma AmountLead(s: string, p: nat, e: nat, n: nat)
    requires p <= e <= |s| && AmountShape(s[p..e]) && LeadGroups(s[p..e][..e - p - 3], n)
    ensures Run(s, p, IsDigit) == n
    ensures p + n <= e - 3 && CommaGroups(s[p + n..e - 3]) && PointAt(s, e - 3)
  {
    var t := s[p..e];
    var w := t[..|t| - 3];
    assert w == s[p..e - 3];
    assert w[n..] == s[p + n..e - 3];
    assert s[p..p + n] == w[..n];
    assert s[e - 3] == t[|t| - 3] && s[e - 2] == t[|t| - 2] && s[e - 1] == t[|t| - 1];
    assert !IsDigit(s[p + n]) by {
      if n < |w| {
        assert s[p + n] == w[n..][0];
      }
    }
    RunOfAll(s, p, p + n, IsDigit);
  }

  /** `re.findall` of the amount pattern from `from` on: leftmost matches, each search
      resuming where the previous match ended. */
  function Tokens(s: string, from: nat): (r: seq<string>)
    ensures forall k :: 0 <= k < |r| ==> IsAmountText(r[k]) && AmountShape(r[k])
    ensures r == [] <==> forall q :: from <= q <= |s| ==> AmountAt(s, q).None?
    decreases |s| + 1 - from
  {
    match Leftmost(s, AmountAt, from)
    case None => []
    case Some(p) =>
      var e := AmountAt(s, p).value;
      var rest := Tokens(s, e);
      AmountsCons(s[p..e], rest);
      [s[p..e]] + rest
  }

  lemma AmountsCons(x: string, rest: seq<string>)
    requires IsAmountText(x) && AmountShape(x)
    requires forall k :: 0 <= k < |rest| ==> IsAmountText(rest[k]) && AmountShape(rest[k])
    ensures forall k :: 0 <= k < |[x] + rest| ==> IsAmountText(([x] + rest)[k]) && AmountShape(([x] + rest)[k])
  {
    assert forall k :: 0 < k <= |rest| ==> ([x] + rest)[k] == rest[k - 1];
  }

  /** After the first match from `from`, at `p`, the matches are that match's text and
      the matches from its end on. */
  lemma TokensAt(s: string, from: nat, p: nat)
    requires FirstMatch(s, AmountAt, from, p)
    ensures Tokens(s, from) == [s[p..AmountAt(s, p).value]] + Tokens(s, AmountAt(s, p).value)
  {
    LeftmostIsFirst(s, AmountAt, from, p);
  }

  function SumCents(tokens: seq<string>): nat
    requires forall k :: 0 <= k < |tokens| ==> IsAmountText(tokens[k])
    decreases |tokens|
  {
    if tokens == [] then 0 else AmountCents(tokens[0]) + SumCents(tokens[1..])
  }

  /** The total in cents: the amount after the first "Total" label that has one, otherwise
      the sum of every amount in the text. */
  function TotalCents(text: string): nat {
    match Leftmost(text, TotalAt, 0)
    case Some(p) =>
      var span := TotalAt(text, p).value;
      AmountCents(text[span.start..span.end])
    case None => SumCents(Tokens(text, 0))
  }

  /** The total field, rendered with thousands separators and two decimals. */
  function TotalText(text: string): (r: string)
    ensures ParseAmount(r) == Some(TotalCents(text))
    ensures |r| >= 4 && r[0] != '-' && r[|r| - 3] == '.'
    ensures Grouped(r[..|r| - 3]) && RemoveChar(r[..|r| - 3], ',') == Digits(TotalCents(text) / 100)
    ensures r[|r| - 2..] == TwoDigits(TotalCents(text) % 100)
  {
    FormatParseRoundTrip(TotalCents(text));
    FormatCents(TotalCents(text))
  }

  /** `ExtractWorker.run`'s reading of an amount's text agrees with the ledger's reader. */
  lemma AmountCentsParses(t: string)
    requires IsAmountText(t)
    ensures ParseAmount(t) == Some(AmountCents(t))
  {
    var ds := RemoveChar(t[..|t| - 3], ',');
    var tt := t[|t| - 2..];
    UngroupedReads(t);
    CentsDigits(t);
    var cents := DigitsValue(ds) * 100 + FractionCents(tt);
    assert ParseUnsigned(ds + "." + tt) == Some(cents) by { ParseDotted(ds, tt); }
    assert AmountCents(t) == cents;
  }

  lemma CentsDigits(t: string)
    requires IsAmountText(t)
    ensures |t[|t| - 2..]| == 2 && AllDigits(t[|t| - 2..])
  {
    var tt := t[|t| - 2..];
    assert tt[0] == t[|t| - 2] && tt[1] == t[|t| - 1];
  }

  /** An amount text reads as its digits without commas, the point and the cents. */
  lemma UngroupedReads(t: string)
    requires IsAmountText(t)
    ensures var ds := RemoveChar(t[..|t| - 3], ',');
      && AllDigits(ds)
      && ParseAmount(t) == ParseUnsigned(ds + "." + t[|t| - 2..])
  {
    var ds := RemoveChar(t[..|t| - 3], ',');
    var tt := t[|t| - 2..];
    UngroupAmount(t);
    var u := ds + "." + tt;
    assert u[|u| - 1] == tt[1];
    assert u[0] == '.' || u[0] == ds[0];
    ParseAmountClean(t, u);
  }

  /** Dropping an amount text's commas leaves digits, the point and the two cents digits. */
  lemma UngroupAmount(t: string)
    requires IsAmountText(t)
    ensures var ds := RemoveChar(t[..|t| - 3], ',');
      && RemoveChar(t, ',') == ds + "." + t[|t| - 2..]
      && AllDigits(ds)
  {
    var head := t[..|t| - 3];
    var tt := t[|t| - 2..];
    AmountParts(t);
    UngroupPoint(head, tt);
    UngroupDigits(head);
  }

  lemma AmountParts(t: string)
    requires |t| >= 3 && t[|t| - 3] == '.' && IsDigit(t[|t| - 2]) && IsDigit(t[|t| - 1])
    ensures t == t[..|t| - 3] + "." + t[|t| - 2..] && ',' !in t[|t| - 2..]
  {
    assert t[|t| - 3..] == "." + t[|t| - 2..];
    assert t == t[..|t| - 3] + t[|t| - 3..];
  }

  lemma UngroupPoint(head: string, tt: string)
    requires ',' !in tt
    ensures RemoveChar(head + "." + tt, ',') == RemoveChar(head, ',') + "." + tt
  {
    RemoveCharConcat(head + ".", tt, ',');
    RemoveCharAbsent(tt, ',');
    RemoveCharConcat(head, ".", ',');
    RemoveCharAbsent(".", ',');
  }

  lemma UngroupDigits(head: string)
    requires AllOf(head, IsDigitOrComma)
    ensures AllDigits(RemoveChar(head, ','))
  {
    var ds := RemoveChar(head, ',');
    forall i | 0 <= i < |ds| ensures IsDigit(ds[i]) {
      assert ds[i] in head;
    }
  }

  /** Digits (possibly none), a point and two digits read as whole units and cents. */
  lemma ParseDotted(ds: string, tt: string)
    requires AllDigits(ds) && |tt| == 2 && AllDigits(tt)
    ensures ParseUnsigned(ds + "." + tt) == Some(DigitsValue(ds) * 100 + FractionCents(tt))
  {
    if ds == [] {
      var u := ds + "." + tt;
      assert u == "." + tt;
      assert Run(u, 0, IsDigit) == 0;
      assert u[1..] == tt;
    } else {
      ParsePlain(ds, tt);
    }
  }

  /** When a "Total" label carries an amount, the total is that amount as the reader takes it. */
  lemma LabelledTotal(text: string, p: nat)
    requires TotalAt(text, p).Some? && forall j :: 0 <= j < p ==> TotalAt(text, j).None?
    ensures var span := TotalAt(text, p).value;
      ParseAmount(text[span.start..span.end]) == Some(TotalCents(text))
  {
    var span := TotalAt(text, p).value;
    LeftmostIsFirst(text, TotalAt, 0, p);
    AmountCentsParses(text[span.start..span.end]);
  }

  /** Without a "Total" label carrying an amount, the total is the sum of every amount. */
  lemma UnlabelledTotal(text: string)
    requires forall p :: 0 <= p <= |text| ==> TotalAt(text, p).None?
    ensures TotalCents(text) == SumCents(Tokens(text, 0))
  {
    assert Leftmost(text, TotalAt, 0).None?;
  }

  /** A text with no labelled total and no amount at all gets the total "0.00". */
  lemma NoAmountsTotal(text: string)
    requires forall p :: 0 <= p <= |text| ==> TotalAt(text, p).None?
    requires forall p :: 0 <= p <= |text| ==> AmountAt(text, p).None?
    ensures TotalText(text) == "0.00"
  {
    UnlabelledTotal(text);
    assert Tokens(text, 0) == [];
    assert TotalCents(text) == 0;
    assert Digits(0) == "0" && Group("0") == "0" && TwoDigits(0) == "00";
    assert FormatCents(0) == "" + "0" + "." + "00";
  }

  /** An ungrouped number of four or more digits contributes only its last three. */
  lemma UngroupedAmount()
    ensures Tokens("1234.56", 0) == ["234.56"]
  {
    var s := "1234.56";
    UngroupedMatches();
    assert Leftmost(s, AmountAt, 0) == Some(1);
    assert Leftmost(s, AmountAt, 7) == None;
    assert s[1..7] == "234.56";
  }

  /** In "1234.56" the amount pattern fails at the first digit, matches from the second
      to the end, and fails at the end. */
  lemma UngroupedMatches()
    ensures AmountAt("1234.56", 0).None? && AmountAt("1234.56", 1) == Some(7)
    ensures AmountAt("1234.56", 7).None?
  {
    var s := "1234.56";
    assert Run(s, 0, IsDigit) == 4;
    assert Run(s, 1, IsDigit) == 3;
    assert GroupsEnd(s, 4) == 4;
    assert Run(s, 7, IsDigit) == 0;
  }

  // ---------------------------------------------------------------- the row

  /** The nine cells of a table row: name, serial, date, payee, particulars, total, two
      empty columns (payment and tax), and the total again as the opening balance. */
  function Cells(filename: string, serial: string, date: string, payee: string,
                 particulars: string, total: string): (r: seq<string>)
    ensures |r| == 9 && r[0] == filename && r[1] == serial && r[2] == date && r[3] == payee
    ensures r[4] == particulars && r[5] == total && r[6] == "" && r[7] == "" && r[8] == total
  {
    [filename, serial, date, payee, particulars, total, "", "", total]
  }

  /** The row the worker emits for one file, from its name and its first page's text. */
  function ResultRow(filename: string, text: string): (r: seq<string>)
    ensures |r| == 9 && r[0] == filename && r[1] == Stem(filename) && r[6] == "" && r[7] == ""
    ensures r[5] == r[8] && ParseAmount(r[5]) == Some(TotalCents(text))
    ensures Trimmed(r[3]) && Trimmed(r[4])
    ensures r[2] != [] ==> IsDateText(r[2])
    ensures r[2] == ExtractDate(text) && r[3] == ExtractPayee(Split(text, '\n'))
    ensures r[4] == CleanParticulars(Particulars(Split(text, '\n'))) && r[5] == TotalText(text)
  {
    var lines := Split(text, '\n');
    Cells(filename, Stem(filename), ExtractDate(text), ExtractPayee(lines),
          CleanParticulars(Particulars(lines)), TotalText(text))
  }

}

=== FILE: obr_worker.dfy ===
/** `ExtractWorker.run` in `obr_extractor.py`: the background loop over the selected PDF
    files, as the sequence of signals it emits. Conversion and OCR are a parameter
    (`Reading`); the cancel flag is the index of the first file at which the loop finds it
    cleared. */
module ObrWorker {
  import opened Wrappers
  import ObrFields

  /** What converting a file's first page and running OCR on it gives. */
  datatype Reading = Read(text: string) | Unreadable(reason: string)

  /** The worker's signals. */
  datatype Event =
    | Progress(index: nat, name: string)
    | Result(row: seq<string>)
    | Error(message: string)
    | Finished

  /** The signal that follows a file's progress: its row, or the error that processing it
      raised. */
  function Outcome(name: string, reading: Reading): (r: Event)
    ensures r.Result? <==> reading.Read?
    ensures r.Error? <==> reading.Unreadable?
    ensures r.Result? ==> r.row == ObrFields.ResultRow(name, reading.text)
    ensures r.Error? ==> r.message == "Failed to process " + name + ": " + reading.reason
  {
    match reading
    case Read(text) => Result(ObrFields.ResultRow(name, text))
    case Unreadable(reason) => Error("Failed to process " + name + ": " + reason)
  }

  /** The signals for files `from` up to (not including) `stop`, given each file's outcome. */
  function Emitted(files: seq<string>, outcome: string -> Event, from: nat, stop: nat): (r: seq<Event>)
    requires from <= stop <= |files|
    ensures |r| == 2 * (stop - from)
    ensures from < stop ==> r[0] == Progress(from, files[from]) && r[1] == outcome(files[from])
    decreases stop - from
  {
    if from == stop then []
    else [Progress(from, files[from]), outcome(files[from])] + Emitted(files, outcome, from + 1, stop)
  }

  /** File `from + k` contributes the signals at `2 * k` and `2 * k + 1`. */
  lemma {:induction false} EmittedAt(files: seq<string>, outcome: string -> Event, from: nat, stop: nat, k: nat)
    requires from <= stop <= |files| && k < stop - from
    ensures var r := Emitted(files, outcome, from, stop);
      r[2 * k] == Progress(from + k, files[from + k]) && r[2 * k + 1] == outcome(files[from + k])
    decreases k
  {
    if k > 0 {
      EmittedAt(files, outcome, from + 1, stop, k - 1);
      var rest := Emitted(files, outcome, from + 1, stop);
      assert Emitted(files, outcome, from, stop)[2 * k] == rest[2 * (k - 1)];
      assert Emitted(files, outcome, from, stop)[2 * k + 1] == rest[2 * (k - 1) + 1];
    }
  }

  /** Number of files the loop starts: all of them, unless the cancel flag is found cleared
      before file `cancelAt`. */
  function Started(files: seq<string>, cancelAt: nat): (n: nat)
    ensures n <= |files| && n <= cancelAt
    ensures n == |files| || n == cancelAt
  {
    if cancelAt < |files| then cancelAt else |files|
  }

  /** The whole run: a progress signal and then a row or an error for every started file,
      in order, and `Finished` once at the end. */
  function Run(files: seq<string>, read: string -> Reading, cancelAt: nat): (r: seq<Event>)
    ensures |r| == 2 * Started(files, cancelAt) + 1
    ensures r[|r| - 1] == Finished
  {
    Signals(files, Outcomes(read), cancelAt)
  }

  function Outcomes(read: string -> Reading): string -> Event {
    name => Outcome(name, read(name))
  }

  /** The run's signal sequence for any per-file outcome; the lemmas about its shape do not
      depend on how an outcome is computed. */
  function Signals(files: seq<string>, outcome: string -> Event, cancelAt: nat): (r: seq<Event>)
    ensures |r| == 2 * Started(files, cancelAt) + 1
    ensures r[|r| - 1] == Finished
  {
    Emitted(files, outcome, 0, Started(files, cancelAt)) + [Finished]
  }

  lemma SignalsShape(files: seq<string>, outcome: string -> Event, cancelAt: nat, k: nat)
    requires k < Started(files, cancelAt)
    ensures Signals(files, outcome, cancelAt)[2 * k] == Progress(k, files[k])
    ensures Signals(files, outcome, cancelAt)[2 * k + 1] == outcome(files[k])
  {
    var e := Emitted(files, outcome, 0, Started(files, cancelAt));
    EmittedAt(files, outcome, 0, Started(files, cancelAt), k);
    assert Signals(files, outcome, cancelAt)[2 * k] == e[2 * k];
    assert Signals(files, outcome, cancelAt)[2 * k + 1] == e[2 * k + 1];
  }

  /** Every started file gets its progress signal and then exactly its own outcome; a
      failing file does not stop the loop. */
  lemma RunShape(files: seq<string>, read: string -> Reading, cancelAt: nat, k: nat)
    requires k < Started(files, cancelAt)
    ensures Run(files, read, cancelAt)[2 * k] == Progress(k, files[k])
    ensures Run(files, read, cancelAt)[2 * k + 1] == Outcome(files[k], read(files[k]))
  {
    SignalsShape(files, Outcomes(read), cancelAt, k);
    assert Outcomes(read)(files[k]) == Outcome(files[k], read(files[k]));
  }

  /** `Finished` is emitted exactly once. */
  lemma FinishedOnce(files: seq<string>, read: string -> Reading, cancelAt: nat, i: nat)
    requires i < |Run(files, read, cancelAt)|
    ensures Run(files, read, cancelAt)[i] == Finished <==> i == |Run(files, read, cancelAt)| - 1
  {
    if i < |Run(files, read, cancelAt)| - 1 {
      var k := SignalOf(files, read, cancelAt, i);
    }
  }

  /** The file whose signals include position `i`. */
  lemma Halve(i: nat) returns (k: nat)
    ensures i == 2 * k || i == 2 * k + 1
  {
    k := i / 2;
  }

  /** Every `result` signal is the row of a started file that could be read. */
  lemma ResultSource(files: seq<string>, read: string -> Reading, cancelAt: nat, i: nat)
    returns (k: nat)
    requires i < |Run(files, read, cancelAt)| && Run(files, read, cancelAt)[i].Result?
    ensures k < Started(files, cancelAt) && i == 2 * k + 1
    ensures Run(files, read, cancelAt)[i] == Outcome(files[k], read(files[k]))
  {
    k := SignalOf(files, read, cancelAt, i);
  }

  /** No file at or after the cancel point is announced or processed. */
  lemma NothingAfterCancel(files: seq<string>, read: string -> Reading, cancelAt: nat, i: nat)
    requires i < |Run(files, read, cancelAt)|
    ensures Run(files, read, cancelAt)[i].Progress? ==> Run(files, read, cancelAt)[i].index < cancelAt
  {
    if i < |Run(files, read, cancelAt)| - 1 {
      var k := SignalOf(files, read, cancelAt, i);
    }
  }

  /** A signal before `Finished` is the progress of a started file `k`, or its row or error. */
  lemma SignalOf(files: seq<string>, read: string -> Reading, cancelAt: nat, i: nat) returns (k: nat)
    requires i < |Run(files, read, cancelAt)| - 1
    ensures k < Started(files, cancelAt)
    ensures (i == 2 * k && Run(files, read, cancelAt)[i] == Progress(k, files[k]))
      || (i == 2 * k + 1 && Run(files, read, cancelAt)[i] == Outcome(files[k], read(files[k])))
  {
    k := SignalsAt(files, Outcomes(read), cancelAt, i);
    assert Outcomes(read)(files[k]) == Outcome(files[k], read(files[k]));
  }

  lemma SignalsAt(files: seq<string>, outcome: string -> Event, cancelAt: nat, i: nat) returns (k: nat)
    requires i < |Signals(files, outcome, cancelAt)| - 1
    ensures k < Started(files, cancelAt)
    ensures (i == 2 * k && Signals(files, outcome, cancelAt)[i] == Progress(k, files[k]))
      || (i == 2 * k + 1 && Signals(files, outcome, cancelAt)[i] == outcome(files[k]))
  {
    k := Halve(i);
    SignalsShape(files, outcome, cancelAt, k);
    if i == 2 * k {
      assert Signals(files, outcome, cancelAt)[i] == Progress(k, files[k]);
    } else {
      assert Signals(files, outcome, cancelAt)[i] == outcome(files[k]);
    }
  }

  /** Cancelling earlier yields a prefix of the later run's signals, then `Finished`. */
  lemma {:induction false} EmittedPrefix(files: seq<string>, outcome: string -> Event, from: nat, a: nat, b: nat)
    requires from <= a <= b <= |files|
    ensures Emitted(files, outcome, from, a) == Emitted(files, outcome, from, b)[..2 * (a - from)]
    decreases a - from
  {
    if from < a {
      EmittedPrefix(files, outcome, from + 1, a, b);
    }
  }

  lemma CancelIsPrefix(files: seq<string>, read: string -> Reading, earlier: nat, later: nat)
    requires earlier <= later
    ensures var short := Run(files, read, earlier);
      short[..|short| - 1] == Run(files, read, later)[..|short| - 1]
  {
    SignalsPrefix(files, Outcomes(read), earlier, later);
  }

  lemma SignalsPrefix(files: seq<string>, outcome: string -> Event, earlier: nat, later: nat)
    requires earlier <= later
    ensures var short := Signals(files, outcome, earlier);
      short[..|short| - 1] == Signals(files, outcome, later)[..|short| - 1]
  {
    EmittedPrefix(files, outcome, 0, Started(files, earlier), Started(files, later));
  }
}

=== FILE: pdf_tools.dfy ===
/** `core/pdf_tools.py`: the serial-line rename with the `utils/helpers` sanitiser and "→"
    in its log lines, and the rename and move decisions of the file-management dialog.
    A folder is the set of its file names. */
module PdfTools {
  import opened Wrappers
  import opened Text
  import opened SerialLine
  import Helpers

  // ---------------------------------------------------------------- serial-line rename

  /** Converting and reading one file, serial sanitised by `utils/helpers`. */
  function Lookups(convert: string -> Conversion): string -> Lookup {
    name => LookUp(convert(name), Helpers.SanitizeFilename)
  }

  /** The run over a folder listing (`None` when the path is not a directory). */
  function ExtractAndRename(listing: Option<seq<string>>, convert: string -> Conversion,
                            renameError: string -> Option<string>): FolderRun {
    RenameBySerial(listing, Lookups(convert), renameError)
  }

  /** The lines the run appends to the output widget. */
  function Output(run: FolderRun): seq<string> {
    Log(run, "→")
  }

  /** Every name the run renames to, skips for, or fails to rename to is a non-empty name
      with no forbidden character, no space and no surrounding whitespace, followed by
      ".pdf". */
  lemma TargetsAreSanitized(listing: seq<string>, convert: string -> Conversion,
                            renameError: string -> Option<string>, k: nat)
    requires ExtractAndRename(Some(listing), convert, renameError).Processed?
    requires k < |ExtractAndRename(Some(listing), convert, renameError).outcomes|
    requires var o := ExtractAndRename(Some(listing), convert, renameError).outcomes[k];
      o.Renamed? || o.Skipped? || o.RenameFailed?
    ensures var t := ExtractAndRename(Some(listing), convert, renameError).outcomes[k].target;
      && |t| > 4 && EndsWith(t, ".pdf")
      && Helpers.NameChars(t[..|t| - 4]) && Trimmed(t[..|t| - 4])
  {
    var pdfs := PdfNames(listing);
    var start := NameSet(listing);
    var lookup := Lookups(convert);
    var run := ExtractAndRename(Some(listing), convert, renameError);
    assert run.outcomes == Outcomes(pdfs, start, lookup, renameError);
    OutcomeFollowsLookup(pdfs, start, lookup, renameError, k);
    var conv := convert(pdfs[k]);
    assert lookup(pdfs[k]) == LookUp(conv, Helpers.SanitizeFilename);
    ReadPagesSanitized(conv.pages, Helpers.SanitizeFilename);
    var serial := ReadPages(conv.pages, Helpers.SanitizeFilename).serial.value;
    var x :| serial == Helpers.SanitizeFilename(x);
    CleanTarget(serial, x);
  }

  lemma CleanTarget(serial: string, x: string)
    requires serial == Helpers.SanitizeFilename(x) && serial != []
    ensures var t := serial + ".pdf";
      && |t| > 4 && EndsWith(t, ".pdf")
      && Helpers.NameChars(t[..|t| - 4]) && Trimmed(t[..|t| - 4])
  {
    var t := serial + ".pdf";
    assert t[|t| - 4..] == ".pdf";
    assert t[..|t| - 4] == serial;
  }

  // ---------------------------------------------------------------- the file-management dialog

  /** The name a manual rename asks for: the entered text sanitised, with ".pdf" appended
      unless it already ends in ".pdf" (compared case-sensitively, so "A.PDF" becomes
      "A.PDF.pdf"). */
  function ManualTarget(entered: string): (r: string)
    ensures EndsWith(r, ".pdf")
    ensures Helpers.NameChars(r) && Trimmed(r)
    ensures EndsWith(Helpers.SanitizeFilename(entered), ".pdf") ==> r == Helpers.SanitizeFilename(entered)
    ensures !EndsWith(Helpers.SanitizeFilename(entered), ".pdf") ==> r == Helpers.SanitizeFilename(entered) + ".pdf"
  {
    var s := Helpers.SanitizeFilename(entered);
    if EndsWith(s, ".pdf") then s
    else
      var r := s + ".pdf";
      PdfSuffixClean(s);
      r
  }

  lemma PdfSuffixClean(s: string)
    requires Helpers.NameChars(s) && Trimmed(s)
    ensures EndsWith(s + ".pdf", ".pdf")
    ensures Helpers.NameChars(s + ".pdf") && Trimmed(s + ".pdf")
  {
    var r := s + ".pdf";
    assert r[|r| - 4..] == ".pdf";
    assert Helpers.NameChars(".pdf");
    NameCharsConcat(s, ".pdf");
    assert r[|r| - 1] == 'f';
    assert r[0] == (if s == [] then '.' else s[0]);
  }

  lemma NameCharsConcat(a: string, b: string)
    requires Helpers.NameChars(a) && Helpers.NameChars(b)
    ensures Helpers.NameChars(a + b)
  {
    forall i | 0 <= i < |a + b| ensures !Helpers.Forbidden((a + b)[i]) && (a + b)[i] != ' ' {
      if i < |a| {
        assert (a + b)[i] == a[i];
      } else {
        assert (a + b)[i] == b[i - |a|];
      }
    }
  }

  /** Entering the proposed name again proposes the same name. */
  lemma ManualTargetStable(entered: string)
    ensures ManualTarget(ManualTarget(entered)) == ManualTarget(entered)
  {
    Helpers.SanitizeFixes(ManualTarget(entered));
  }

  /** What the rename button leads to. */
  datatype RenameResult =
    | NoSelection
    | NothingEntered
    | TargetExists(target: string)
    | RenamedTo(target: string, folder: set<string>)
    | RenameFailure(reason: string)

  /** The rename button: `selected` is the selected list entry, `entered` the dialog's text
      (`None` when cancelled) and `error` the operating-system error the rename raises, if
      any. An existing name is never overwritten. */
  function RenameFile(folder: set<string>, selected: Option<string>, entered: Option<string>,
                      error: Option<string>): (r: RenameResult)
    requires selected.Some? ==> selected.value in folder
    ensures r.NoSelection? <==> selected.None?
    ensures r.NothingEntered? <==> selected.Some? && (entered.None? || entered.value == [])
    ensures r.TargetExists? ==> r.target in folder
    ensures r.RenamedTo? ==>
      && r.target !in folder && r.target in r.folder && selected.value !in r.folder
      && r.folder - {r.target} == folder - {selected.value}
      && |r.folder| == |folder|
    ensures r.RenamedTo? || r.TargetExists? ==> r.target == ManualTarget(entered.value)
  {
    if selected.None? then NoSelection
    else if entered.None? || entered.value == [] then NothingEntered
    else
      var dst := ManualTarget(entered.value);
      if dst in folder then TargetExists(dst)
      else if error.Some? then RenameFailure(error.value)
      else
        SwapKeepsSize(folder, selected.value, dst);
        RenamedTo(dst, folder - {selected.value} + {dst})
  }

  /** What the move button leads to. */
  datatype MoveResult =
    | NothingSelected
    | NoDestination
    | ExistsInDestination
    | Moved(source: set<string>, destination: set<string>)
    | MoveFailure(reason: string)

  /** The move button: `destination` is the chosen folder's names (`None` when no folder
      was chosen). A file of the same name in the destination is never overwritten, and a
      move neither creates nor loses a file. */
  function MoveFile(source: set<string>, selected: Option<string>, destination: Option<set<string>>,
                    error: Option<string>): (r: MoveResult)
    requires selected.Some? ==> selected.value in source
    ensures r.NothingSelected? <==> selected.None?
    ensures r.NoDestination? <==> selected.Some? && destination.None?
    ensures r.ExistsInDestination? <==> selected.Some? && destination.Some? && selected.value in destination.value
    ensures r.Moved? ==>
      && selected.value !in destination.value
      && r.source == source - {selected.value}
      && r.destination == destination.value + {selected.value}
      && |r.source| + |r.destination| == |source| + |destination.value|
  {
    if selected.None? then NothingSelected
    else if destination.None? then NoDestination
    else
      var file := selected.value;
      if file in destination.value then ExistsInDestination
      else if error.Some? then MoveFailure(error.value)
      else Moved(source - {file}, destination.value + {file})
  }
}

=== FILE: pdf_utils.dfy ===
/** `core/pdf_utils.sanitize_filename`: keeps letters, digits, `-` and `_`, then drops
    leading underscores. `str.isalnum` is taken over ASCII. */
module PdfUtils {
  import opened Text

  predicate Allowed(c: char) {
    IsAlnum(c) || c == '-' || c == '_'
  }

  predicate IsUnderscore(c: char) {
    c == '_'
  }

  /** `a` can be obtained from `b` by deleting characters. */
  predicate IsSubsequence(a: string, b: string)
    decreases |b|
  {
    a == [] || (b != [] && if a[0] == b[0] then IsSubsequence(a[1..], b[1..]) else IsSubsequence(a, b[1..]))
  }

  /** The generator `c if c.isalnum() or c in ("-", "_") else ""` joined back into a string:
      the characters kept are exactly the input's allowed characters, in input order. */
  function KeepAllowed(s: string): (r: string)
    ensures |r| <= |s|
    ensures forall i :: 0 <= i < |r| ==> Allowed(r[i])
    ensures forall c :: c in r <==> c in s && Allowed(c)
    ensures IsSubsequence(r, s)
    decreases |s|
  {
    if s == [] then []
    else if Allowed(s[0]) then [s[0]] + KeepAllowed(s[1..])
    else
      var rest := KeepAllowed(s[1..]);
      SubsequenceSkip(rest, s);
      rest
  }

  /** A subsequence of the tail is a subsequence of the whole. */
  lemma {:induction false} SubsequenceSkip(a: string, b: string)
    requires b != [] && IsSubsequence(a, b[1..])
    ensures IsSubsequence(a, b)
    decreases |b|, 0
  {
    if a != [] && a[0] == b[0] {
      SubsequenceTail(a, b[1..]);
    }
  }

  /** Dropping the first character of a subsequence keeps it a subsequence. */
  lemma {:induction false} SubsequenceTail(a: string, b: string)
    requires a != [] && IsSubsequence(a, b)
    ensures IsSubsequence(a[1..], b)
    decreases |b|, 1
  {
    if a[0] == b[0] {
      if a[1..] != [] {
        SubsequenceSkip(a[1..], b);
      }
    } else {
      SubsequenceTail(a, b[1..]);
      if a[1..] != [] {
        SubsequenceSkip(a[1..], b);
      }
    }
  }

  /** Every suffix of a subsequence is a subsequence. */
  lemma {:induction false} SubsequenceSuffix(a: string, b: string, k: nat)
    requires k <= |a| && IsSubsequence(a, b)
    ensures IsSubsequence(a[k..], b)
    decreases k
  {
    if k > 0 {
      SubsequenceSuffix(a, b, k - 1);
      assert a[k - 1..][1..] == a[k..];
      SubsequenceTail(a[k - 1..], b);
    }
  }

  /** Filtering works character by character: on a concatenation it is the concatenation
      of the filtered parts... */
  lemma {:induction false} KeepAllowedConcat(a: string, b: string)
    ensures KeepAllowed(a + b) == KeepAllowed(a) + KeepAllowed(b)
    decreases |a|
  {
    if a == [] {
      assert a + b == b;
    } else {
      assert (a + b)[0] == a[0] && (a + b)[1..] == a[1..] + b;
      KeepAllowedConcat(a[1..], b);
    }
  }

  /** ...and one character is kept exactly when it is allowed. */
  lemma KeepAllowedChar(c: char)
    ensures KeepAllowed([c]) == if Allowed(c) then [c] else []
  {
  }

  /** The sanitised name: the filtered input after its leading run of `_`. It holds only
      allowed characters, never starts with `_`, and keeps every allowed character of the
      input other than `_`. */
  function SanitizeFilename(name: string): (r: string)
    ensures forall i :: 0 <= i < |r| ==> Allowed(r[i])
    ensures r == [] || r[0] != '_'
    ensures IsSubsequence(r, name)
    ensures |r| <= |name|
    ensures |r| <= |KeepAllowed(name)| && r == KeepAllowed(name)[|KeepAllowed(name)| - |r|..]
    ensures forall i :: 0 <= i < |KeepAllowed(name)| - |r| ==> KeepAllowed(name)[i] == '_'
    ensures forall c :: c in name && Allowed(c) && c != '_' ==> c in r
  {
    var kept := KeepAllowed(name);
    var r := TrimLeft(kept, IsUnderscore);
    TrimLeftSuffix(kept, IsUnderscore);
    SubsequenceSuffix(kept, name, |kept| - |r|);
    TrimUnderscoresKeeps(kept);
    r
  }

  /** Dropping leading `_` keeps every other character. */
  lemma {:induction false} TrimUnderscoresKeeps(s: string)
    ensures forall c :: c in s && c != '_' ==> c in TrimLeft(s, IsUnderscore)
    decreases |s|
  {
    if s != [] && IsUnderscore(s[0]) {
      TrimUnderscoresKeeps(s[1..]);
      assert TrimLeft(s, IsUnderscore) == TrimLeft(s[1..], IsUnderscore);
      forall c | c in s && c != '_' ensures c in s[1..] {
        var j :| 0 <= j < |s| && s[j] == c;
        assert s[1..][j - 1] == c;
      }
    }
  }

  lemma {:induction false} KeepAllowedFixes(s: string)
    requires forall i :: 0 <= i < |s| ==> Allowed(s[i])
    ensures KeepAllowed(s) == s
    decreases |s|
  {
    if s != [] {
      KeepAllowedFixes(s[1..]);
    }
  }

  /** A name made only of allowed characters and not starting with `_` is left unchanged. */
  lemma SanitizeFixes(s: string)
    requires forall i :: 0 <= i < |s| ==> Allowed(s[i])
    requires s == [] || s[0] != '_'
    ensures SanitizeFilename(s) == s
  {
    KeepAllowedFixes(s);
  }

  /** Sanitising twice is sanitising once. */
  lemma SanitizeIdempotent(s: string)
    ensures SanitizeFilename(SanitizeFilename(s)) == SanitizeFilename(s)
  {
    SanitizeFixes(SanitizeFilename(s));
  }
}

=== FILE: rename_loop.dfy ===
/** The folder loops of the rename page (`rename_obr_files` and `rename_saro_files` in
    `ui_pages/rename_page.py`) and the message that ends them. Both loops go through the
    folder's PDFs in listing order, choose a name for each file, rename it to
    `name.pdf` unless that name is taken, and collect a note for every file they skip.

    A file's page text comes in as an `ObrWorker.Reading`; the fallback dialog's answer is
    a parameter (`None` for Cancel, otherwise the text it returns); `renameFails` stands
    for an operating-system error raised by the rename; `cancelAt` is the index of the
    first file at which the progress dialog reports a cancel. */
module RenameLoop {
  import opened Wrappers
  import opened Text
  import SerialLine
  import ObrWorker
  import RenamePage
  import SaroGuess

  // ---------------------------------------------------------------- choosing a name

  /** What the loop settles on for one file before touching the folder. */
  datatype Choice =
    | Broken      // reading the page raised an exception
    | Cancelled   // the fallback dialog was cancelled
    | Blank       // the fallback dialog returned only whitespace
    | Named(name: string)

  /** An OBR file: the serial read from the page, else the dialog's answer (the dialog is
      given no guesses); the dialog strips what it returns. */
  function ObrChoice(reading: ObrWorker.Reading, answer: Option<string>): (c: Choice)
    ensures reading.Unreadable? <==> c.Broken?
    ensures reading.Read? && RenamePage.ObrSerial(reading.text).Some? ==>
      c == Named(RenamePage.ObrSerial(reading.text).value)
    ensures c.Named? ==> c.name != [] && Trimmed(c.name)
    ensures c.Cancelled? <==> reading.Read? && RenamePage.ObrSerial(reading.text).None? && answer.None?
    ensures reading.Read? && RenamePage.ObrSerial(reading.text).None? && answer.Some? ==>
      c == (if Strip(answer.value) == [] then Blank else Named(Strip(answer.value)))
  {
    match reading
    case Unreadable(_) => Broken
    case Read(text) =>
      match RenamePage.ObrSerial(text)
      case Some(serial) =>
        StripClean(serial);
        Named(serial)
      case None =>
        match answer
        case None => Cancelled
        case Some(t) => if Strip(t) == [] then Blank else Named(Strip(t))
  }

  /** A SARO file: the dialog is always shown, with the page's guesses; a non-blank answer
      gets the "A-" prefix unless it has a SARO prefix. */
  function SaroChoice(reading: ObrWorker.Reading, answer: seq<string> -> Option<string>): (c: Choice)
    ensures reading.Unreadable? <==> c.Broken?
    ensures c.Named? ==> SaroGuess.HasSaroPrefix(c.name)
    ensures c.Cancelled? <==> reading.Read? && answer(SaroGuess.Guesses(reading.text)).None?
    ensures c.Blank? <==> (reading.Read? && answer(SaroGuess.Guesses(reading.text)).Some?
      && Strip(answer(SaroGuess.Guesses(reading.text)).value) == [])
    ensures c.Named? <==> (reading.Read? && answer(SaroGuess.Guesses(reading.text)).Some?
      && SaroGuess.ManualName(answer(SaroGuess.Guesses(reading.text)).value).Some?)
    ensures reading.Read? && c.Named? ==>
      Some(c.name) == SaroGuess.ManualName(answer(SaroGuess.Guesses(reading.text)).value)
  {
    match reading
    case Unreadable(_) => Broken
    case Read(text) =>
      match answer(SaroGuess.Guesses(text))
      case None => Cancelled
      case Some(t) =>
        match SaroGuess.ManualName(t)
        case None => Blank
        case Some(name) => Named(name)
  }

  // ---------------------------------------------------------------- one file

  /** What happened to one file. */
  datatype Step = Renamed(file: string, target: string) | Skipped(file: string, note: string)

  /** The entry a skipped file leaves in the skipped list. */
  function Entry(file: string, note: string): string {
    file + " (" + note + ")"
  }

  /** The step for `file` given its choice and the folder as it stands at its turn: a
      taken target is skipped, never overwritten. */
  function Decide(file: string, choice: Choice, folder: set<string>, renameFails: bool): (r: Step)
    ensures r.file == file
    ensures r.Renamed? <==> choice.Named? && choice.name + ".pdf" !in folder && !renameFails
    ensures r.Renamed? ==> r.target == choice.name + ".pdf" && r.target !in folder
    ensures choice.Named? && choice.name + ".pdf" in folder ==> r == Skipped(file, "already exists as " + choice.name + ".pdf")
    ensures choice.Named? && choice.name + ".pdf" !in folder && renameFails ==> r == Skipped(file, "error")
    ensures choice.Broken? ==> r == Skipped(file, "error")
    ensures choice.Cancelled? ==> r == Skipped(file, "manual cancel")
    ensures choice.Blank? ==> r == Skipped(file, "manual input blank")
  {
    match choice
    case Broken => Skipped(file, "error")
    case Cancelled => Skipped(file, "manual cancel")
    case Blank => Skipped(file, "manual input blank")
    case Named(name) =>
      var target := name + ".pdf";
      if target in folder then Skipped(file, "already exists as " + target)
      else if renameFails then Skipped(file, "error")
      else Renamed(file, target)
  }

  /** The folder after one step: only a rename changes it. */
  function Apply(folder: set<string>, step: Step): set<string> {
    if step.Renamed? then folder - {step.file} + {step.target} else folder
  }

  /** The folder after a sequence of steps, applied in order. */
  function After(folder: set<string>, steps: seq<Step>): set<string>
    decreases |steps|
  {
    if steps == [] then folder else After(Apply(folder, steps[0]), steps[1..])
  }

  // ---------------------------------------------------------------- the loop

  /** The loop over `files`: each file is decided against the folder as the earlier renames
      left it. */
  function Steps(files: seq<string>, folder: set<string>, choose: string -> Choice,
                 renameFails: string -> bool): (r: seq<Step>)
    ensures |r| == |files|
    ensures forall k :: 0 <= k < |files| ==> r[k].file == files[k]
    decreases |files|
  {
    if files == [] then []
    else
      var step := Decide(files[0], choose(files[0]), folder, renameFails(files[0]));
      [step] + Steps(files[1..], Apply(folder, step), choose, renameFails)
  }

  /** Step `k` is the decision for file `k` against the folder the earlier steps left. */
  lemma {:induction false} StepsAt(files: seq<string>, folder: set<string>, choose: string -> Choice,
                                   renameFails: string -> bool, k: nat)
    requires k < |files|
    ensures Steps(files, folder, choose, renameFails)[k]
         == Decide(files[k], choose(files[k]), After(folder, Steps(files, folder, choose, renameFails)[..k]), renameFails(files[k]))
    decreases k
  {
    var steps := Steps(files, folder, choose, renameFails);
    if k > 0 {
      var rest := Steps(files[1..], Apply(folder, steps[0]), choose, renameFails);
      assert steps[1..] == rest;
      StepsAt(files[1..], Apply(folder, steps[0]), choose, renameFails, k - 1);
      assert steps[..k][1..] == rest[..k - 1];
      assert files[1..][k - 1] == files[k];
    }
  }

  /** No rename overwrites or loses a file: the folder keeps its size. */
  lemma {:induction false} StepsKeepSize(files: seq<string>, folder: set<string>, choose: string -> Choice,
                                         renameFails: string -> bool)
    requires SerialLine.Distinct(files)
    requires forall k :: 0 <= k < |files| ==> files[k] in folder
    ensures |After(folder, Steps(files, folder, choose, renameFails))| == |folder|
    decreases |files|
  {
    if files != [] {
      var steps := Steps(files, folder, choose, renameFails);
      var step := steps[0];
      var next := Apply(folder, step);
      if step.Renamed? {
        SerialLine.SwapKeepsSize(folder, step.file, step.target);
      }
      forall k | 0 <= k < |files[1..]| ensures files[1..][k] in next {
        assert files[1..][k] == files[k + 1] != files[0];
      }
      assert SerialLine.Distinct(files[1..]);
      StepsKeepSize(files[1..], next, choose, renameFails);
      assert steps[1..] == Steps(files[1..], next, choose, renameFails);
    }
  }

  /** A name the loop does not visit stays in the folder: files that are not PDFs, and
      files after the cancel, are untouched. */
  lemma {:induction false} StepsKeepUnlisted(files: seq<string>, folder: set<string>, choose: string -> Choice,
                                             renameFails: string -> bool, y: string)
    requires y in folder && y !in files
    ensures y in After(folder, Steps(files, folder, choose, renameFails))
    decreases |files|
  {
    if files != [] {
      var steps := Steps(files, folder, choose, renameFails);
      assert y != files[0] && y !in files[1..];
      StepsKeepUnlisted(files[1..], Apply(folder, steps[0]), choose, renameFails, y);
      assert steps[1..] == Steps(files[1..], Apply(folder, steps[0]), choose, renameFails);
    }
  }

  /** The number of renamed files. */
  function RenamedCount(steps: seq<Step>): (n: nat)
    ensures n <= |steps|
    decreases |steps|
  {
    if steps == [] then 0
    else (if steps[0].Renamed? then 1 else 0) + RenamedCount(steps[1..])
  }

  /** The skipped list, in loop order. */
  function SkippedEntries(steps: seq<Step>): (r: seq<string>)
    ensures |r| <= |steps|
    decreases |steps|
  {
    if steps == [] then []
    else
      var rest := SkippedEntries(steps[1..]);
      if steps[0].Skipped? then [Entry(steps[0].file, steps[0].note)] + rest else rest
  }

  /** Every file the loop visits is either counted as renamed or listed as skipped. */
  lemma {:induction false} EveryFileAccounted(steps: seq<Step>)
    ensures RenamedCount(steps) + |SkippedEntries(steps)| == |steps|
    decreases |steps|
  {
    if steps != [] {
      EveryFileAccounted(steps[1..]);
    }
  }

  // ---------------------------------------------------------------- the message

  const CheckMark: string := "\U{2705}"
  const WarningSign: string := "\U{26A0}"
  const MaxShown: nat := 10

  /** The first line of the message. */
  function Header(renamed: nat, kind: string): string {
    CheckMark + " Renamed " + Digits(renamed) + " " + kind + " files."
  }

  /** The skipped entries the message lists: the first ten, then "..." when there are more. */
  function Shown(skipped: seq<string>): (r: seq<string>)
    ensures |r| == if |skipped| > MaxShown then MaxShown + 1 else |skipped|
    ensures forall k :: 0 <= k < Min(MaxShown, |skipped|) ==> r[k] == skipped[k]
    ensures |skipped| > MaxShown ==> r[MaxShown] == "..."
  {
    skipped[..Min(MaxShown, |skipped|)] + (if |skipped| > MaxShown then ["..."] else [])
  }

  /** The message shown when the loop ends. */
  function Message(renamed: nat, kind: string, skipped: seq<string>): string {
    var message := Header(renamed, kind);
    if skipped == [] then message
    else
      var listed := message + "\n\n" + SkippedTitle + "\n" + Join(skipped[..Min(MaxShown, |skipped|)], "\n");
      if |skipped| > MaxShown then listed + "\n..." else listed
  }

  const SkippedTitle: string := WarningSign + " Skipped Files:"

  /** The three lines before the entries. */
  function Head(renamed: nat, kind: string): seq<string> {
    [Header(renamed, kind), "", SkippedTitle]
  }

  lemma JoinHead(renamed: nat, kind: string)
    ensures Join(Head(renamed, kind), "\n") == Header(renamed, kind) + "\n\n" + SkippedTitle
  {
    var h := Head(renamed, kind);
    assert h[1..] == ["", SkippedTitle];
    assert h[1..][1..] == [SkippedTitle];
    assert Join(h[1..], "\n") == "\n" + SkippedTitle;
  }

  /** With entries skipped, the message is the head and the first ten entries joined by
      newlines, then "\n..." when more were skipped. */
  lemma MessageJoin(renamed: nat, kind: string, skipped: seq<string>)
    requires skipped != []
    ensures Message(renamed, kind, skipped)
      == Join(Head(renamed, kind) + skipped[..Min(MaxShown, |skipped|)], "\n")
         + (if |skipped| > MaxShown then "\n..." else "")
  {
    JoinHead(renamed, kind);
    JoinAppend(Head(renamed, kind), skipped[..Min(MaxShown, |skipped|)], "\n");
  }

  /** The message is the header alone when nothing was skipped, and otherwise the lines
      header, empty line, warning and the shown entries, joined by newlines. */
  lemma MessageLines(renamed: nat, kind: string, skipped: seq<string>)
    ensures skipped == [] ==> Message(renamed, kind, skipped) == Header(renamed, kind)
    ensures skipped != [] ==> Message(renamed, kind, skipped) == Join(Head(renamed, kind) + Shown(skipped), "\n")
  {
    if skipped != [] {
      var front := Head(renamed, kind) + skipped[..Min(MaxShown, |skipped|)];
      MessageJoin(renamed, kind, skipped);
      if |skipped| > MaxShown {
        assert Head(renamed, kind) + Shown(skipped) == front + ["..."];
        JoinAppend(front, ["..."], "\n");
      } else {
        assert Head(renamed, kind) + Shown(skipped) == front;
      }
    }
  }

  /** Read back line by line, the message gives the header, an empty line, the warning and
      exactly the shown entries, as long as no entry and not the kind holds a newline. */
  lemma MessageRoundTrip(renamed: nat, kind: string, skipped: seq<string>)
    requires skipped != [] && '\n' !in kind
    requires forall k :: 0 <= k < |skipped| ==> '\n' !in skipped[k]
    ensures Split(Message(renamed, kind, skipped), '\n') == Head(renamed, kind) + Shown(skipped)
  {
    var lines := Head(renamed, kind) + Shown(skipped);
    MessageLines(renamed, kind, skipped);
    assert '\n' !in Digits(renamed);
    forall k | 0 <= k < |lines| ensures '\n' !in lines[k] {
      if k >= 3 && k - 3 < Min(MaxShown, |skipped|) {
        assert lines[k] == skipped[k - 3];
      }
    }
    SplitJoin(lines, '\n');
  }

  // ---------------------------------------------------------------- the whole run

  /** The run as a whole: the folder dialog was cancelled, the folder holds no PDF, or
      the PDFs were processed up to the cancel point, with the folder's names afterwards
      and the message. */
  datatype PageRun =
    | NoFolder
    | NoPdfs(notice: string)
    | Done(steps: seq<Step>, after: set<string>, message: string)

  /** One rename loop over the folder listing, of the kind the word `kind` names. */
  function RenameFolder(kind: string, listing: Option<seq<string>>, choose: string -> Choice,
                        renameFails: string -> bool, cancelAt: nat): (run: PageRun)
    ensures listing.None? <==> run.NoFolder?
    ensures run.NoPdfs? <==> listing.Some? && SerialLine.PdfNames(listing.value) == []
    ensures run.NoPdfs? ==> run.notice == "No PDF files found in the folder."
    ensures run.Done? ==> (listing.Some?
      && |run.steps| == ObrWorker.Started(SerialLine.PdfNames(listing.value), cancelAt)
      && (forall k :: 0 <= k < |run.steps| ==> run.steps[k].file == SerialLine.PdfNames(listing.value)[k])
      && run.message == Message(RenamedCount(run.steps), kind, SkippedEntries(run.steps)))
  {
    match listing
    case None => NoFolder
    case Some(names) =>
      var pdfs := SerialLine.PdfNames(names);
      if pdfs == [] then NoPdfs("No PDF files found in the folder.")
      else
        var start := SerialLine.NameSet(names);
        var steps := Steps(pdfs[..ObrWorker.Started(pdfs, cancelAt)], start, choose, renameFails);
        Done(steps, After(start, steps), Message(RenamedCount(steps), kind, SkippedEntries(steps)))
  }

  /** What a finished run guarantees: the folder keeps its size, every name the loop did
      not visit is still there, and every visited file is renamed or listed as skipped. */
  lemma RenameFolderSafe(kind: string, listing: seq<string>, choose: string -> Choice,
                         renameFails: string -> bool, cancelAt: nat)
    requires SerialLine.Distinct(listing)
    ensures RenameFolder(kind, Some(listing), choose, renameFails, cancelAt).Done? ==>
      && |RenameFolder(kind, Some(listing), choose, renameFails, cancelAt).after| == |SerialLine.NameSet(listing)|
      && (forall y :: y in listing && !SerialLine.IsPdfName(y) ==> y in RenameFolder(kind, Some(listing), choose, renameFails, cancelAt).after)
      && RenamedCount(RenameFolder(kind, Some(listing), choose, renameFails, cancelAt).steps)
         + |SkippedEntries(RenameFolder(kind, Some(listing), choose, renameFails, cancelAt).steps)|
         == ObrWorker.Started(SerialLine.PdfNames(listing), cancelAt)
  {
    var pdfs := SerialLine.PdfNames(listing);
    if pdfs != [] {
      var start := SerialLine.NameSet(listing);
      var files := pdfs[..ObrWorker.Started(pdfs, cancelAt)];
      assert SerialLine.Distinct(files);
      StepsKeepSize(files, start, choose, renameFails);
      forall y | y in listing && !SerialLine.IsPdfName(y)
        ensures y in After(start, Steps(files, start, choose, renameFails))
      {
        assert y !in pdfs;
        StepsKeepUnlisted(files, start, choose, renameFails, y);
      }
      EveryFileAccounted(Steps(files, start, choose, renameFails));
    }
  }

  /** How the OBR loop chooses: from the file's page and, failing a serial, the dialog. */
  function ObrChooser(read: string -> ObrWorker.Reading, answer: string -> Option<string>): string -> Choice {
    file => ObrChoice(read(file), answer(file))
  }

  /** How the SARO loop chooses: from the dialog, offered the page's guesses. */
  function SaroChooser(read: string -> ObrWorker.Reading, answer: (string, seq<string>) -> Option<string>): string -> Choice {
    file => SaroChoice(read(file), guesses => answer(file, guesses))
  }

  /** The OBR loop. */
  function RenameObr(listing: Option<seq<string>>, read: string -> ObrWorker.Reading,
                     answer: string -> Option<string>, renameFails: string -> bool, cancelAt: nat): PageRun {
    RenameFolder("OBR", listing, ObrChooser(read, answer), renameFails, cancelAt)
  }

  /** The SARO loop. */
  function RenameSaro(listing: Option<seq<string>>, read: string -> ObrWorker.Reading,
                      answer: (string, seq<string>) -> Option<string>, renameFails: string -> bool, cancelAt: nat): PageRun {
    RenameFolder("SARO", listing, SaroChooser(read, answer), renameFails, cancelAt)
  }

  /** The files a run visits: the listing's PDFs up to the cancel point. */
  function Visited(names: seq<string>, cancelAt: nat): seq<string> {
    SerialLine.PdfNames(names)[..ObrWorker.Started(SerialLine.PdfNames(names), cancelAt)]
  }

  /** The steps of a run are the loop over the visited files. */
  lemma RunSteps(kind: string, names: seq<string>, choose: string -> Choice, renameFails: string -> bool, cancelAt: nat)
    requires RenameFolder(kind, Some(names), choose, renameFails, cancelAt).Done?
    ensures RenameFolder(kind, Some(names), choose, renameFails, cancelAt).steps
         == Steps(Visited(names, cancelAt), SerialLine.NameSet(names), choose, renameFails)
  {
  }

  /** Every file the SARO loop renames gets a name with a SARO prefix. */
  lemma SaroTargetsPrefixed(names: seq<string>, read: string -> ObrWorker.Reading,
                            answer: (string, seq<string>) -> Option<string>, renameFails: string -> bool,
                            cancelAt: nat, k: nat)
    requires RenameSaro(Some(names), read, answer, renameFails, cancelAt).Done?
    requires k < |RenameSaro(Some(names), read, answer, renameFails, cancelAt).steps|
    requires RenameSaro(Some(names), read, answer, renameFails, cancelAt).steps[k].Renamed?
    ensures exists name :: (SaroGuess.HasSaroPrefix(name)
      && RenameSaro(Some(names), read, answer, renameFails, cancelAt).steps[k].target == name + ".pdf")
  {
    var files := Visited(names, cancelAt);
    var start := SerialLine.NameSet(names);
    var choose := SaroChooser(read, answer);
    RunSteps("SARO", names, choose, renameFails, cancelAt);
    StepsAt(files, start, choose, renameFails, k);
    var c := choose(files[k]);
    assert c.Named? && SaroGuess.HasSaroPrefix(c.name);
  }

  /** An OBR file whose page has a serial is renamed to `serial.pdf`, or skipped because
      that name is taken or the rename failed; the dialog plays no part. */
  lemma ObrSerialDecides(names: seq<string>, read: string -> ObrWorker.Reading,
                         answer: string -> Option<string>, renameFails: string -> bool, cancelAt: nat, k: nat)
    requires RenameObr(Some(names), read, answer, renameFails, cancelAt).Done?
    requires k < |RenameObr(Some(names), read, answer, renameFails, cancelAt).steps|
    requires read(Visited(names, cancelAt)[k]).Read?
    requires RenamePage.ObrSerial(read(Visited(names, cancelAt)[k]).text).Some?
    ensures var step := RenameObr(Some(names), read, answer, renameFails, cancelAt).steps[k];
      var target := RenamePage.ObrSerial(read(Visited(names, cancelAt)[k]).text).value + ".pdf";
      step == Renamed(Visited(names, cancelAt)[k], target)
      || step == Skipped(Visited(names, cancelAt)[k], "already exists as " + target)
      || step == Skipped(Visited(names, cancelAt)[k], "error")
  {
    var files := Visited(names, cancelAt);
    var choose := ObrChooser(read, answer);
    RunSteps("OBR", names, choose, renameFails, cancelAt);
    StepsAt(files, SerialLine.NameSet(names), choose, renameFails, k);
    assert choose(files[k]) == ObrChoice(read(files[k]), answer(files[k]));
  }

  /** An OBR file whose page has no serial takes the dialog's non-blank answer, stripped:
      it is renamed to `answer.pdf`, or skipped because that name is taken or the rename
      failed. */
  lemma ObrAnswerDecides(names: seq<string>, read: string -> ObrWorker.Reading,
                         answer: string -> Option<string>, renameFails: string -> bool, cancelAt: nat, k: nat)
    requires RenameObr(Some(names), read, answer, renameFails, cancelAt).Done?
    requires k < |RenameObr(Some(names), read, answer, renameFails, cancelAt).steps|
    requires read(Visited(names, cancelAt)[k]).Read?
    requires RenamePage.ObrSerial(read(Visited(names, cancelAt)[k]).text).None?
    requires answer(Visited(names, cancelAt)[k]).Some?
    requires Strip(answer(Visited(names, cancelAt)[k]).value) != []
    ensures var step := RenameObr(Some(names), read, answer, renameFails, cancelAt).steps[k];
      var target := Strip(answer(Visited(names, cancelAt)[k]).value) + ".pdf";
      step == Renamed(Visited(names, cancelAt)[k], target)
      || step == Skipped(Visited(names, cancelAt)[k], "already exists as " + target)
      || step == Skipped(Visited(names, cancelAt)[k], "error")
  {
    var files := Visited(names, cancelAt);
    var choose := ObrChooser(read, answer);
    RunSteps("OBR", names, choose, renameFails, cancelAt);
    StepsAt(files, SerialLine.NameSet(names), choose, renameFails, k);
    assert choose(files[k]) == ObrChoice(read(files[k]), answer(files[k]));
  }

  /** A SARO file whose dialog returns a non-blank answer is renamed to the answer's
      manual name plus ".pdf", or skipped because that name is taken or the rename failed. */
  lemma SaroAnswerDecides(names: seq<string>, read: string -> ObrWorker.Reading,
                          answer: (string, seq<string>) -> Option<string>, renameFails: string -> bool,
                          cancelAt: nat, k: nat)
    requires RenameSaro(Some(names), read, answer, renameFails, cancelAt).Done?
    requires k < |RenameSaro(Some(names), read, answer, renameFails, cancelAt).steps|
    requires read(Visited(names, cancelAt)[k]).Read?
    requires answer(Visited(names, cancelAt)[k], SaroGuess.Guesses(read(Visited(names, cancelAt)[k]).text)).Some?
    requires SaroGuess.ManualName(answer(Visited(names, cancelAt)[k],
      SaroGuess.Guesses(read(Visited(names, cancelAt)[k]).text)).value).Some?
    ensures var file := Visited(names, cancelAt)[k];
      var step := RenameSaro(Some(names), read, answer, renameFails, cancelAt).steps[k];
      var target := SaroGuess.ManualName(answer(file, SaroGuess.Guesses(read(file).text)).value).value + ".pdf";
      step == Renamed(file, target)
      || step == Skipped(file, "already exists as " + target)
      || step == Skipped(file, "error")
  {
    var files := Visited(names, cancelAt);
    var choose := SaroChooser(read, answer);
    RunSteps("SARO", names, choose, renameFails, cancelAt);
    StepsAt(files, SerialLine.NameSet(names), choose, renameFails, k);
    assert choose(files[k]) == SaroChoice(read(files[k]), guesses => answer(files[k], guesses));
  }
}

=== FILE: rename_page.dfy ===
/** The text rules of the rename page (`ui_pages/rename_page.py`): the NCA number and the
    SARO number read from a page's OCR text, the OBR serial, the SARO name guesses and
    their "A-" prefix, the folder loops that rename OBR and SARO files, and the message
    that ends them.

    OCR and page conversion are outside the model: a file's text comes in as an
    `ObrWorker.Reading`. The fallback dialogs are outside too: the model passes them the
    guesses it computed and takes their answer as a parameter. Each regular expression
    is a hand-written matcher `XAt(s, p)` for a match starting at `p`, with a predicate
    stating the pattern's meaning and a lemma that the matcher finds every match. */
module RenamePage {
  import opened Wrappers
  import opened Text
  import SerialLine
  import ObrWorker

  // ---------------------------------------------------------------- OCR lines

  /** The stripped pieces that are not blank, in order. */
  function NonBlank(pieces: seq<string>): (r: seq<string>)
    ensures |r| <= |pieces|
    ensures forall k :: 0 <= k < |r| ==> r[k] != [] && Trimmed(r[k])
    decreases |pieces|
  {
    if pieces == [] then []
    else if Strip(pieces[0]) == [] then NonBlank(pieces[1..])
    else [Strip(pieces[0])] + NonBlank(pieces[1..])
  }

  /** Keeping the non-blank pieces of a concatenation keeps those of each part, in order. */
  lemma {:induction false} NonBlankConcat(a: seq<string>, b: seq<string>)
    ensures NonBlank(a + b) == NonBlank(a) + NonBlank(b)
    decreases |a|
  {
    if a != [] {
      assert (a + b)[0] == a[0];
      assert (a + b)[1..] == a[1..] + b;
      NonBlankConcat(a[1..], b);
    } else {
      assert a + b == b;
    }
  }

  /** A line is kept exactly when it is the non-empty strip of some piece. */
  lemma {:induction false} NonBlankMembers(pieces: seq<string>, x: string)
    ensures x in NonBlank(pieces) <==> x != [] && exists k :: 0 <= k < |pieces| && Strip(pieces[k]) == x
    decreases |pieces|
  {
    if pieces != [] {
      NonBlankMembers(pieces[1..], x);
      if x != [] && Strip(pieces[0]) != x && (exists k :: 0 <= k < |pieces| && Strip(pieces[k]) == x) {
        var k :| 0 <= k < |pieces| && Strip(pieces[k]) == x;
        assert pieces[1..][k - 1] == pieces[k];
      }
      if exists k :: 0 <= k < |pieces[1..]| && Strip(pieces[1..][k]) == x {
        var k :| 0 <= k < |pieces[1..]| && Strip(pieces[1..][k]) == x;
        assert pieces[k + 1] == pieces[1..][k];
      }
    }
  }

  /** The lines the NCA search looks at: the text split on `\n`, each line stripped, blank
      lines dropped. */
  function OcrLines(text: string): (r: seq<string>)
    ensures forall k :: 0 <= k < |r| ==> r[k] != [] && Trimmed(r[k])
  {
    NonBlank(Split(text, '\n'))
  }

  // ---------------------------------------------------------------- NCA codes

  /** `NCA-[A-Z]{2,5}-[A-Z]-\d{2,4}-\d{w}` matches at `p` with `a` letters in the first
      group and `m` digits in the second. */
  predicate NcaMatch(s: string, p: nat, a: nat, m: nat, w: nat) {
    2 <= a <= 5 && 2 <= m <= 4 && p + 8 + a + m + w <= |s|
    && OccursAt(s, "NCA-", p)
    && AllOf(s[p + 4..p + 4 + a], IsUpper) && s[p + 4 + a] == '-'
    && IsUpper(s[p + 5 + a]) && s[p + 6 + a] == '-'
    && AllOf(s[p + 7 + a..p + 7 + a + m], IsDigit) && s[p + 7 + a + m] == '-'
    && AllOf(s[p + 8 + a + m..p + 8 + a + m + w], IsDigit)
  }

  /** The group sizes a match at `p` must have: each group is followed by `-`, which is
      neither a letter nor a digit, so each takes its whole run. */
  function NcaCuts(s: string, p: nat): (nat, nat) {
    var a := Run(s, p + 4, IsUpper);
    (a, Run(s, p + 7 + a, IsDigit))
  }

  /** The NCA code of width `w` matched at `p`. */
  function NcaAt(s: string, p: nat, w: nat): (r: Option<string>)
    ensures r.Some? ==> exists a, m :: NcaMatch(s, p, a, m, w) && r.value == s[p..p + 8 + a + m + w]
  {
    var a := NcaCuts(s, p).0;
    var m := NcaCuts(s, p).1;
    if NcaMatch(s, p, a, m, w) then Some(s[p..p + 8 + a + m + w]) else None
  }

  /** Every match at `p` is found, with its own text. */
  lemma NcaAtFinds(s: string, p: nat, a: nat, m: nat, w: nat)
    requires NcaMatch(s, p, a, m, w)
    ensures NcaAt(s, p, w) == Some(s[p..p + 8 + a + m + w])
  {
    NcaLetters(s, p, a, m, w);
    NcaDigits(s, p, a, m, w);
    assert NcaCuts(s, p) == (a, m);
  }

  lemma NcaLetters(s: string, p: nat, a: nat, m: nat, w: nat)
    requires NcaMatch(s, p, a, m, w)
    ensures Run(s, p + 4, IsUpper) == a
  {
    RunOfAll(s, p + 4, p + 4 + a, IsUpper);
  }

  lemma NcaDigits(s: string, p: nat, a: nat, m: nat, w: nat)
    requires NcaMatch(s, p, a, m, w)
    ensures Run(s, p + 7 + a, IsDigit) == m
  {
    RunOfAll(s, p + 7 + a, p + 7 + a + m, IsDigit);
  }

  /** A dash of `[-–]`: hyphen-minus or en dash. */
  predicate IsDash(c: char) {
    c == '-' || c == '\U{2013}'
  }

  /** `\d{5,7}[-–]\d{1,3}` matches at `p` with `n` digits before the dash and `m` after. */
  predicate PlainMatch(s: string, p: nat, n: nat, m: nat) {
    5 <= n <= 7 && 1 <= m <= 3 && p + n + 1 + m <= |s|
    && AllOf(s[p..p + n], IsDigit) && IsDash(s[p + n])
    && AllOf(s[p + n + 1..p + n + 1 + m], IsDigit)
  }

  /** The plain numeric code matched at `p`: the digits before the dash are the whole run
      (the dash is not a digit) and the last group is greedy, so it takes up to three
      digits. */
  function PlainAt(s: string, p: nat): (r: Option<string>)
    ensures r.Some? ==> exists n, m :: (PlainMatch(s, p, n, m) && r.value == s[p..p + n + 1 + m]
      && (m == 3 || p + n + 1 + m == |s| || !IsDigit(s[p + n + 1 + m])))
  {
    var n := Run(s, p, IsDigit);
    var m := Min(Run(s, p + n + 1, IsDigit), 3);
    if PlainMatch(s, p, n, m) then Some(s[p..p + n + 1 + m]) else None
  }

  /** Every match at `p` is found; the match found is at least as long. */
  lemma PlainAtFinds(s: string, p: nat, n: nat, m: nat)
    requires PlainMatch(s, p, n, m)
    ensures PlainAt(s, p).Some?
  {
    RunOfAll(s, p, p + n, IsDigit);
    PlainAfter(s, p, n, m);
  }

  /** The greedy last group of at most three digits also completes a match. */
  lemma PlainAfter(s: string, p: nat, n: nat, m: nat)
    requires PlainMatch(s, p, n, m)
    ensures PlainMatch(s, p, n, Min(Run(s, p + n + 1, IsDigit), 3))
  {
    var q := p + n + 1;
    RunReaches(s, q, q + m, IsDigit);
    var m' := Min(Run(s, q, IsDigit), 3);
    RunSlice(s, q, q + m', IsDigit);
  }

  /** The line holds an NCA code of width `w` somewhere. */
  ghost predicate HasNca(line: string, w: nat) {
    exists p, a, m :: NcaMatch(line, p, a, m, w)
  }

  /** The line holds a plain numeric code somewhere. */
  ghost predicate HasPlain(line: string) {
    exists p, n, m :: PlainMatch(line, p, n, m)
  }

  /** The matcher for NCA codes of width `w`. */
  function NcaOf(w: nat): (string, nat) -> Option<string> {
    (s: string, p: nat) => NcaAt(s, p, w)
  }

  /** The search for an NCA code succeeds exactly when the line holds one. */
  lemma NcaSearch(line: string, w: nat)
    ensures Search(line, NcaOf(w)).Some? <==> HasNca(line, w)
  {
    if HasNca(line, w) {
      var p, a, m :| NcaMatch(line, p, a, m, w);
      NcaAtFinds(line, p, a, m, w);
      SearchFinds(line, NcaOf(w), p);
    }
  }

  /** The search for a plain code succeeds exactly when the line holds one. */
  lemma PlainSearch(line: string)
    ensures Search(line, PlainAt).Some? <==> HasPlain(line)
  {
    if HasPlain(line) {
      var p, n, m :| PlainMatch(line, p, n, m);
      PlainAtFinds(line, p, n, m);
      SearchFinds(line, PlainAt, p);
    }
  }

  /** The NCA number a candidate line gives: the first 7-digit NCA code, else the first
      6-digit one, else the first plain numeric code. */
  function NcaCandidate(line: string): Option<string> {
    match Search(line, NcaOf(7))
    case Some(code) => Some(code)
    case None =>
      match Search(line, NcaOf(6))
      case Some(code) => Some(code)
      case None => Search(line, PlainAt)
  }

  /** A line yields the leftmost 7-digit NCA code when it holds one; otherwise the
      leftmost 6-digit one when it holds one; otherwise the leftmost plain code, and
      nothing when it holds none of the three. */
  lemma NcaCandidatePriority(line: string)
    ensures HasNca(line, 7) ==> NcaCandidate(line) == Search(line, NcaOf(7))
    ensures !HasNca(line, 7) && HasNca(line, 6) ==> NcaCandidate(line) == Search(line, NcaOf(6))
    ensures !HasNca(line, 7) && !HasNca(line, 6) ==> NcaCandidate(line) == Search(line, PlainAt)
    ensures NcaCandidate(line).None? <==> !HasNca(line, 7) && !HasNca(line, 6) && !HasPlain(line)
  {
    NcaSearch(line, 7);
    NcaSearch(line, 6);
    PlainSearch(line);
  }

  /** The text a line must hold to mark the NCA number on the line before it. */
  const NcaMark: string := "2067"

  /** The candidate the loop takes at line `i`: for a line holding the mark, other than the
      first, the candidate of the line before it. */
  function NcaFrom(lines: seq<string>, i: nat): (r: Option<string>)
    ensures r.Some? <==> 0 < i < |lines| && Contains(lines[i], NcaMark) && NcaCandidate(lines[i - 1]).Some?
    ensures r.Some? ==> r == NcaCandidate(lines[i - 1])
  {
    if 0 < i < |lines| && Contains(lines[i], NcaMark) then NcaCandidate(lines[i - 1]) else None
  }

  /** The first candidate `cand(j)` that is present, for `j` from `i` up to `n`. */
  function FirstFrom<T>(cand: nat -> Option<T>, i: nat, n: nat): Option<T>
    decreases n - i
  {
    if i >= n then None
    else if cand(i).Some? then cand(i)
    else FirstFrom(cand, i + 1, n)
  }

  /** The scan gives the first present candidate, and nothing exactly when there is none. */
  lemma {:induction false} FirstFromFirst<T>(cand: nat -> Option<T>, i: nat, n: nat)
    ensures FirstFrom(cand, i, n).None? <==> forall j :: i <= j < n ==> cand(j).None?
    ensures FirstFrom(cand, i, n).Some? ==> exists j :: (i <= j < n && cand(j) == FirstFrom(cand, i, n)
      && forall k :: i <= k < j ==> cand(k).None?)
    decreases n - i
  {
    if i < n && cand(i).None? {
      FirstFromFirst(cand, i + 1, n);
    }
  }

  function NcaFroms(lines: seq<string>): nat -> Option<string> {
    (j: nat) => NcaFrom(lines, j)
  }

  /** `extract_nca_number` after OCR: the loop over the stripped non-blank lines. */
  function NcaNumber(text: string): Option<string> {
    FirstFrom(NcaFroms(OcrLines(text)), 0, |OcrLines(text)|)
  }

  /** The NCA number is the candidate of the first line that holds the mark, is not the
      first line, and whose previous line yields a candidate; there is none exactly when no
      line does. */
  lemma NcaNumberSource(text: string)
    ensures NcaNumber(text).None? <==> forall j :: 0 <= j < |OcrLines(text)| ==> NcaFrom(OcrLines(text), j).None?
    ensures NcaNumber(text).Some? ==> exists j :: (0 <= j < |OcrLines(text)| && NcaFrom(OcrLines(text), j) == NcaNumber(text)
      && forall k :: 0 <= k < j ==> NcaFrom(OcrLines(text), k).None?)
  {
    var lines := OcrLines(text);
    FirstFromFirst(NcaFroms(lines), 0, |lines|);
    forall j: nat
      ensures NcaFroms(lines)(j) == NcaFrom(lines, j)
    {
    }
  }

  /** What the OCR step gives, with its failure: the exception is caught and there is no
      number. */
  function NcaFromReading(reading: ObrWorker.Reading): (r: Option<string>)
    ensures reading.Unreadable? ==> r.None?
    ensures reading.Read? ==> r == NcaNumber(reading.text)
  {
    match reading
    case Read(text) => NcaNumber(text)
    case Unreadable(_) => None
  }

  // ---------------------------------------------------------------- SARO number from an image

  /** `[-\s]`: a hyphen or whitespace. */
  predicate IsSep(c: char) {
    c == '-' || IsSpace(c)
  }

  /** An optional item `cls?` at `q`, taken (`e == 1`) or skipped (`e == 0`) by a parse. */
  predicate Took(s: string, q: nat, e: nat, cls: char -> bool) {
    e <= 1 && (e == 1 ==> q < |s| && cls(s[q]))
  }

  /** The greedy choice for `cls?` at `q`: the position after the item. */
  function Opt(s: string, q: nat, cls: char -> bool): (r: nat)
    ensures r == q || r == q + 1
    ensures Took(s, q, r - q, cls)
    ensures q < |s| && cls(s[q]) ==> r == q + 1
  {
    if q < |s| && cls(s[q]) then q + 1 else q
  }

  const SaroWord: string := "SARO"

  /** `SARO[-\s]?[A-Z]{3}[-\s]?[A-Z]?[-\s]?\d{2}[-\s]?\d{7}` parses at `p`, taking the five
      optional items as `e1` to `e5` say; the match then ends at `p + 16 + e1 + ... + e5`. */
  predicate SaroParse(s: string, p: nat, e1: nat, e2: nat, e3: nat, e4: nat, e5: nat) {
    && OccursAt(s, SaroWord, p)
    && Took(s, p + 4, e1, IsSep) && Exact(s, p + 4 + e1, 3, IsUpper)
    && Took(s, p + 7 + e1, e2, IsSep) && Took(s, p + 7 + e1 + e2, e3, IsUpper)
    && Took(s, p + 7 + e1 + e2 + e3, e4, IsSep) && Exact(s, p + 7 + e1 + e2 + e3 + e4, 2, IsDigit)
    && Took(s, p + 9 + e1 + e2 + e3 + e4, e5, IsSep) && Exact(s, p + 9 + e1 + e2 + e3 + e4 + e5, 7, IsDigit)
  }

  /** Where the long SARO pattern matched at `p` ends. Separators, capitals and digits
      are disjoint classes, so taking every optional item that is present reaches the end
      any parse reaches, and the engine's backtracking changes nothing. */
  function SaroEnd(s: string, p: nat): (r: Option<nat>)
    ensures r.Some? ==> p + 16 <= r.value <= |s|
  {
    if !OccursAt(s, SaroWord, p) then None
    else
      var q1 := Opt(s, p + 4, IsSep);
      var q4 := Opt(s, Opt(s, Opt(s, q1 + 3, IsSep), IsUpper), IsSep);
      var q5 := Opt(s, q4 + 2, IsSep);
      if Exact(s, q1, 3, IsUpper) && Exact(s, q4, 2, IsDigit) && Exact(s, q5, 7, IsDigit) then
        Some(q5 + 7)
      else None
  }

  /** The end the matcher reports is the end of a parse. */
  lemma SaroEndSound(s: string, p: nat)
    requires SaroEnd(s, p).Some?
    ensures exists e1, e2, e3, e4, e5 :: (SaroParse(s, p, e1, e2, e3, e4, e5)
      && SaroEnd(s, p).value == p + 16 + e1 + e2 + e3 + e4 + e5)
  {
    var q1 := Opt(s, p + 4, IsSep);
    var q2 := Opt(s, q1 + 3, IsSep);
    var q3 := Opt(s, q2, IsUpper);
    var q4 := Opt(s, q3, IsSep);
    var q5 := Opt(s, q4 + 2, IsSep);
    assert SaroEnd(s, p) == Some(q5 + 7);
    var e1, e2, e3, e4, e5 := q1 - p - 4, q2 - q1 - 3, q3 - q2, q4 - q3, q5 - q4 - 2;
    SaroParseOf(s, p, e1, e2, e3, e4, e5);
    assert q5 + 7 == p + 16 + e1 + e2 + e3 + e4 + e5;
  }

  /** The choices the matcher makes form a parse. */
  lemma SaroParseOf(s: string, p: nat, e1: nat, e2: nat, e3: nat, e4: nat, e5: nat)
    requires OccursAt(s, SaroWord, p)
    requires p + 4 + e1 == Opt(s, p + 4, IsSep) && Exact(s, p + 4 + e1, 3, IsUpper)
    requires p + 7 + e1 + e2 == Opt(s, p + 7 + e1, IsSep)
    requires p + 7 + e1 + e2 + e3 == Opt(s, p + 7 + e1 + e2, IsUpper)
    requires p + 7 + e1 + e2 + e3 + e4 == Opt(s, p + 7 + e1 + e2 + e3, IsSep)
    requires Exact(s, p + 7 + e1 + e2 + e3 + e4, 2, IsDigit)
    requires p + 9 + e1 + e2 + e3 + e4 + e5 == Opt(s, p + 9 + e1 + e2 + e3 + e4, IsSep)
    requires Exact(s, p + 9 + e1 + e2 + e3 + e4 + e5, 7, IsDigit)
    ensures SaroParse(s, p, e1, e2, e3, e4, e5)
  {
  }

  /** Every parse ends where the matcher's match ends. */
  lemma SaroEndFinds(s: string, p: nat, e1: nat, e2: nat, e3: nat, e4: nat, e5: nat)
    requires SaroParse(s, p, e1, e2, e3, e4, e5)
    ensures SaroEnd(s, p) == Some(p + 16 + e1 + e2 + e3 + e4 + e5)
  {
    SaroGreedy(s, p, e1, e2, e3, e4, e5);
    SaroEndAt(s, p, e1, e2 + e3 + e4, e5);
  }

  /** The matcher's end from its greedy positions, `e` being the length of the optional
      part between the capitals and the two digits. */
  lemma SaroEndAt(s: string, p: nat, e1: nat, e: nat, e5: nat)
    requires OccursAt(s, SaroWord, p)
    requires Opt(s, p + 4, IsSep) == p + 4 + e1
    requires Opt(s, Opt(s, Opt(s, p + 4 + e1 + 3, IsSep), IsUpper), IsSep) == p + 7 + e1 + e
    requires Opt(s, p + 7 + e1 + e + 2, IsSep) == p + 9 + e1 + e + e5
    requires Exact(s, p + 4 + e1, 3, IsUpper) && Exact(s, p + 7 + e1 + e, 2, IsDigit)
    requires Exact(s, p + 9 + e1 + e + e5, 7, IsDigit)
    ensures SaroEnd(s, p) == Some(p + 16 + e1 + e + e5)
  {
  }

  /** The long SARO pattern matched at `p`. */
  function SaroAt(s: string, p: nat): (r: Option<string>)
    ensures r.Some? ==> exists e1, e2, e3, e4, e5 :: (SaroParse(s, p, e1, e2, e3, e4, e5)
      && r.value == s[p..p + 16 + e1 + e2 + e3 + e4 + e5])
  {
    match SaroEnd(s, p)
    case None => None
    case Some(e) =>
      SaroEndSound(s, p);
      Some(s[p..e])
  }

  /** Every parse of the long pattern at `p` is found, with its own text. */
  lemma SaroAtFinds(s: string, p: nat, e1: nat, e2: nat, e3: nat, e4: nat, e5: nat)
    requires SaroParse(s, p, e1, e2, e3, e4, e5)
    ensures SaroAt(s, p) == Some(s[p..p + 16 + e1 + e2 + e3 + e4 + e5])
  {
    SaroEndFinds(s, p, e1, e2, e3, e4, e5);
  }

  /** The greedy positions of the matcher are those of the parse, though its choices for
      the optional separator, capital and separator before the two digits may differ. */
  lemma SaroGreedy(s: string, p: nat, e1: nat, e2: nat, e3: nat, e4: nat, e5: nat)
    requires SaroParse(s, p, e1, e2, e3, e4, e5)
    ensures Opt(s, p + 4, IsSep) == p + 4 + e1
    ensures Opt(s, Opt(s, Opt(s, p + 7 + e1, IsSep), IsUpper), IsSep) == p + 7 + e1 + e2 + e3 + e4
    ensures Opt(s, p + 9 + e1 + e2 + e3 + e4, IsSep) == p + 9 + e1 + e2 + e3 + e4 + e5
  {
    assert IsUpper(s[p + 4 + e1]);
    assert IsDigit(s[p + 7 + e1 + e2 + e3 + e4]);
    assert IsDigit(s[p + 9 + e1 + e2 + e3 + e4 + e5]);
  }

  /** `\b[A-Z]-\d{2}-\d{5}\b` at `p`: the match is ten characters between word boundaries. */
  predicate ShortMatch(s: string, p: nat) {
    && p + 10 <= |s|
    && (p == 0 || !IsWord(s[p - 1]))
    && IsUpper(s[p]) && s[p + 1] == '-' && Exact(s, p + 2, 2, IsDigit)
    && s[p + 4] == '-' && Exact(s, p + 5, 5, IsDigit)
    && (p + 10 == |s| || !IsWord(s[p + 10]))
  }

  /** The short SARO pattern matched at `p`. */
  function ShortAt(s: string, p: nat): (r: Option<string>)
    ensures r.Some? <==> ShortMatch(s, p)
    ensures r.Some? ==> |r.value| == 10 && IsUpper(r.value[0]) && r.value[1] == '-' && r.value[4] == '-'
  {
    if ShortMatch(s, p) then Some(s[p..p + 10]) else None
  }

  ghost predicate HasSaro(text: string) {
    exists p, e1, e2, e3, e4, e5 :: SaroParse(text, p, e1, e2, e3, e4, e5)
  }

  ghost predicate HasShort(text: string) {
    exists p :: ShortMatch(text, p)
  }

  /** The search for the long pattern succeeds exactly when the text holds a match. */
  lemma SaroSearch(text: string)
    ensures Search(text, SaroAt).Some? <==> HasSaro(text)
  {
    if HasSaro(text) {
      var p, e1, e2, e3, e4, e5 :| SaroParse(text, p, e1, e2, e3, e4, e5);
      SaroAtFinds(text, p, e1, e2, e3, e4, e5);
      SearchFinds(text, SaroAt, p);
    }
  }

  /** The search for the short pattern succeeds exactly when the text holds a match. */
  lemma ShortSearch(text: string)
    ensures Search(text, ShortAt).Some? <==> HasShort(text)
  {
    if HasShort(text) {
      var p :| ShortMatch(text, p);
      SearchFinds(text, ShortAt, p);
    }
  }

  /** `match.group(1).replace(" ", "").strip()`. */
  function Clean(g: string): (r: string)
    ensures ' ' !in r
  {
    var x := RemoveChar(g, ' ');
    StripShape(x);
    Strip(x)
  }

  /** `extract_saro_number_from_image` after OCR: the patterns are tried in order, each with
      its leftmost match. */
  function SaroNumber(text: string): Option<string> {
    match Search(text, SaroAt)
    case Some(g) => Some(Clean(g))
    case None =>
      match Search(text, ShortAt)
      case Some(g) => Some(Clean(g))
      case None => None
  }

  /** The long pattern wins whenever the text holds it; the short one is used only
      otherwise; there is no number exactly when the text holds neither. */
  lemma SaroNumberPriority(text: string)
    ensures HasSaro(text) ==> Search(text, SaroAt).Some? && SaroNumber(text) == Some(Clean(Search(text, SaroAt).value))
    ensures !HasSaro(text) && HasShort(text) ==>
      Search(text, ShortAt).Some? && SaroNumber(text) == Some(Clean(Search(text, ShortAt).value))
    ensures SaroNumber(text).None? <==> !HasSaro(text) && !HasShort(text)
  {
    SaroSearch(text);
    ShortSearch(text);
  }

  // ---------------------------------------------------------------- OBR serial

  predicate NotSpace(c: char) {
    !IsSpace(c)
  }

  /** The literal heads of `CA\-MOOE\S+|MOOE\S+|PGF\S+|PS\S+`, in the order tried. */
  const SerialHeads: seq<string> := ["CA-MOOE", "MOOE", "PGF", "PS"]

  /** Alternative `head\S+` parses at `p` with `k` characters after the head. */
  predicate SerialParse(s: string, p: nat, head: string, k: nat) {
    head in SerialHeads && OccursAt(s, head, p) && k >= 1 && Exact(s, p + |head|, k, NotSpace)
  }

  /** No head holds whitespace, so a head that occurs at `p` lies inside the run of
      non-space characters there. */
  lemma HeadNoSpace(s: string, p: nat, head: string)
    requires head in SerialHeads && OccursAt(s, head, p)
    ensures Exact(s, p, |head|, NotSpace)
  {
    forall i | p <= i < p + |head| ensures NotSpace(s[i]) {
      assert s[i] == s[p..p + |head|][i - p] == head[i - p];
    }
  }

  /** The first alternative, in the order tried, whose head occurs at `p` and is followed
      by at least one more non-space character; `n` is the non-space run at `p`. */
  function SerialHead(s: string, p: nat, n: nat): (r: Option<string>)
    ensures r.Some? ==> r.value in SerialHeads && OccursAt(s, r.value, p) && n > |r.value|
    ensures r.None? ==> forall head :: head in SerialHeads && OccursAt(s, head, p) ==> n <= |head|
  {
    if OccursAt(s, SerialHeads[0], p) && n > 7 then Some(SerialHeads[0])
    else if OccursAt(s, SerialHeads[1], p) && n > 4 then Some(SerialHeads[1])
    else if OccursAt(s, SerialHeads[2], p) && n > 3 then Some(SerialHeads[2])
    else if OccursAt(s, SerialHeads[3], p) && n > 2 then Some(SerialHeads[3])
    else None
  }

  /** The serial matched at `p`: whichever alternative matches, `\S+` takes the rest of the
      run of non-space characters, so the match is that whole run. */
  function SerialAt(s: string, p: nat): (r: Option<string>)
    ensures r.Some? ==> exists head, k :: (SerialParse(s, p, head, k) && r.value == s[p..p + |head| + k]
      && (p + |head| + k == |s| || IsSpace(s[p + |head| + k])))
    ensures r.Some? ==> r.value == s[p..p + Run(s, p, NotSpace)]
  {
    var n := Run(s, p, NotSpace);
    RunChars(s, p, NotSpace);
    match SerialHead(s, p, n)
    case Some(head) =>
      assert SerialParse(s, p, head, n - |head|);
      Some(s[p..p + n])
    case None => None
  }

  /** Every parse at `p` is found; `\S+` extends it to the whole non-space run. */
  lemma SerialAtFinds(s: string, p: nat, head: string, k: nat)
    requires SerialParse(s, p, head, k)
    ensures SerialAt(s, p) == Some(s[p..p + Run(s, p, NotSpace)])
    ensures Run(s, p, NotSpace) >= |head| + k
  {
    HeadNoSpace(s, p, head);
    RunCovers(s, p, |head| + k, NotSpace);
  }

  ghost predicate HasSerial(text: string) {
    exists p, head, k :: SerialParse(text, p, head, k)
  }

  /** The serial of an OBR page: the leftmost match, stripped; the match holds no
      whitespace, so the strip changes nothing. */
  function ObrSerial(text: string): (r: Option<string>)
    ensures r.Some? ==> r.value != [] && forall i :: 0 <= i < |r.value| ==> !IsSpace(r.value[i])
    ensures r.Some? <==> Search(text, SerialAt).Some?
    ensures r.Some? ==> r.value == Search(text, SerialAt).value
  {
    match Search(text, SerialAt)
    case Some(g) =>
      SerialFound(text, g);
      StripClean(g);
      Some(Strip(g))
    case None => None
  }

  /** What the search finds is a whole non-space run. */
  lemma SerialFound(text: string, g: string)
    requires Search(text, SerialAt) == Some(g)
    ensures g != [] && (forall i :: 0 <= i < |g| ==> !IsSpace(g[i])) && Trimmed(g)
  {
    var p :| 0 <= p <= |text| && SerialAt(text, p) == Some(g);
    SerialClean(text, p, g);
  }

  lemma SerialClean(s: string, p: nat, g: string)
    requires SerialAt(s, p) == Some(g)
    ensures g != [] && (forall i :: 0 <= i < |g| ==> !IsSpace(g[i])) && Trimmed(g)
  {
    var n := Run(s, p, NotSpace);
    assert g == s[p..p + n];
    forall i | 0 <= i < |g|
      ensures !IsSpace(g[i])
    {
      assert g[i] == s[p + i];
      assert NotSpace(s[p + i]);
    }
  }

  /** The search for a serial succeeds exactly when the text holds a match. */
  lemma SerialSearch(text: string)
    ensures Search(text, SerialAt).Some? <==> HasSerial(text)
  {
    if HasSerial(text) {
      var p, head, k :| SerialParse(text, p, head, k);
      SerialAtFinds(text, p, head, k);
      SearchFinds(text, SerialAt, p);
    }
  }

  /** The OBR serial is found exactly when the text holds a match; it is the non-space run
      that starts at the leftmost match. */
  lemma ObrSerialFound(text: string)
    ensures ObrSerial(text).Some? <==> HasSerial(text)
    ensures ObrSerial(text).Some? ==> exists p: nat :: (p <= |text| && SerialAt(text, p).Some?
      && ObrSerial(text).value == text[p..p + Run(text, p, NotSpace)]
      && forall q :: 0 <= q < p ==> SerialAt(text, q).None?)
  {
    SerialSearch(text);
  }
}

=== FILE: saro_guess.dfy ===
/** The SARO name guesses of `rename_saro_files` (`ui_pages/rename_page.py`): the automatic
    guess read after "SARO No." in the OCR text, the "A-" prefix every SARO name gets, the
    whole lines that look like a SARO name, and the list of at most three distinct guesses
    offered to the fallback dialog. */
module SaroGuess {
  import opened Wrappers
  import opened Text
  import SerialLine
  import RenamePage

  // ---------------------------------------------------------------- the automatic guess

  /** `[A-Z0-9\-~]` under IGNORECASE: a letter of either case, a digit, `-` or `~`. */
  predicate IsGuessChar(c: char) {
    IsAlnum(c) || c == '-' || c == '~'
  }

  /** What the group `([A-Z0-9\-~]+)` can capture: one or more guess characters. */
  predicate IsGuess(g: string) {
    g != [] && forall i :: 0 <= i < |g| ==> IsGuessChar(g[i])
  }

  predicate IsPeriod(c: char) {
    c == '.'
  }

  /** `.`: any character but a newline. */
  predicate NotNewline(c: char) {
    c != '\n'
  }

  /** `[:\-~]`. */
  predicate IsMark(c: char) {
    c == ':' || c == '-' || c == '~'
  }

  /** Ordered choice: the first alternative when it succeeds, otherwise the second; this is
      the order in which the regular-expression engine backtracks over an optional item. */
  function OrElse(a: Option<string>, b: Option<string>): (r: Option<string>)
    ensures r.None? <==> a.None? && b.None?
    ensures a.Some? ==> r == a
  {
    if a.Some? then a else b
  }

  /** `\s*([A-Z0-9\-~]+)` at `q`. No guess character is whitespace, so giving back spaces
      to the group cannot help and the greedy run of spaces is the only one that matches;
      the group is the whole run of guess characters after it. */
  function GroupAt(s: string, q: nat): (r: Option<string>)
    ensures r.Some? ==> IsGuess(r.value)
  {
    var g := q + Run(s, q, IsSpace);
    var n := Run(s, g, IsGuessChar);
    RunChars(s, g, IsGuessChar);
    if n > 0 then Some(s[g..g + n]) else None
  }

  /** `[:\-~]?` and the rest, at `q`: with the mark taken first, then without it. */
  function MarkThen(s: string, q: nat): (r: Option<string>)
    ensures r.Some? ==> IsGuess(r.value)
  {
    OrElse(if q < |s| && IsMark(s[q]) then GroupAt(s, q + 1) else None, GroupAt(s, q))
  }

  /** `.?` and the rest, at `q`: with any character but a newline taken first, then
      without it. */
  function AnyThen(s: string, q: nat): (r: Option<string>)
    ensures r.Some? ==> IsGuess(r.value)
  {
    OrElse(if q < |s| && NotNewline(s[q]) then MarkThen(s, q + 1) else None, MarkThen(s, q))
  }

  /** `\.?` and the rest, at `q`: with the period taken first, then without it. */
  function DotThen(s: string, q: nat): (r: Option<string>)
    ensures r.Some? ==> IsGuess(r.value)
  {
    OrElse(if q < |s| && IsPeriod(s[q]) then AnyThen(s, q + 1) else None, AnyThen(s, q))
  }

  const SaroWordCi: string := "saro"
  const NoWordCi: string := "no"

  /** `SARO\s*No\.?.?[:\-~]?\s*([A-Z0-9\-~]+)` under IGNORECASE, matched at `p`: the
      group of the first parse in the engine's backtracking order. */
  function AutoAt(s: string, p: nat): (r: Option<string>)
    ensures r.Some? ==> OccursAtCi(s, SaroWordCi, p)
    ensures r.Some? ==> IsGuess(r.value)
  {
    if !OccursAtCi(s, SaroWordCi, p) then None else AfterSaro(s, p + 4 + Run(s, p + 4, IsSpace))
  }

  /** `No\.?.?[:\-~]?\s*([A-Z0-9\-~]+)` at `q`, case ignored. */
  function AfterSaro(s: string, q: nat): (r: Option<string>)
    ensures r.Some? ==> IsGuess(r.value)
  {
    if !OccursAtCi(s, NoWordCi, q) then None else DotThen(s, q + 2)
  }

  /** A parse of `\s*([A-Z0-9\-~]+)` at `t` with `ws` spaces and a group of `n` characters. */
  predicate GroupParse(s: string, t: nat, ws: nat, n: nat) {
    Exact(s, t, ws, IsSpace) && n >= 1 && Exact(s, t + ws, n, IsGuessChar)
  }

  /** A parse of `[:\-~]?` and the group at `t`, taking the mark as `m` says. */
  predicate MarkParse(s: string, t: nat, m: nat, ws: nat, n: nat) {
    RenamePage.Took(s, t, m, IsMark) && GroupParse(s, t + m, ws, n)
  }

  /** A parse of `.?` and the rest at `t`, taking the character as `a` says. */
  predicate AnyParse(s: string, t: nat, a: nat, m: nat, ws: nat, n: nat) {
    RenamePage.Took(s, t, a, NotNewline) && MarkParse(s, t + a, m, ws, n)
  }

  /** A parse of `\.?` and the rest at `t`, taking the period as `d` says. */
  predicate TailParse(s: string, t: nat, d: nat, a: nat, m: nat, ws: nat, n: nat) {
    RenamePage.Took(s, t, d, IsPeriod) && AnyParse(s, t + d, a, m, ws, n)
  }

  /** A parse of the pattern at `p` with `sp` spaces between "SARO" and "No". */
  predicate AutoParse(s: string, p: nat, sp: nat, d: nat, a: nat, m: nat, ws: nat, n: nat) {
    && OccursAtCi(s, SaroWordCi, p) && Exact(s, p + 4, sp, IsSpace)
    && OccursAtCi(s, NoWordCi, p + 4 + sp)
    && TailParse(s, p + 4 + sp + 2, d, a, m, ws, n)
  }

  /** A group the pattern can match at `q` is found there. */
  lemma GroupAtFinds(s: string, q: nat, ws: nat, n: nat)
    requires GroupParse(s, q, ws, n)
    ensures GroupAt(s, q).Some?
  {
    RunCovers(s, q, ws, IsSpace);
    RunChars(s, q, IsSpace);
    assert IsGuessChar(s[q + ws]);
    RunCovers(s, q + ws, n, IsGuessChar);
  }

  lemma MarkThenFinds(s: string, t: nat, m: nat, ws: nat, n: nat)
    requires MarkParse(s, t, m, ws, n)
    ensures MarkThen(s, t).Some?
  {
    if m == 0 { GroupAtFinds(s, t, ws, n); } else { GroupAtFinds(s, t + 1, ws, n); }
  }

  lemma AnyThenFinds(s: string, t: nat, a: nat, m: nat, ws: nat, n: nat)
    requires AnyParse(s, t, a, m, ws, n)
    ensures AnyThen(s, t).Some?
  {
    if a == 0 { MarkThenFinds(s, t, m, ws, n); } else { MarkThenFinds(s, t + 1, m, ws, n); }
  }

  lemma DotThenFinds(s: string, t: nat, d: nat, a: nat, m: nat, ws: nat, n: nat)
    requires TailParse(s, t, d, a, m, ws, n)
    ensures DotThen(s, t).Some?
  {
    if d == 0 { AnyThenFinds(s, t, a, m, ws, n); } else { AnyThenFinds(s, t + 1, a, m, ws, n); }
  }

  /** "No" starts with a letter, so the spaces before it are the whole run of spaces. */
  lemma SpacesBeforeNo(s: string, p: nat, sp: nat)
    requires Exact(s, p, sp, IsSpace) && OccursAtCi(s, NoWordCi, p + sp)
    ensures Run(s, p, IsSpace) == sp
  {
    RunCovers(s, p, sp, IsSpace);
    RunChars(s, p, IsSpace);
    assert ToLower(s[p + sp]) == Lower(s[p + sp..p + sp + 2])[0] == 'n';
  }

  lemma AfterSaroFinds(s: string, q: nat, d: nat, a: nat, m: nat, ws: nat, n: nat)
    requires OccursAtCi(s, NoWordCi, q) && TailParse(s, q + 2, d, a, m, ws, n)
    ensures AfterSaro(s, q).Some?
  {
    DotThenFinds(s, q + 2, d, a, m, ws, n);
  }

  /** Whenever some parse of the pattern exists at `p`, the matcher succeeds at `p`: the
      ordered choices fall back until the parse's own choices are reached. */
  lemma AutoAtFinds(s: string, p: nat, sp: nat, d: nat, a: nat, m: nat, ws: nat, n: nat)
    requires AutoParse(s, p, sp, d, a, m, ws, n)
    ensures AutoAt(s, p).Some?
  {
    AutoParseSpaces(s, p, sp, d, a, m, ws, n);
    AutoParseAfter(s, p, sp, d, a, m, ws, n);
    AutoAtVia(s, p);
  }

  lemma AutoParseSpaces(s: string, p: nat, sp: nat, d: nat, a: nat, m: nat, ws: nat, n: nat)
    requires AutoParse(s, p, sp, d, a, m, ws, n)
    ensures OccursAtCi(s, SaroWordCi, p) && Run(s, p + 4, IsSpace) == sp
  {
    SpacesBeforeNo(s, p + 4, sp);
  }

  lemma AutoParseAfter(s: string, p: nat, sp: nat, d: nat, a: nat, m: nat, ws: nat, n: nat)
    requires AutoParse(s, p, sp, d, a, m, ws, n)
    ensures AfterSaro(s, p + 4 + sp).Some?
  {
    AfterSaroFinds(s, p + 4 + sp, d, a, m, ws, n);
  }

  lemma AutoAtVia(s: string, p: nat)
    requires OccursAtCi(s, SaroWordCi, p) && AfterSaro(s, p + 4 + Run(s, p + 4, IsSpace)).Some?
    ensures AutoAt(s, p).Some?
  {
  }

  /** The engine's choice can cost the number its first character: with no space after
      the period, `.?` takes the first digit, and "SARO No.123" yields "23". */
  lemma AutoAtTakesFirstDigit()
    ensures AutoAt(FirstDigitSample, 0) == Some("23")
  {
    SampleWords();
    SampleTail();
    assert AfterSaro(FirstDigitSample, 5) == Some("23");
  }

  const FirstDigitSample: string := "SARO No.123"

  lemma SampleWords()
    ensures OccursAtCi(FirstDigitSample, SaroWordCi, 0) && Run(FirstDigitSample, 4, IsSpace) == 1
    ensures OccursAtCi(FirstDigitSample, NoWordCi, 5)
  {
    assert Run(FirstDigitSample, 5, IsSpace) == 0;
  }

  lemma SampleGroup()
    ensures GroupAt(FirstDigitSample, 9) == Some("23")
  {
    var s := FirstDigitSample;
    assert Run(s, 9, IsSpace) == 0;
    assert Run(s, 9, IsGuessChar) == 2;
    assert s[9..11] == "23";
  }

  lemma SampleTail()
    ensures DotThen(FirstDigitSample, 7) == Some("23")
  {
    SampleGroup();
    assert MarkThen(FirstDigitSample, 9) == Some("23");
    assert AnyThen(FirstDigitSample, 8) == Some("23");
  }

  // ---------------------------------------------------------------- the "A-" prefix

  /** Starts, ignoring case, with "SARO-" or "A-". */
  predicate HasSaroPrefix(name: string) {
    StartsWith(Upper(name), "SARO-") || StartsWith(Upper(name), "A-")
  }

  /** The "A-" prefix a SARO name gets unless it already has a SARO prefix. */
  function SaroPrefixed(name: string): (r: string)
    ensures HasSaroPrefix(r)
    ensures r == name || r == "A-" + name
    ensures r == name <==> HasSaroPrefix(name)
  {
    if HasSaroPrefix(name) then name
    else
      assert Upper("A-" + name)[..2] == "A-";
      "A-" + name
  }

  /** Prefixing twice is prefixing once. */
  lemma SaroPrefixedIdempotent(name: string)
    ensures SaroPrefixed(SaroPrefixed(name)) == SaroPrefixed(name)
  {
  }

  /** `~` and `–` both become `-`. */
  function Dashed(s: string): (r: string)
    ensures |r| == |s| && '~' !in r && '\U{2013}' !in r
    ensures forall i :: 0 <= i < |s| && s[i] != '~' && s[i] != '\U{2013}' ==> r[i] == s[i]
  {
    ReplaceChar(ReplaceChar(s, '~', '-'), '\U{2013}', '-')
  }

  /** The automatic guess: the group of the leftmost match, dashes unified, stripped and
      prefixed; none when the text has no match. */
  function AutoGuess(text: string): (r: Option<string>)
    ensures r.Some? ==> HasSaroPrefix(r.value)
    ensures r.Some? <==> Search(text, AutoAt).Some?
  {
    match Search(text, AutoAt)
    case Some(g) => Some(SaroPrefixed(Strip(Dashed(g))))
    case None => None
  }

  /** The name typed or picked in the fallback dialog, stripped by the dialog: a blank
      answer gives none, any other the prefixed name. */
  function ManualName(answer: string): (r: Option<string>)
    ensures r.None? <==> Strip(answer) == []
    ensures r.Some? ==> HasSaroPrefix(r.value) && (r.value == Strip(answer) || r.value == "A-" + Strip(answer))
  {
    var t := Strip(answer);
    if t == [] then None else Some(SaroPrefixed(t))
  }

  // ---------------------------------------------------------------- whole-line guesses

  /** `SARO-[A-Z]{3}-[A-Z]?-?\d{2}-\d{7}` matches the whole of `c`, taking the optional
      capital and hyphen as `e1` and `e2` say. */
  predicate SaroNameParse(c: string, e1: nat, e2: nat) {
    && |c| == 19 + e1 + e2 && OccursAt(c, "SARO-", 0)
    && Exact(c, 5, 3, IsUpper) && c[8] == '-'
    && RenamePage.Took(c, 9, e1, IsUpper) && RenamePage.Took(c, 9 + e1, e2, ch => ch == '-')
    && Exact(c, 9 + e1 + e2, 2, IsDigit) && c[11 + e1 + e2] == '-' && Exact(c, 12 + e1 + e2, 7, IsDigit)
  }

  predicate IsSaroName(c: string) {
    exists e1: nat, e2: nat | e1 <= 1 && e2 <= 1 :: SaroNameParse(c, e1, e2)
  }

  /** `[A-Z]{1,4}-\d{2}-\d{5,7}` matches the whole of `c`, with `n` capitals and `m` final
      digits. */
  predicate ShortNameParse(c: string, n: nat, m: nat) {
    && 1 <= n <= 4 && 5 <= m <= 7 && |c| == n + 4 + m
    && Exact(c, 0, n, IsUpper) && c[n] == '-' && Exact(c, n + 1, 2, IsDigit)
    && c[n + 3] == '-' && Exact(c, n + 4, m, IsDigit)
  }

  predicate IsShortSaroName(c: string) {
    exists n: nat, m: nat | n <= 4 && m <= 7 :: ShortNameParse(c, n, m)
  }

  /** A line, stripped and with its dashes unified, is a guess when the whole of it is a
      SARO name of either form. */
  function LineGuess(line: string): (r: Option<string>)
    ensures r.Some? <==> IsSaroName(Dashed(Strip(line))) || IsShortSaroName(Dashed(Strip(line)))
    ensures r.Some? ==> r.value == Dashed(Strip(line))
  {
    var c := Dashed(Strip(line));
    if IsSaroName(c) || IsShortSaroName(c) then Some(c) else None
  }

  // ---------------------------------------------------------------- the guess list

  /** Appends `x` unless it is already listed. */
  function AddNew(xs: seq<string>, x: string): (r: seq<string>)
    ensures SerialLine.Distinct(xs) ==> SerialLine.Distinct(r)
    ensures forall y :: y in r <==> y in xs || y == x
  {
    if x in xs then xs else xs + [x]
  }

  /** The guesses after the loop over `lines`, starting from `acc`. */
  function Collect(lines: seq<string>, acc: seq<string>): (r: seq<string>)
    ensures SerialLine.Distinct(acc) ==> SerialLine.Distinct(r)
    ensures |acc| <= |r| && r[..|acc|] == acc
    decreases |lines|
  {
    if lines == [] then acc else Collect(lines[1..], Take(acc, lines[0]))
  }

  /** One turn of the loop: the line's guess is added unless already listed. */
  function Take(acc: seq<string>, line: string): (r: seq<string>)
    ensures SerialLine.Distinct(acc) ==> SerialLine.Distinct(r)
    ensures |acc| <= |r| && r[..|acc|] == acc
    ensures forall y :: y in r <==> y in acc || Some(y) == LineGuess(line)
  {
    match LineGuess(line)
    case Some(c) => AddNew(acc, c)
    case None => acc
  }

  /** A guess is collected exactly when it was there at the start or is the guess of one
      of the lines. */
  lemma {:induction false} CollectMembers(lines: seq<string>, acc: seq<string>, x: string)
    ensures x in Collect(lines, acc) <==> x in acc || exists k :: 0 <= k < |lines| && LineGuess(lines[k]) == Some(x)
    decreases |lines|
  {
    if lines != [] {
      var next := Take(acc, lines[0]);
      CollectMembers(lines[1..], next, x);
      if exists k :: 0 <= k < |lines[1..]| && LineGuess(lines[1..][k]) == Some(x) {
        var k :| 0 <= k < |lines[1..]| && LineGuess(lines[1..][k]) == Some(x);
        assert LineGuess(lines[k + 1]) == Some(x);
      }
      if exists k :: 0 <= k < |lines| && LineGuess(lines[k]) == Some(x) {
        var k :| 0 <= k < |lines| && LineGuess(lines[k]) == Some(x);
        if k > 0 {
          assert LineGuess(lines[1..][k - 1]) == Some(x);
        }
      }
    }
  }

  /** `list(dict.fromkeys(xs))`: every value once, at its first position. */
  function FromKeys(xs: seq<string>): (r: seq<string>)
    ensures SerialLine.Distinct(r)
    ensures forall y :: y in r <==> y in xs
    decreases |xs|
  {
    if xs == [] then []
    else AddNew(FromKeys(xs[..|xs| - 1]), xs[|xs| - 1])
  }

  /** On a list without repeats, `dict.fromkeys` changes nothing. */
  lemma {:induction false} FromKeysDistinct(xs: seq<string>)
    requires SerialLine.Distinct(xs)
    ensures FromKeys(xs) == xs
    decreases |xs|
  {
    if xs != [] {
      var init := xs[..|xs| - 1];
      assert SerialLine.Distinct(init);
      FromKeysDistinct(init);
      assert xs[|xs| - 1] !in init by {
        forall j | 0 <= j < |init| ensures init[j] != xs[|xs| - 1] {
          assert init[j] == xs[j];
        }
      }
      assert init + [xs[|xs| - 1]] == xs;
    }
  }

  /** The start of the list: the automatic guess when there is one. */
  function Seed(auto: Option<string>): (r: seq<string>)
    ensures auto.None? ==> r == []
    ensures auto.Some? ==> r == [auto.value]
  {
    match auto
    case Some(g) => [g]
    case None => []
  }

  /** The guess list for OCR lines `lines` and automatic guess `auto`: the automatic
      guess, then the line guesses in line order without repeats, then `dict.fromkeys` and
      the first three. */
  function GuessList(lines: seq<string>, auto: Option<string>): (r: seq<string>)
    ensures |r| <= 3
    ensures SerialLine.Distinct(r)
  {
    var all := FromKeys(Collect(lines, Seed(auto)));
    all[..Min(3, |all|)]
  }

  /** The `dict.fromkeys` step removes nothing: the list is the first three collected. */
  lemma GuessListPrefix(lines: seq<string>, auto: Option<string>)
    ensures GuessList(lines, auto) == Collect(lines, Seed(auto))[..Min(3, |Collect(lines, Seed(auto))|)]
  {
    FromKeysDistinct(Collect(lines, Seed(auto)));
  }

  /** The automatic guess, when there is one, comes first. */
  lemma GuessListAutoFirst(lines: seq<string>, auto: Option<string>)
    ensures auto.Some? ==> |GuessList(lines, auto)| >= 1 && GuessList(lines, auto)[0] == auto.value
  {
    GuessListPrefix(lines, auto);
  }

  /** Every guess is the automatic guess or the guess of one of the lines. */
  lemma GuessListMembers(lines: seq<string>, auto: Option<string>, x: string)
    requires x in GuessList(lines, auto)
    ensures Some(x) == auto || exists k :: 0 <= k < |lines| && LineGuess(lines[k]) == Some(x)
  {
    GuessListPrefix(lines, auto);
    CollectMembers(lines, Seed(auto), x);
  }

  /** When fewer than four guesses are collected, every line guess is offered. */
  lemma GuessListComplete(lines: seq<string>, auto: Option<string>, k: nat)
    requires k < |lines| && LineGuess(lines[k]).Some? && |Collect(lines, Seed(auto))| <= 3
    ensures LineGuess(lines[k]).value in GuessList(lines, auto)
  {
    GuessListPrefix(lines, auto);
    CollectMembers(lines, Seed(auto), LineGuess(lines[k]).value);
  }

  /** The guesses offered for a page's OCR text. */
  function Guesses(text: string): (r: seq<string>)
    ensures |r| <= 3 && SerialLine.Distinct(r)
    ensures AutoGuess(text).Some? ==> |r| >= 1 && r[0] == AutoGuess(text).value
  {
    GuessListAutoFirst(SplitLines(text), AutoGuess(text));
    GuessList(SplitLines(text), AutoGuess(text))
  }
}

=== FILE: serial_line.dfy ===
/** The "Serial No." rename shared by `core/file_utils.py` and `core/pdf_tools.py`: every
    PDF in a folder is converted to page images, the pages are read by OCR, the first
    line holding the serial label gives the new name, and the file is renamed unless a
    file of that name already exists.

    Conversion and OCR are outside the model: a `Conversion` stands for both and holds, per
    file, what OCR gave for each page (its text or the exception it raised) or the
    conversion failure. `renameError` stands for an operating-system error raised by the
    rename itself. The sanitiser differs between the two callers and is a parameter. */
module SerialLine {
  import opened Wrappers
  import opened Text

  const Label: string := "Serial No."

  // ---------------------------------------------------------------- finding the serial

  predicate HasLabel(line: string) {
    Contains(line, Label)
  }

  /** The serial one page yields: the page is split on `\n`, the first line holding the
      label is cut after its last label, stripped and sanitised. Later label lines of the
      same page are never looked at, even when the first one sanitises to nothing. */
  function PageSerial(text: string, sanitize: string -> string): Option<string> {
    var lines := Split(text, '\n');
    match FirstWhere(lines, HasLabel)
    case None => None
    case Some(k) => Some(sanitize(Strip(AfterLast(lines[k], Label))))
  }

  /** A page that settles the serial: it has a label line and the sanitised text after
      the label is not empty. */
  predicate Settles(text: string, sanitize: string -> string) {
    PageSerial(text, sanitize).Some? && PageSerial(text, sanitize).value != []
  }

  /** The serial of a document: the one its first settling page yields; a page whose
      serial sanitises to nothing counts as not found and the search moves on. */
  function FindSerial(pages: seq<string>, sanitize: string -> string): Option<string> {
    match FirstWhere(pages, page => Settles(page, sanitize))
    case None => None
    case Some(i) => PageSerial(pages[i], sanitize)
  }

  /** A page's serial comes from its first label line, whatever the later lines say. */
  lemma PageSerialFirstLine(text: string, sanitize: string -> string, k: nat)
    requires k < |Split(text, '\n')| && Contains(Split(text, '\n')[k], Label)
    requires forall j :: 0 <= j < k ==> !Contains(Split(text, '\n')[j], Label)
    ensures PageSerial(text, sanitize) == Some(sanitize(Strip(AfterLast(Split(text, '\n')[k], Label))))
  {
    FirstWhereAt(Split(text, '\n'), HasLabel, k);
  }

  /** A document's serial is the one of its first page that yields a non-empty serial,
      and there is none exactly when no page does. */
  lemma FindSerialFirstPage(pages: seq<string>, sanitize: string -> string)
    ensures FindSerial(pages, sanitize).None? <==> forall i :: 0 <= i < |pages| ==> !Settles(pages[i], sanitize)
    ensures FindSerial(pages, sanitize).Some? ==>
      (exists i :: 0 <= i < |pages|
        && (forall j :: 0 <= j < i ==> !Settles(pages[j], sanitize))
        && PageSerial(pages[i], sanitize) == FindSerial(pages, sanitize))
      && FindSerial(pages, sanitize).value != []
  {
    var f := FirstWhere(pages, page => Settles(page, sanitize));
    if f.Some? {
      var i := f.value;
      assert forall j :: 0 <= j < i ==> !Settles(pages[j], sanitize);
    } else {
      assert forall i :: 0 <= i < |pages| ==> !Settles(pages[i], sanitize);
    }
  }

  // ---------------------------------------------------------------- reading the pages

  /** What OCR gave for one page image: its text, or the exception `image_to_string` raised. */
  datatype PageRead = Read(text: string) | OcrRaised(reason: string)

  /** What converting one file gave: what OCR gave for each page, or the failure. */
  datatype Conversion = Converted(pages: seq<PageRead>) | ConversionFailed(reason: string)

  /** What the run learns about one file before deciding: the conversion failed, the
      document's serial (possibly none), or OCR raised on a page it reached. No `try`
      surrounds the OCR call, so that exception ends the whole run. */
  datatype Lookup = Unconverted(reason: string) | Looked(serial: Option<string>) | OcrFailed(reason: string)

  /** The pages read in order until one settles the serial; an OCR exception on a page
      reached before that ends the reading. */
  function ReadPages(pages: seq<PageRead>, sanitize: string -> string): (r: Lookup)
    ensures r.OcrFailed? ==> OcrRaised(r.reason) in pages
    ensures (forall i :: 0 <= i < |pages| ==> pages[i].Read?) ==> r.Looked?
    decreases |pages|
  {
    if pages == [] then Looked(None)
    else match pages[0]
      case OcrRaised(reason) => OcrFailed(reason)
      case Read(text) =>
        if Settles(text, sanitize) then Looked(PageSerial(text, sanitize))
        else ReadPages(pages[1..], sanitize)
  }

  /** Pages that OCR read without raising. */
  function Reads(texts: seq<string>): (r: seq<PageRead>)
    ensures |r| == |texts| && forall i :: 0 <= i < |r| ==> r[i] == Read(texts[i])
  {
    seq(|texts|, i requires 0 <= i < |texts| => Read(texts[i]))
  }

  /** When OCR raises on no page, reading the pages finds exactly `FindSerial`'s serial. */
  lemma {:induction false} ReadPagesAllRead(texts: seq<string>, sanitize: string -> string)
    ensures ReadPages(Reads(texts), sanitize) == Looked(FindSerial(texts, sanitize))
    decreases |texts|
  {
    if texts != [] {
      var pages := Reads(texts);
      FindSerialFirstPage(texts, sanitize);
      if Settles(texts[0], sanitize) {
        FirstWhereAt(texts, page => Settles(page, sanitize), 0);
      } else {
        assert pages[1..] == Reads(texts[1..]);
        ReadPagesAllRead(texts[1..], sanitize);
        FindSerialStep(texts, sanitize);
      }
    }
  }

  /** A first page that does not settle is skipped by `FindSerial`. */
  lemma FindSerialStep(texts: seq<string>, sanitize: string -> string)
    requires texts != [] && !Settles(texts[0], sanitize)
    ensures FindSerial(texts, sanitize) == FindSerial(texts[1..], sanitize)
  {
  }

  /** OCR raises on page `i` and every page before it was read and settles nothing. */
  predicate RaisedAt(pages: seq<PageRead>, sanitize: string -> string, i: nat) {
    && i < |pages| && pages[i].OcrRaised?
    && forall j :: 0 <= j < i ==> pages[j].Read? && !Settles(pages[j].text, sanitize)
  }

  /** An OCR exception on a page reached before any page settles ends the reading with
      that page's exception. */
  lemma {:induction false} ReadPagesRaisedAt(pages: seq<PageRead>, sanitize: string -> string, i: nat)
    requires RaisedAt(pages, sanitize, i)
    ensures ReadPages(pages, sanitize) == OcrFailed(pages[i].reason)
    decreases i
  {
    if i > 0 {
      assert forall j :: 0 <= j < i - 1 ==> pages[1..][j] == pages[j + 1];
      ReadPagesRaisedAt(pages[1..], sanitize, i - 1);
    }
  }

  /** A page read without settling, in front of pages that raise at `i`, makes them raise at `i + 1`. */
  lemma RaisedAtCons(pages: seq<PageRead>, sanitize: string -> string, i: nat)
    requires pages != [] && pages[0].Read? && !Settles(pages[0].text, sanitize)
    requires RaisedAt(pages[1..], sanitize, i)
    ensures RaisedAt(pages, sanitize, i + 1)
  {
    forall j | 0 < j < i + 1 ensures pages[j].Read? && !Settles(pages[j].text, sanitize) {
      assert pages[j] == pages[1..][j - 1];
    }
  }

  /** Reading ends with an OCR exception only when one comes on a page reached before any
      page settles the serial. */
  lemma {:induction false} ReadPagesRaises(pages: seq<PageRead>, sanitize: string -> string)
    ensures ReadPages(pages, sanitize).OcrFailed? <==> exists i: nat :: RaisedAt(pages, sanitize, i)
    decreases |pages|
  {
    if exists i: nat :: RaisedAt(pages, sanitize, i) {
      var i: nat :| RaisedAt(pages, sanitize, i);
      ReadPagesRaisedAt(pages, sanitize, i);
    } else if pages != [] && ReadPages(pages, sanitize).OcrFailed? {
      if pages[0].OcrRaised? {
        assert RaisedAt(pages, sanitize, 0);
      } else {
        assert ReadPages(pages[1..], sanitize) == ReadPages(pages, sanitize);
        ReadPagesRaises(pages[1..], sanitize);
        var i: nat :| RaisedAt(pages[1..], sanitize, i);
        RaisedAtCons(pages, sanitize, i);
      }
    }
  }

  /** A serial that reading the pages finds is a non-empty output of the sanitiser. */
  lemma {:induction false} ReadPagesSanitized(pages: seq<PageRead>, sanitize: string -> string)
    requires ReadPages(pages, sanitize).Looked? && ReadPages(pages, sanitize).serial.Some?
    ensures ReadPages(pages, sanitize).serial.value != []
    ensures exists x :: ReadPages(pages, sanitize).serial.value == sanitize(x)
    decreases |pages|
  {
    if pages[0].Read? && Settles(pages[0].text, sanitize) {
      var lines := Split(pages[0].text, '\n');
      var k := FirstWhere(lines, HasLabel).value;
      assert ReadPages(pages, sanitize).serial.value == sanitize(Strip(AfterLast(lines[k], Label)));
    } else {
      ReadPagesSanitized(pages[1..], sanitize);
    }
  }

  // ---------------------------------------------------------------- the folder run

  /** What happened to one file of the run; `Aborted` is an OCR exception, which ends the run
      with this file. */
  datatype Outcome =
    | ConvertFailed(name: string, reason: string)
    | NotFound(name: string)
    | Renamed(name: string, target: string)
    | Skipped(name: string, target: string)
    | RenameFailed(name: string, target: string, reason: string)
    | Aborted(name: string, reason: string)

  /** The run as a whole: the folder is not a directory, holds no PDF, or was processed
      with one outcome per PDF reached (all of them unless an OCR exception ended the run),
      the progress-bar values set in order, and the folder's names afterwards. */
  datatype FolderRun =
    | InvalidFolder
    | NoPdfFiles
    | Processed(outcomes: seq<Outcome>, progress: seq<nat>, after: set<string>)

  /** A PDF by its name: lower-cased, it ends with ".pdf". */
  predicate IsPdfName(name: string) {
    EndsWith(Lower(name), ".pdf")
  }

  /** The PDF names of a listing, in listing order. */
  function PdfNames(names: seq<string>): (r: seq<string>)
    ensures |r| <= |names|
    ensures forall x :: x in r <==> x in names && IsPdfName(x)
    ensures Distinct(names) ==> Distinct(r)
    decreases |names|
  {
    if names == [] then []
    else if IsPdfName(names[0]) then [names[0]] + PdfNames(names[1..])
    else PdfNames(names[1..])
  }

  predicate Distinct(xs: seq<string>) {
    forall i, j :: 0 <= i < j < |xs| ==> xs[i] != xs[j]
  }

  function NameSet(names: seq<string>): set<string> {
    set x | x in names
  }

  /** The folder after one outcome: only a rename changes it. */
  function Apply(folder: set<string>, o: Outcome): set<string> {
    if o.Renamed? then folder - {o.name} + {o.target} else folder
  }

  /** The folder after a sequence of outcomes, applied in order. */
  function After(folder: set<string>, outs: seq<Outcome>): set<string>
    decreases |outs|
  {
    if outs == [] then folder else After(Apply(folder, outs[0]), outs[1..])
  }

  /** Converts and reads one document with the given sanitiser. */
  function LookUp(conv: Conversion, sanitize: string -> string): Lookup {
    match conv
    case ConversionFailed(reason) => Unconverted(reason)
    case Converted(pages) => ReadPages(pages, sanitize)
  }

  /** The outcome for file `name`, given the folder as it stands when the file's turn comes. */
  function Decide(name: string, look: Lookup, folder: set<string>, renameError: Option<string>): Outcome {
    match look
    case Unconverted(reason) => ConvertFailed(name, reason)
    case OcrFailed(reason) => Aborted(name, reason)
    case Looked(None) => NotFound(name)
    case Looked(Some(serial)) =>
      var target := serial + ".pdf";
      if target in folder then Skipped(name, target)
      else if renameError.Some? then RenameFailed(name, target, renameError.value)
      else Renamed(name, target)
  }

  /** The loop over the PDF names `pdfs`: each file is decided against the folder as the
      earlier renames left it, and an OCR exception ends the loop. */
  function Outcomes(pdfs: seq<string>, folder: set<string>, lookup: string -> Lookup,
                    renameError: string -> Option<string>): (outs: seq<Outcome>)
    ensures |outs| <= |pdfs|
    ensures forall k :: 0 <= k < |outs| ==> outs[k].name == pdfs[k]
    ensures forall k :: 0 <= k < |outs| ==> (outs[k].Aborted? <==> lookup(pdfs[k]).OcrFailed?)
    ensures forall k :: 0 <= k < |outs| - 1 ==> !outs[k].Aborted?
    ensures |outs| < |pdfs| ==> outs != [] && outs[|outs| - 1].Aborted?
    decreases |pdfs|
  {
    if pdfs == [] then []
    else
      var o := Decide(pdfs[0], lookup(pdfs[0]), folder, renameError(pdfs[0]));
      if o.Aborted? then [o]
      else [o] + Outcomes(pdfs[1..], Apply(folder, o), lookup, renameError)
  }

  /** Replacing a present name by an absent one keeps the folder's size. */
  lemma SwapKeepsSize(folder: set<string>, a: string, b: string)
    requires a in folder && b !in folder
    ensures |folder - {a} + {b}| == |folder|
    ensures b in folder - {a} + {b} && a !in folder - {a} + {b}
    ensures (folder - {a} + {b}) - {b} == folder - {a}
  {
    assert |folder - {a}| == |folder| - 1;
  }

  /** One step of the loop keeps the folder's size and keeps the files still to come. */
  lemma StepKeeps(pdfs: seq<string>, folder: set<string>, o: Outcome)
    requires |pdfs| >= 1 && Distinct(pdfs)
    requires forall k :: 0 <= k < |pdfs| ==> pdfs[k] in folder
    requires o.name == pdfs[0] && (o.Renamed? ==> o.target !in folder)
    ensures |Apply(folder, o)| == |folder|
    ensures forall k :: 0 <= k < |pdfs[1..]| ==> pdfs[1..][k] in Apply(folder, o)
    ensures Distinct(pdfs[1..])
  {
    if o.Renamed? {
      SwapKeepsSize(folder, o.name, o.target);
      forall k | 0 <= k < |pdfs[1..]| ensures pdfs[1..][k] in Apply(folder, o) {
        assert pdfs[1..][k] == pdfs[k + 1] != pdfs[0];
      }
    }
  }

  /** No rename overwrites or loses a file: the folder keeps its size. */
  lemma {:induction false} OutcomesKeepSize(pdfs: seq<string>, folder: set<string>,
                                            lookup: string -> Lookup, renameError: string -> Option<string>)
    requires Distinct(pdfs)
    requires forall k :: 0 <= k < |pdfs| ==> pdfs[k] in folder
    ensures |After(folder, Outcomes(pdfs, folder, lookup, renameError))| == |folder|
    decreases |pdfs|
  {
    if pdfs != [] {
      var outs := Outcomes(pdfs, folder, lookup, renameError);
      var o := outs[0];
      if !o.Aborted? {
        StepKeeps(pdfs, folder, o);
        OutcomesKeepSize(pdfs[1..], Apply(folder, o), lookup, renameError);
        assert outs[1..] == Outcomes(pdfs[1..], Apply(folder, o), lookup, renameError);
      }
    }
  }

  /** A name the loop does not list stays in the folder: in particular every file that is
      not a PDF is untouched. */
  lemma {:induction false} OutcomesKeepUnlisted(pdfs: seq<string>, folder: set<string>,
                                                lookup: string -> Lookup, renameError: string -> Option<string>, y: string)
    requires y in folder && y !in pdfs
    ensures y in After(folder, Outcomes(pdfs, folder, lookup, renameError))
    decreases |pdfs|
  {
    if pdfs != [] {
      var outs := Outcomes(pdfs, folder, lookup, renameError);
      assert y != pdfs[0];
      if !outs[0].Aborted? {
        assert y !in pdfs[1..];
        OutcomesKeepUnlisted(pdfs[1..], Apply(folder, outs[0]), lookup, renameError, y);
        assert outs[1..] == Outcomes(pdfs[1..], Apply(folder, outs[0]), lookup, renameError);
      }
    }
  }

  /** Every file the loop renames is in the folder at the end under its new name. */
  lemma {:induction false} OutcomesRenamedLand(pdfs: seq<string>, folder: set<string>,
                                               lookup: string -> Lookup, renameError: string -> Option<string>, k: nat)
    requires Distinct(pdfs)
    requires forall j :: 0 <= j < |pdfs| ==> pdfs[j] in folder
    requires k < |Outcomes(pdfs, folder, lookup, renameError)|
    requires Outcomes(pdfs, folder, lookup, renameError)[k].Renamed?
    ensures Outcomes(pdfs, folder, lookup, renameError)[k].target
         in After(folder, Outcomes(pdfs, folder, lookup, renameError))
    decreases k
  {
    var outs := Outcomes(pdfs, folder, lookup, renameError);
    var o := outs[0];
    assert !o.Aborted?;
    var rest := Outcomes(pdfs[1..], Apply(folder, o), lookup, renameError);
    assert outs[1..] == rest;
    StepKeeps(pdfs, folder, o);
    if k == 0 {
      FirstRenamedLands(pdfs, folder, o, rest, lookup, renameError);
    } else {
      assert outs[k] == rest[k - 1];
      OutcomesRenamedLand(pdfs[1..], Apply(folder, o), lookup, renameError, k - 1);
    }
  }

  lemma FirstRenamedLands(pdfs: seq<string>, folder: set<string>, o: Outcome, rest: seq<Outcome>,
                          lookup: string -> Lookup, renameError: string -> Option<string>)
    requires pdfs != [] && o.Renamed? && o.target !in folder
    requires forall j :: 0 <= j < |pdfs| ==> pdfs[j] in folder
    requires rest == Outcomes(pdfs[1..], Apply(folder, o), lookup, renameError)
    ensures o.target in After(Apply(folder, o), rest)
  {
    assert o.target !in pdfs[1..] by {
      forall j | 0 <= j < |pdfs[1..]| ensures pdfs[1..][j] != o.target {
        assert pdfs[1..][j] in folder;
      }
    }
    OutcomesKeepUnlisted(pdfs[1..], Apply(folder, o), lookup, renameError, o.target);
  }

  /** Outcome `k` is what the lookup of file `k` says: a failed conversion is reported as
      such, no serial is "not found", and otherwise the target is the serial plus ".pdf". */
  lemma {:induction false} OutcomeFollowsLookup(pdfs: seq<string>, folder: set<string>,
                                                lookup: string -> Lookup, renameError: string -> Option<string>, k: nat)
    requires k < |Outcomes(pdfs, folder, lookup, renameError)|
    ensures var o := Outcomes(pdfs, folder, lookup, renameError)[k];
      && (o.ConvertFailed? <==> lookup(pdfs[k]).Unconverted?)
      && (o.Aborted? <==> lookup(pdfs[k]).OcrFailed?)
      && (o.NotFound? <==> lookup(pdfs[k]) == Looked(None))
      && (o.Renamed? || o.Skipped? || o.RenameFailed? ==>
            lookup(pdfs[k]).Looked? && lookup(pdfs[k]).serial.Some?
            && o.target == lookup(pdfs[k]).serial.value + ".pdf")
    decreases k
  {
    var outs := Outcomes(pdfs, folder, lookup, renameError);
    if k > 0 {
      var rest := Outcomes(pdfs[1..], Apply(folder, outs[0]), lookup, renameError);
      assert outs[1..] == rest;
      assert outs[k] == rest[k - 1] && pdfs[k] == pdfs[1..][k - 1];
      OutcomeFollowsLookup(pdfs[1..], Apply(folder, outs[0]), lookup, renameError, k - 1);
    }
  }

  /** A serial `FindSerial` finds is a non-empty output of the sanitiser. */
  lemma FindSerialSanitized(pages: seq<string>, sanitize: string -> string)
    requires FindSerial(pages, sanitize).Some?
    ensures FindSerial(pages, sanitize).value != []
    ensures exists x :: FindSerial(pages, sanitize).value == sanitize(x)
  {
    var i := FirstWhere(pages, page => Settles(page, sanitize)).value;
    var lines := Split(pages[i], '\n');
    var k := FirstWhere(lines, HasLabel).value;
    assert FindSerial(pages, sanitize).value == sanitize(Strip(AfterLast(lines[k], Label)));
  }

  /** A file that moves the progress bar: its conversion succeeded and its OCR did not raise. */
  predicate Advances(o: Outcome) {
    !o.ConvertFailed? && !o.Aborted?
  }

  /** The values the progress bar is set to: 0 first, then the 1-based position of every
      file that advances it (a failed conversion skips the update, an OCR exception never
      reaches it). */
  function Progress(outs: seq<Outcome>): (r: seq<nat>)
    ensures |r| >= 1 && r[0] == 0
    ensures forall v :: v in r ==> v <= |outs|
    decreases |outs|
  {
    if outs == [] then [0]
    else
      var before := Progress(outs[..|outs| - 1]);
      if Advances(outs[|outs| - 1]) then before + [|outs|] else before
  }

  /** The progress bar only moves forward, and it reaches a file's position exactly when
      that file converted and its OCR did not raise. */
  lemma {:induction false} ProgressMarks(outs: seq<Outcome>)
    ensures forall k, l :: 0 <= k < l < |Progress(outs)| ==> Progress(outs)[k] < Progress(outs)[l]
    ensures forall k :: 0 <= k < |outs| ==> (k + 1 in Progress(outs) <==> Advances(outs[k]))
    decreases |outs|
  {
    if outs != [] {
      var init := outs[..|outs| - 1];
      ProgressMarks(init);
      assert forall k :: 0 <= k < |init| ==> init[k] == outs[k];
      var before := Progress(init);
      if Advances(outs[|outs| - 1]) {
        var r := before + [|outs|];
        forall k, l | 0 <= k < l < |r| ensures r[k] < r[l] {
          if l == |before| {
            assert r[k] == before[k] && before[k] in before;
          }
        }
      }
    }
  }

  /** The whole run: a path that is not a directory and a folder with no PDF end early;
      otherwise the folder's PDFs are processed in listing order, one outcome each, until
      an OCR exception ends the run after the file it came from. */
  function RenameBySerial(listing: Option<seq<string>>, lookup: string -> Lookup,
                          renameError: string -> Option<string>): (run: FolderRun)
    ensures listing.None? <==> run.InvalidFolder?
    ensures run.NoPdfFiles? <==> listing.Some? && PdfNames(listing.value) == []
    ensures run.Processed? ==>
      && listing.Some?
      && |run.outcomes| <= |PdfNames(listing.value)|
      && (forall k :: 0 <= k < |run.outcomes| ==> run.outcomes[k].name == PdfNames(listing.value)[k])
      && (forall k :: 0 <= k < |run.outcomes| - 1 ==> !run.outcomes[k].Aborted?)
      && (|run.outcomes| < |PdfNames(listing.value)| ==> run.outcomes != [] && run.outcomes[|run.outcomes| - 1].Aborted?)
      && (forall k :: 0 <= k < |run.outcomes| ==>
            (run.outcomes[k].Aborted? <==> lookup(PdfNames(listing.value)[k]).OcrFailed?))
  {
    if listing.None? then InvalidFolder
    else
      var pdfs := PdfNames(listing.value);
      if pdfs == [] then NoPdfFiles
      else
        var start := NameSet(listing.value);
        var outs := Outcomes(pdfs, start, lookup, renameError);
        Processed(outs, Progress(outs), After(start, outs))
  }

  /** What a processed run guarantees about the folder: it keeps its size, every file that
      is not a PDF is still there, and every renamed file is there under its new name. */
  lemma RenameBySerialSafe(listing: seq<string>, lookup: string -> Lookup, renameError: string -> Option<string>)
    requires Distinct(listing)
    ensures var run := RenameBySerial(Some(listing), lookup, renameError);
      run.Processed? ==>
        && |run.after| == |NameSet(listing)|
        && (forall y :: y in listing && !IsPdfName(y) ==> y in run.after)
        && (forall k :: 0 <= k < |run.outcomes| && run.outcomes[k].Renamed? ==> run.outcomes[k].target in run.after)
  {
    var pdfs := PdfNames(listing);
    var start := NameSet(listing);
    if pdfs != [] {
      OutcomesKeepSize(pdfs, start, lookup, renameError);
      forall y | y in listing && !IsPdfName(y)
        ensures y in After(start, Outcomes(pdfs, start, lookup, renameError))
      {
        OutcomesKeepUnlisted(pdfs, start, lookup, renameError, y);
      }
      var outs := Outcomes(pdfs, start, lookup, renameError);
      forall k | 0 <= k < |outs| && outs[k].Renamed? ensures outs[k].target in After(start, outs) {
        OutcomesRenamedLand(pdfs, start, lookup, renameError, k);
      }
    }
  }

  // ---------------------------------------------------------------- the output widget

  /** The line appended to the output widget for one file; `arrow` is the separator the
      caller writes between old and new name. A file whose OCR raised appends nothing. */
  function Message(o: Outcome, arrow: string): string
    requires !o.Aborted?
  {
    match o
    case ConvertFailed(n, reason) => "Failed to convert " + n + ": " + reason
    case NotFound(n) => "Serial number not found in " + n
    case Renamed(n, t) => "Renamed: " + n + " " + arrow + " " + t
    case Skipped(_, t) => "Skipped: " + t + " already exists."
    case RenameFailed(n, _, reason) => "Error renaming " + n + ": " + reason
  }

  /** The outcomes that reach the output widget, in order: all but an OCR exception. */
  function Reported(outs: seq<Outcome>): (r: seq<Outcome>)
    ensures |r| <= |outs|
    ensures forall k :: 0 <= k < |r| ==> !r[k].Aborted?
    ensures forall o :: o in r <==> o in outs && !o.Aborted?
    decreases |outs|
  {
    if outs == [] then []
    else (if outs[0].Aborted? then [] else [outs[0]]) + Reported(outs[1..])
  }

  /** Everything the run appends to the output widget; an invalid folder only raises the
      "Invalid folder path." error dialog, and an OCR exception appends nothing. */
  function Log(run: FolderRun, arrow: string): seq<string> {
    match run
    case InvalidFolder => []
    case NoPdfFiles => ["No PDF files found in the selected folder.\n"]
    case Processed(outs, _, _) =>
      var shown := Reported(outs);
      seq(|shown|, k requires 0 <= k < |shown| => Message(shown[k], arrow))
  }
}

=== FILE: sharepoint.dfy ===
/** `core/sharepoint_tools`: signing in to a SharePoint site and listing the hyperlinks of
    the PDFs in one of its folders. URL parsing, percent-quoting and -unquoting, the token
    request, the folder listing and the Excel save are parameters; what the tools derive
    from their results, and in which order they check their inputs, is modelled. */
module SharePoint {
  import opened Wrappers
  import opened Text

  /** What a call that may raise gives back: a value, or the exception's message. */
  datatype Outcome<+T> = Ok(value: T) | Raises(message: string)

  /** The parts of `urllib.parse.urlparse(link)` the tools read. */
  datatype Url = Url(netloc: string, path: string, query: string)

  /** The module's globals: the authentication context and the client context (each
      remembered by the site URL it was made for), the site URL and the last base link. */
  datatype Session = Session(ctxAuth: Option<string>, ctx: Option<string>, siteUrl: string, baseLink: string)

  /** The globals at import time, and after a logout. */
  const SignedOut := Session(None, None, "", "")

  /** A message box: its text and title. */
  datatype Dialog = Warning(text: string) | Error(text: string, title: string) | Info(text: string, title: string)

  /** What a call leaves behind: the globals, the message box it shows if any, and the
      texts it puts in the status label, in order. */
  datatype Shown = Shown(session: Session, dialog: Option<Dialog>, status: seq<string>)

  /** One row of the link sheet. */
  datatype Row = Row(name: string, link: string)

  /** What an extraction leaves behind, with the rows it hands to the Excel writer. */
  datatype Extraction = Extraction(shown: Shown, rows: seq<Row>)

  const CredentialsMissing := "Please enter both username and password."
  const LinkMissing := "Please enter a SharePoint folder link."
  const NotAuthenticated := "Please authenticate before extracting."
  const InputMissing := "Please enter SharePoint link and save location."
  const NoPdfs := "No PDF files found in the specified folder."
  const Https := "https://"
  const Sites := "sites"
  const PdfSuffix := ".pdf"
  /** The message of the `IndexError` an empty list of `id` values would raise. */
  const IndexMessage := "list index out of range"

  const Authenticating := "\U{1F510} Authenticating..."
  const AuthFailed := "❌ Authentication failed."
  const AuthError := "❌ Authentication error."
  const Ready := "✅ Authenticated. Ready to extract."
  const LoggedOut := "\U{1F513} Logged out. Please authenticate again."
  const Accessing := "\U{1F4C1} Accessing folder..."
  const NoPdfsStatus := "ℹ️ No PDFs found."
  const ErrorStatus := "❌ Error occurred."
  const SavedStatus := "✅ Saved: "

  // ---------------------------------------------------------------- path segments

  predicate IsSlash(c: char) { c == '/' }

  predicate IsSites(part: string) { part == Sites }

  /** `path.strip("/").split("/")`. */
  function Segments(path: string): (r: seq<string>)
    ensures |r| >= 1
    ensures Join(r, "/") == TrimRight(TrimLeft(path, IsSlash), IsSlash)
  {
    Split(TrimRight(TrimLeft(path, IsSlash), IsSlash), '/')
  }

  /** `parts.index("sites")` when `"sites" in parts`. */
  function SitesIndex(parts: seq<string>): (r: Option<nat>)
    ensures r.Some? <==> Sites in parts
    ensures r.Some? ==> r.value < |parts| && parts[r.value] == Sites
    ensures r.Some? ==> forall k :: 0 <= k < r.value ==> parts[k] != Sites
  {
    var found := FirstWhere(parts, IsSites);
    assert Sites in parts ==> found.Some? by {
      if Sites in parts {
        var k :| 0 <= k < |parts| && parts[k] == Sites;
        assert IsSites(parts[k]);
      }
    }
    found
  }

  /** Python's `parts[i:j]`, which stops at the end of the list. */
  function Window(parts: seq<string>, i: nat, j: nat): (r: seq<string>)
    requires i <= j
    ensures |r| == Min(j, |parts|) - Min(i, |parts|)
    ensures forall k :: 0 <= k < |r| ==> r[k] == parts[i + k]
  {
    parts[Min(i, |parts|)..Min(j, |parts|)]
  }

  /** The site the link belongs to: `https://netloc`, followed by "/sites" and the one
      segment after it when the path has a "sites" segment. */
  function SiteUrl(url: Url): (r: string)
    ensures StartsWith(r, Https + url.netloc)
    ensures Sites !in Segments(url.path) ==> r == Https + url.netloc
  {
    var parts := Segments(url.path);
    match SitesIndex(parts)
    case None => Https + url.netloc
    case Some(i) => Https + url.netloc + "/" + Join(Window(parts, i, i + 2), "/")
  }

  /** The site URL when "sites" is segment `i`. */
  lemma SiteUrlAt(url: Url, i: nat)
    requires SitesIndex(Segments(url.path)) == Some(i)
    ensures SiteUrl(url) == Https + url.netloc + "/" + Join(Window(Segments(url.path), i, i + 2), "/")
  {
  }

  /** With "sites" at segment `i`, the site URL names that segment and the next one. */
  lemma SiteUrlNamesSite(url: Url, i: nat)
    requires SitesIndex(Segments(url.path)) == Some(i)
    ensures i + 1 < |Segments(url.path)| ==>
      SiteUrl(url) == Https + url.netloc + "/" + Sites + "/" + Segments(url.path)[i + 1]
    ensures i + 1 == |Segments(url.path)| ==> SiteUrl(url) == Https + url.netloc + "/" + Sites
  {
    var parts := Segments(url.path);
    var w := Window(parts, i, i + 2);
    SiteUrlAt(url, i);
    if i + 1 < |parts| {
      assert w == [Sites, parts[i + 1]];
      assert Join(w, "/") == Sites + "/" + parts[i + 1] by {
        assert w[1..] == [parts[i + 1]];
      }
    } else {
      assert w == [Sites];
    }
  }

  // ---------------------------------------------------------------- authentication

  /** `authenticate_user`: blank credentials, then a blank link, stop with a warning and
      nothing else; otherwise the site URL is derived and a token requested for it. The
      globals `site_url` and `ctx_auth` are set before the request, so a refused or
      failing request leaves them pointing at the new site while `ctx` keeps its old value. */
  function Authenticate(s: Session, link: string, username: string, password: string,
                        parse: string -> Outcome<Url>,
                        acquire: (string, string, string) -> Outcome<bool>): (r: Shown)
    ensures r.session.baseLink == s.baseLink
    ensures r.session.ctx != s.ctx ==> r.session.ctx == Some(r.session.siteUrl) && r.dialog.None?
    ensures r.session.ctxAuth != s.ctxAuth ==> r.session.ctxAuth == Some(r.session.siteUrl)
  {
    var user := Strip(username);
    var pass := Strip(password);
    if user == [] || pass == [] then Shown(s, Some(Warning(CredentialsMissing)), [])
    else if Strip(link) == [] then Shown(s, Some(Warning(LinkMissing)), [])
    else match parse(Strip(link))
      case Raises(e) => Shown(s, Some(Error("Authentication error:\n" + e, "Error")), [AuthError])
      case Ok(url) =>
        var site := SiteUrl(url);
        var tried := s.(siteUrl := site, ctxAuth := Some(site));
        match acquire(site, user, pass)
        case Raises(e) => Shown(tried, Some(Error("Authentication error:\n" + e, "Error")), [Authenticating, AuthError])
        case Ok(false) => Shown(tried, Some(Error("Invalid credentials.", "Authentication Failed")), [Authenticating, AuthFailed])
        case Ok(true) => Shown(tried.(ctx := Some(site)), None, [Authenticating, Ready])
  }

  /** Blank credentials or a blank link: a warning, the globals untouched, and no token
      requested, so the outcome is the same whatever the token service would answer. */
  lemma AuthenticateValidates(s: Session, link: string, username: string, password: string,
                              parse: string -> Outcome<Url>,
                              acquire: (string, string, string) -> Outcome<bool>,
                              other: (string, string, string) -> Outcome<bool>)
    requires Strip(username) == [] || Strip(password) == [] || Strip(link) == []
    ensures Authenticate(s, link, username, password, parse, acquire).session == s
    ensures Authenticate(s, link, username, password, parse, acquire).status == []
    ensures Authenticate(s, link, username, password, parse, acquire)
         == Authenticate(s, link, username, password, parse, other)
    ensures Strip(username) == [] || Strip(password) == [] ==>
      Authenticate(s, link, username, password, parse, acquire).dialog == Some(Warning(CredentialsMissing))
    ensures Strip(username) != [] && Strip(password) != [] ==>
      Authenticate(s, link, username, password, parse, acquire).dialog == Some(Warning(LinkMissing))
  {
  }

  /** A client context is made exactly when the inputs are filled in, the link parses and
      the token is granted, and it is made for the site the link names; the credentials
      go to the token service trimmed. */
  lemma AuthenticateSucceeds(s: Session, link: string, username: string, password: string,
                             parse: string -> Outcome<Url>,
                             acquire: (string, string, string) -> Outcome<bool>)
    ensures Authenticate(s, link, username, password, parse, acquire).status == [Authenticating, Ready]
      <==> (Strip(username) != [] && Strip(password) != [] && Strip(link) != []
            && parse(Strip(link)).Ok?
            && acquire(SiteUrl(parse(Strip(link)).value), Strip(username), Strip(password)) == Ok(true))
    ensures Authenticate(s, link, username, password, parse, acquire).status == [Authenticating, Ready] ==>
      Authenticate(s, link, username, password, parse, acquire).session
        == s.(siteUrl := SiteUrl(parse(Strip(link)).value),
              ctxAuth := Some(SiteUrl(parse(Strip(link)).value)),
              ctx := Some(SiteUrl(parse(Strip(link)).value)))
  {
    var r := Authenticate(s, link, username, password, parse, acquire);
    if Strip(username) != [] && Strip(password) != [] && Strip(link) != [] {
      match parse(Strip(link))
      case Raises(e) =>
        assert r.status == [AuthError];
      case Ok(url) =>
        match acquire(SiteUrl(url), Strip(username), Strip(password))
        case Raises(e) => assert r.status[1] == AuthError;
        case Ok(b) => assert b ==> r.status == [Authenticating, Ready];
                      assert !b ==> r.status[1] == AuthFailed;
    } else {
      assert r.status == [];
    }
  }

  /** A refused token still moves `site_url` to the new site, while the client context of
      an earlier sign-in stays in place. */
  lemma RefusedKeepsOldContext(s: Session, link: string, username: string, password: string,
                               parse: string -> Outcome<Url>,
                               acquire: (string, string, string) -> Outcome<bool>)
    requires Strip(username) != [] && Strip(password) != [] && Strip(link) != []
    requires parse(Strip(link)).Ok?
    requires acquire(SiteUrl(parse(Strip(link)).value), Strip(username), Strip(password)) == Ok(false)
    ensures Authenticate(s, link, username, password, parse, acquire).session.ctx == s.ctx
    ensures Authenticate(s, link, username, password, parse, acquire).session.siteUrl
         == SiteUrl(parse(Strip(link)).value)
    ensures Authenticate(s, link, username, password, parse, acquire).dialog
         == Some(Error("Invalid credentials.", "Authentication Failed"))
  {
  }

  /** `logout_user`: every global back to its import-time value. */
  function Logout(s: Session): (r: Shown)
    ensures r.session.ctx.None? && r.session.ctxAuth.None?
    ensures r.session.siteUrl == [] && r.session.baseLink == []
    ensures r.dialog.None? && r.status == [LoggedOut]
  {
    Shown(SignedOut, None, [LoggedOut])
  }

  // ---------------------------------------------------------------- the folder

  /** The folder the link points at: the first `id` query value if there is one, else the
      path; unquoted, with its leading slashes removed. */
  function FolderSource(url: Url, parseQs: string -> map<string, seq<string>>,
                        unquote: string -> string): (r: Outcome<string>)
    ensures r.Ok? ==> r.value == [] || r.value[0] != '/'
    ensures r.Raises? <==> "id" in parseQs(url.query) && parseQs(url.query)["id"] == []
    ensures "id" !in parseQs(url.query) ==> r == Ok(TrimLeft(unquote(url.path), IsSlash))
    ensures "id" in parseQs(url.query) && parseQs(url.query)["id"] != [] ==>
      r == Ok(TrimLeft(unquote(parseQs(url.query)["id"][0]), IsSlash))
  {
    var params := parseQs(url.query);
    if "id" in params then
      if params["id"] == [] then Raises(IndexMessage)
      else Ok(TrimLeft(unquote(params["id"][0]), IsSlash))
    else Ok(TrimLeft(unquote(url.path), IsSlash))
  }

  /** Python's `parts[k:]`. */
  function Drop(parts: seq<string>, k: nat): (r: seq<string>)
    ensures k <= |parts| ==> r == parts[k..]
    ensures k > |parts| ==> r == []
  {
    if k <= |parts| then parts[k..] else []
  }

  /** The server-relative folder: what follows "sites" and the site's own segment, or the
      whole path when there is no "sites" segment. It is always a tail of the path. */
  function FolderPath(full: string): (r: string)
    ensures EndsWith(full, r)
    ensures Sites !in Split(full, '/') ==> r == full
  {
    var parts := Split(full, '/');
    match SitesIndex(parts)
    case None => full
    case Some(i) =>
      var r := Join(Drop(parts, i + 2), "/");
      TailJoin(parts, i + 2);
      r
  }

  /** The join of a tail of the segments is a tail of the join of all of them. */
  lemma TailJoin(parts: seq<string>, k: nat)
    requires |parts| >= 1
    ensures EndsWith(Join(parts, "/"), Join(Drop(parts, k), "/"))
  {
    if 0 < k < |parts| {
      assert parts == parts[..k] + parts[k..];
      JoinAppend(parts[..k], parts[k..], "/");
    } else if k == 0 {
      assert Drop(parts, k) == parts;
    }
  }

  /** A path of one leading slash and no slash at either end of the rest is split into the
      segments of the rest. */
  lemma RootedSegments(full: string)
    requires full != [] && full[0] != '/' && full[|full| - 1] != '/'
    ensures Segments("/" + full) == Split(full, '/')
  {
    assert ("/" + full)[1..] == full;
    assert TrimLeft("/" + full, IsSlash) == TrimLeft(full, IsSlash) == full;
    assert TrimRight(full, IsSlash) == full;
  }

  /** For a link whose path is `/full`, the site URL followed by the folder path spells the
      link from its host to its end: the two split the segments from "sites" on between them. */
  lemma SiteThenFolder(netloc: string, full: string, query: string, i: nat)
    requires full != [] && full[0] != '/' && full[|full| - 1] != '/'
    requires SitesIndex(Split(full, '/')) == Some(i) && i + 2 < |Split(full, '/')|
    ensures SiteUrl(Url(netloc, "/" + full, query)) + "/" + FolderPath(full)
         == Https + netloc + "/" + Join(Split(full, '/')[i..], "/")
  {
    var parts := Split(full, '/');
    RootedSegments(full);
    SiteUrlAt(Url(netloc, "/" + full, query), i);
    FolderPathAt(full, i);
    JoinAround(parts, i);
    var site := Join(Window(parts, i, i + 2), "/");
    var folder := Join(parts[i + 2..], "/");
    Regroup(Https + netloc, site, folder);
  }

  lemma Regroup(h: string, a: string, b: string)
    ensures h + "/" + a + "/" + b == h + "/" + (a + "/" + b)
  {
  }

  /** The segments from `i` on are the window of two at `i`, a slash, and the rest. */
  lemma JoinAround(parts: seq<string>, i: nat)
    requires i + 2 < |parts|
    ensures Join(parts[i..], "/") == Join(Window(parts, i, i + 2), "/") + "/" + Join(parts[i + 2..], "/")
  {
    assert Window(parts, i, i + 2) == parts[i..i + 2];
    assert parts[i..] == parts[i..i + 2] + parts[i + 2..];
    JoinAppend(parts[i..i + 2], parts[i + 2..], "/");
  }

  /** The folder path when "sites" is segment `i`. */
  lemma FolderPathAt(full: string, i: nat)
    requires SitesIndex(Split(full, '/')) == Some(i) && i + 2 < |Split(full, '/')|
    ensures FolderPath(full) == Join(Split(full, '/')[i + 2..], "/")
  {
  }

  // ---------------------------------------------------------------- links

  /** `[quote(part) for part in parts]`. */
  function Each(parts: seq<string>, f: string -> string): (r: seq<string>)
    ensures |r| == |parts|
    ensures forall k :: 0 <= k < |r| ==> r[k] == f(parts[k])
  {
    seq(|parts|, k requires 0 <= k < |parts| => f(parts[k]))
  }

  /** The folder path with each segment quoted on its own. */
  function EncodedPath(folder: string, quote: string -> string): string {
    Join(Each(Split(folder, '/'), quote), "/")
  }

  /** Quoting segment by segment is undone by splitting at "/" and unquoting each piece,
      as long as quoting never introduces a slash and unquoting undoes it. */
  lemma EncodedPathRoundTrip(folder: string, quote: string -> string, unquote: string -> string)
    requires forall x :: '/' !in x ==> '/' !in quote(x)
    requires forall x :: '/' !in x ==> unquote(quote(x)) == x
    ensures Split(EncodedPath(folder, quote), '/') == Each(Split(folder, '/'), quote)
    ensures Join(Each(Split(EncodedPath(folder, quote), '/'), unquote), "/") == folder
  {
    var parts := Split(folder, '/');
    var quoted := Each(parts, quote);
    SplitJoin(quoted, '/');
    assert Each(quoted, unquote) == parts;
  }

  /** `f"{site_url}/{encoded_folder_path}/"`. */
  function BaseLink(site: string, folder: string, quote: string -> string): (r: string)
    ensures StartsWith(r, site + "/") && EndsWith(r, "/")
    ensures |r| == |site| + |EncodedPath(folder, quote)| + 2
  {
    var r := site + "/" + EncodedPath(folder, quote) + "/";
    assert r[..|site + "/"|] == site + "/";
    r
  }

  /** The rows for a folder listing: each name ending ".pdf" (case matters), in listing
      order, linked as the base link followed by the name. */
  function PdfRows(base: string, names: seq<string>): (r: seq<Row>)
    ensures |r| <= |names|
    ensures forall k :: 0 <= k < |r| ==> EndsWith(r[k].name, PdfSuffix) && r[k].link == base + r[k].name
    ensures forall k :: 0 <= k < |r| ==> r[k].name in names
    ensures forall n :: n in names && EndsWith(n, PdfSuffix) ==> Row(n, base + n) in r
    decreases |names|
  {
    if names == [] then []
    else
      var rest := PdfRows(base, names[1..]);
      assert forall n :: n in names && n != names[0] ==> n in names[1..];
      if EndsWith(names[0], PdfSuffix) then [Row(names[0], base + names[0])] + rest else rest
  }

  /** The rows of a listing are the rows of its parts, in order. */
  lemma {:induction false} PdfRowsConcat(base: string, a: seq<string>, b: seq<string>)
    ensures PdfRows(base, a + b) == PdfRows(base, a) + PdfRows(base, b)
    decreases |a|
  {
    if a != [] {
      assert (a + b)[1..] == a[1..] + b;
      PdfRowsConcat(base, a[1..], b);
    } else {
      assert a + b == b;
    }
  }

  // ---------------------------------------------------------------- extraction

  /** `extract_and_save`: without a client context, then with a blank link or save folder,
      a warning and nothing else. Otherwise the folder is derived, the base link stored,
      the folder listed through the client context, and the rows of its PDFs saved. */
  function Extract(s: Session, link: string, saveDir: string, parse: string -> Outcome<Url>,
                   parseQs: string -> map<string, seq<string>>, unquote: string -> string,
                   quote: string -> string, listFolder: (string, string) -> Outcome<seq<string>>,
                   save: (string, seq<Row>) -> Outcome<string>): (r: Extraction)
    ensures r.shown.session == s.(baseLink := r.shown.session.baseLink)
    ensures forall k :: 0 <= k < |r.rows| ==>
      EndsWith(r.rows[k].name, PdfSuffix) && r.rows[k].link == r.shown.session.baseLink + r.rows[k].name
    ensures r.shown.session.baseLink != s.baseLink ==> StartsWith(r.shown.session.baseLink, s.siteUrl + "/")
  {
    if s.ctx.None? then Extraction(Shown(s, Some(Warning(NotAuthenticated)), []), [])
    else if Strip(link) == [] || Strip(saveDir) == [] then Extraction(Shown(s, Some(Warning(InputMissing)), []), [])
    else
      var failed := (t: Session, status: seq<string>, e: string) =>
        Extraction(Shown(t, Some(Error("Error occurred:\n" + e, "Error")), status + [ErrorStatus]), []);
      match parse(Strip(link))
      case Raises(e) => failed(s, [], e)
      case Ok(url) =>
        match FolderSource(url, parseQs, unquote)
        case Raises(e) => failed(s, [], e)
        case Ok(full) =>
          var folder := FolderPath(full);
          var t := s.(baseLink := BaseLink(s.siteUrl, folder, quote));
          match listFolder(s.ctx.value, folder)
          case Raises(e) => failed(t, [Accessing], e)
          case Ok(names) =>
            var rows := PdfRows(t.baseLink, names);
            if rows == [] then Extraction(Shown(t, Some(Info(NoPdfs, "No PDFs Found")), [Accessing, NoPdfsStatus]), [])
            else match save(Strip(saveDir), rows)
              case Raises(e) => Extraction(Shown(t, Some(Error("Error occurred:\n" + e, "Error")), [Accessing, ErrorStatus]), rows)
              case Ok(file) => Extraction(Shown(t, Some(Info("Excel file created:\n" + file, "Success")), [Accessing, SavedStatus + file]), rows)
  }

  /** Without a client context nothing can be extracted, whatever the other globals hold
      (a first sign-in whose token was refused leaves the site URL set but no context):
      the call only warns, and the session, the status lines and the rows stay as they were. */
  lemma NoContextBlocksExtract(s: Session, link: string, saveDir: string, parse: string -> Outcome<Url>,
                               parseQs: string -> map<string, seq<string>>, unquote: string -> string,
                               quote: string -> string, listFolder: (string, string) -> Outcome<seq<string>>,
                               save: (string, seq<Row>) -> Outcome<string>)
    requires s.ctx.None?
    ensures Extract(s, link, saveDir, parse, parseQs, unquote, quote, listFolder, save)
         == Extraction(Shown(s, Some(Warning(NotAuthenticated)), []), [])
  {
  }

  /** After a logout nothing can be extracted: the call only warns. */
  lemma LogoutBlocksExtract(s: Session, link: string, saveDir: string, parse: string -> Outcome<Url>,
                            parseQs: string -> map<string, seq<string>>, unquote: string -> string,
                            quote: string -> string, listFolder: (string, string) -> Outcome<seq<string>>,
                            save: (string, seq<Row>) -> Outcome<string>)
    ensures Extract(Logout(s).session, link, saveDir, parse, parseQs, unquote, quote, listFolder, save)
         == Extraction(Shown(SignedOut, Some(Warning(NotAuthenticated)), []), [])
  {
  }

  /** With a client context, a link that parses and a folder listing that succeeds, the
      rows offered to the Excel writer are exactly the PDFs of the listed folder, each linked
      under the base link built from the site URL and the quoted folder path. */
  lemma ExtractListsPdfs(s: Session, link: string, saveDir: string, parse: string -> Outcome<Url>,
                         parseQs: string -> map<string, seq<string>>, unquote: string -> string,
                         quote: string -> string, listFolder: (string, string) -> Outcome<seq<string>>,
                         save: (string, seq<Row>) -> Outcome<string>, full: string, names: seq<string>)
    requires s.ctx.Some? && Strip(link) != [] && Strip(saveDir) != []
    requires parse(Strip(link)).Ok?
    requires FolderSource(parse(Strip(link)).value, parseQs, unquote) == Ok(full)
    requires listFolder(s.ctx.value, FolderPath(full)) == Ok(names)
    ensures Extract(s, link, saveDir, parse, parseQs, unquote, quote, listFolder, save).shown.session.baseLink
         == BaseLink(s.siteUrl, FolderPath(full), quote)
    ensures Extract(s, link, saveDir, parse, parseQs, unquote, quote, listFolder, save).rows
         == PdfRows(BaseLink(s.siteUrl, FolderPath(full), quote), names)
    ensures Extract(s, link, saveDir, parse, parseQs, unquote, quote, listFolder, save).rows == [] <==>
      (forall n :: n in names ==> !EndsWith(n, PdfSuffix))
  {
    var base := BaseLink(s.siteUrl, FolderPath(full), quote);
    var rows := PdfRows(base, names);
    if rows == [] {
      forall n | n in names ensures !EndsWith(n, PdfSuffix) {
      }
    } else {
      assert EndsWith(rows[0].name, PdfSuffix) && rows[0].name in names;
    }
  }
}

=== FILE: text.dfy ===
/** The parts of Python's `str` type that the OCR rules rely on: character classes,
    `strip`, `split`, `join`, `splitlines`, substring search, and a leftmost-match
    search that every hand-written pattern matcher shares.

    Character classes cover ASCII. `IsSpace` also counts NEL and NO-BREAK SPACE,
    the two Latin-1 characters Python treats as whitespace. Other Unicode characters
    are not in any class. */
module Text {
  import opened Wrappers

  // ---------------------------------------------------------------- characters

  /** Python's `str.isspace` and the regex class `\s`. */
  predicate IsSpace(c: char) {
    c == ' ' || c == '\t' || c == '\n' || c == '\r' || c == '\U{000B}' || c == '\U{000C}'
    || ('\U{001C}' <= c <= '\U{001F}') || c == '\U{0085}' || c == '\U{00A0}'
  }

  predicate IsDigit(c: char) { '0' <= c <= '9' }
  predicate IsUpper(c: char) { 'A' <= c <= 'Z' }
  predicate IsLower(c: char) { 'a' <= c <= 'z' }
  predicate IsAlpha(c: char) { IsUpper(c) || IsLower(c) }
  predicate IsAlnum(c: char) { IsAlpha(c) || IsDigit(c) }

  /** The regex word class `\w`, used by `\b`. */
  predicate IsWord(c: char) { IsAlnum(c) || c == '_' }

  function ToLower(c: char): (r: char)
    ensures IsUpper(c) ==> IsLower(r) && r as int == c as int + 32
    ensures !IsUpper(c) ==> r == c
  {
    if IsUpper(c) then (c as int + 32) as char else c
  }

  function ToUpper(c: char): (r: char)
    ensures IsLower(c) ==> IsUpper(r) && r as int + 32 == c as int
    ensures !IsLower(c) ==> r == c
  {
    if IsLower(c) then (c as int - 32) as char else c
  }

  /** `str.lower()` on ASCII. */
  function Lower(s: string): (r: string)
    ensures |r| == |s| && forall i :: 0 <= i < |s| ==> r[i] == ToLower(s[i])
  {
    seq(|s|, i requires 0 <= i < |s| => ToLower(s[i]))
  }

  /** `str.upper()` on ASCII. */
  function Upper(s: string): (r: string)
    ensures |r| == |s| && forall i :: 0 <= i < |s| ==> r[i] == ToUpper(s[i])
  {
    seq(|s|, i requires 0 <= i < |s| => ToUpper(s[i]))
  }

  // ---------------------------------------------------------------- prefixes

  predicate StartsWith(s: string, prefix: string) {
    |prefix| <= |s| && s[..|prefix|] == prefix
  }

  predicate EndsWith(s: string, suffix: string) {
    |suffix| <= |s| && s[|s| - |suffix|..] == suffix
  }

  // ---------------------------------------------------------------- trimming

  /** Drops the longest prefix whose characters all satisfy `drop`. */
  function TrimLeft(s: string, drop: char -> bool): (r: string)
    ensures |r| <= |s|
    ensures r == [] || !drop(r[0])
    ensures forall i :: 0 <= i < |s| - |r| ==> drop(s[i])
    decreases |s|
  {
    if s == [] || !drop(s[0]) then s else TrimLeft(s[1..], drop)
  }

  /** What `TrimLeft` keeps is a suffix of its input. */
  lemma {:induction false} TrimLeftSuffix(s: string, drop: char -> bool)
    ensures TrimLeft(s, drop) == s[|s| - |TrimLeft(s, drop)|..]
    decreases |s|
  {
    if s != [] && drop(s[0]) {
      TrimLeftSuffix(s[1..], drop);
    }
  }

  /** Drops the longest suffix whose characters all satisfy `drop`. */
  function TrimRight(s: string, drop: char -> bool): (r: string)
    ensures |r| <= |s|
    ensures r == [] || !drop(r[|r| - 1])
    ensures forall i :: |r| <= i < |s| ==> drop(s[i])
    decreases |s|
  {
    if s == [] || !drop(s[|s| - 1]) then s else TrimRight(s[..|s| - 1], drop)
  }

  /** What `TrimRight` keeps is a prefix of its input. */
  lemma {:induction false} TrimRightPrefix(s: string, drop: char -> bool)
    ensures TrimRight(s, drop) == s[..|TrimRight(s, drop)|]
    decreases |s|
  {
    if s != [] && drop(s[|s| - 1]) {
      TrimRightPrefix(s[..|s| - 1], drop);
    }
  }

  /** No whitespace at either end. */
  predicate Trimmed(s: string) {
    s == [] || (!IsSpace(s[0]) && !IsSpace(s[|s| - 1]))
  }

  /** Python's `str.strip()` with no argument. */
  function Strip(s: string): (r: string)
    ensures |r| <= |s|
    ensures Trimmed(r)
  {
    var left := TrimLeft(s, IsSpace);
    var r := TrimRight(left, IsSpace);
    TrimRightPrefix(left, IsSpace);
    assert r == [] || r[0] == left[0];
    r
  }

  /** The strip is a slice of the input: leading whitespace up to `|s| - |left|`, the
      result, then trailing whitespace. */
  lemma StripShape(s: string)
    ensures var left := TrimLeft(s, IsSpace);
      && |Strip(s)| <= |left| && Strip(s) == left[..|Strip(s)|]
      && left == s[|s| - |left|..]
      && (forall i :: 0 <= i < |s| - |left| ==> IsSpace(s[i]))
      && (forall i :: |Strip(s)| <= i < |left| ==> IsSpace(left[i]))
  {
    TrimLeftSuffix(s, IsSpace);
    TrimRightPrefix(TrimLeft(s, IsSpace), IsSpace);
  }

  /** A string with no whitespace at either end is its own strip. */
  lemma StripClean(s: string)
    requires Trimmed(s)
    ensures Strip(s) == s
  {
  }

  lemma StripIdempotent(s: string)
    ensures Strip(Strip(s)) == Strip(s)
  {
    StripClean(Strip(s));
  }

  /** A stripped string is empty exactly when the input is all whitespace. */
  lemma StripEmptyIffBlank(s: string)
    ensures Strip(s) == [] <==> forall i :: 0 <= i < |s| ==> IsSpace(s[i])
  {
    var left := TrimLeft(s, IsSpace);
    StripShape(s);
    if Strip(s) == [] {
      forall i | 0 <= i < |s| ensures IsSpace(s[i]) {
        if i >= |s| - |left| {
          assert s[i] == left[i - (|s| - |left|)];
        }
      }
    }
  }

  // ---------------------------------------------------------------- searching characters

  /** Index of the first character satisfying `p`. */
  function Find(s: string, p: char -> bool): (r: Option<nat>)
    ensures r.Some? ==> r.value < |s| && p(s[r.value]) && forall j :: 0 <= j < r.value ==> !p(s[j])
    ensures r.None? ==> forall j :: 0 <= j < |s| ==> !p(s[j])
    decreases |s|
  {
    if s == [] then None
    else if p(s[0]) then Some(0)
    else match Find(s[1..], p)
      case None => None
      case Some(i) => Some(i + 1)
  }

  /** Removes every occurrence of `c`, as `s.replace(c, "")` does. */
  function RemoveChar(s: string, c: char): (r: string)
    ensures |r| <= |s|
    ensures c !in r
    ensures forall x :: x in r ==> x in s
    decreases |s|
  {
    if s == [] then []
    else if s[0] == c then RemoveChar(s[1..], c)
    else [s[0]] + RemoveChar(s[1..], c)
  }

  /** `s.replace(a, b)` for single characters. */
  function ReplaceChar(s: string, a: char, b: char): (r: string)
    ensures |r| == |s|
    ensures forall i :: 0 <= i < |s| ==> r[i] == (if s[i] == a then b else s[i])
  {
    seq(|s|, i requires 0 <= i < |s| => if s[i] == a then b else s[i])
  }

  // ---------------------------------------------------------------- split and join

  /** Python's `sep.join(parts)`. */
  function Join(parts: seq<string>, sep: string): string
    decreases |parts|
  {
    if |parts| == 0 then []
    else if |parts| == 1 then parts[0]
    else parts[0] + sep + Join(parts[1..], sep)
  }

  /** Joining two non-empty lists is joining each and putting one separator between. */
  lemma {:induction false} JoinAppend(a: seq<string>, b: seq<string>, sep: string)
    requires |a| >= 1 && |b| >= 1
    ensures Join(a + b, sep) == Join(a, sep) + sep + Join(b, sep)
    decreases |a|
  {
    if |a| > 1 {
      assert (a + b)[1..] == a[1..] + b;
      JoinAppend(a[1..], b, sep);
    } else {
      assert (a + b)[1..] == b;
    }
  }

  /** Python's `s.split(c)` for a one-character separator: always at least one piece,
      no piece holds the separator, and joining the pieces gives back the input. */
  function Split(s: string, c: char): (r: seq<string>)
    ensures |r| >= 1
    ensures forall k :: 0 <= k < |r| ==> c !in r[k]
    ensures Join(r, [c]) == s
    decreases |s|
  {
    match Find(s, x => x == c)
    case None => [s]
    case Some(i) =>
      var rest := Split(s[i + 1..], c);
      assert s == s[..i] + [c] + s[i + 1..];
      assert ([s[..i]] + rest)[1..] == rest;
      [s[..i]] + rest
  }

  /** Splitting a join of separator-free pieces gives the pieces back. */
  lemma {:induction false} SplitJoin(parts: seq<string>, c: char)
    requires |parts| >= 1
    requires forall k :: 0 <= k < |parts| ==> c !in parts[k]
    ensures Split(Join(parts, [c]), c) == parts
    decreases |parts|
  {
    if |parts| == 1 {
      assert Find(parts[0], x => x == c).None?;
    } else {
      var tail := Join(parts[1..], [c]);
      SplitJoin(parts[1..], c);
      SplitStep(parts[0], tail, c);
    }
  }

  /** Splitting at the first separator. */
  lemma SplitStep(head: string, tail: string, c: char)
    requires c !in head
    ensures Split(head + [c] + tail, c) == [head] + Split(tail, c)
  {
    var s := head + [c] + tail;
    assert s[|head|] == c;
    assert Find(s, x => x == c) == Some(|head|) by {
      forall j | 0 <= j < |head| ensures s[j] != c {
        assert s[j] == head[j];
      }
    }
    assert s[|head| + 1..] == tail;
    assert s[..|head|] == head;
  }

  /** Line boundaries recognised by Python's `str.splitlines`. */
  predicate IsLineBoundary(c: char) {
    c == '\n' || c == '\r' || c == '\U{000B}' || c == '\U{000C}' || c == '\U{001C}' || c == '\U{001D}'
    || c == '\U{001E}' || c == '\U{0085}' || c == '\U{2028}' || c == '\U{2029}'
  }

  /** Python's `s.splitlines()`: lines without their terminators, `\r\n` counting as one
      terminator, and no trailing empty line for a terminated last line. */
  function SplitLines(s: string): (r: seq<string>)
    ensures s == [] <==> r == []
    ensures forall k :: 0 <= k < |r| ==> forall j :: 0 <= j < |r[k]| ==> !IsLineBoundary(r[k][j])
    decreases |s|
  {
    if s == [] then []
    else match Find(s, IsLineBoundary)
      case None => [s]
      case Some(i) =>
        var next := if s[i] == '\r' && i + 1 < |s| && s[i + 1] == '\n' then i + 2 else i + 1;
        [s[..i]] + SplitLines(s[next..])
  }

  /** No character of `s` is a line boundary. */
  predicate LineFree(s: string) {
    forall j :: 0 <= j < |s| ==> !IsLineBoundary(s[j])
  }

  /** A line terminator: `\r\n`, or a single line boundary. */
  predicate Terminator(t: string) {
    t == "\r\n" || (|t| == 1 && IsLineBoundary(t[0]))
  }

  /** Non-empty text without a line boundary is a single line. */
  lemma SplitLinesOne(s: string)
    requires s != [] && LineFree(s)
    ensures SplitLines(s) == [s]
  {
  }

  /** A line, its terminator and the rest: the line comes first and the rest is split on its
      own. A lone `\r` must not be followed by `\n`, since the two would be one terminator. */
  lemma SplitLinesAt(a: string, t: string, c: string)
    requires LineFree(a) && Terminator(t)
    requires t == "\r" && c != [] ==> c[0] != '\n'
    ensures SplitLines(a + t + c) == [a] + SplitLines(c)
  {
    var s := a + t + c;
    assert Find(s, IsLineBoundary) == Some(|a|) by {
      assert s[|a|] == t[0];
      assert forall j :: 0 <= j < |a| ==> s[j] == a[j];
    }
    var crlf := s[|a|] == '\r' && |a| + 1 < |s| && s[|a| + 1] == '\n';
    assert crlf <==> t == "\r\n" by {
      if t == "\r\n" {
        assert s[|a|] == t[0] && s[|a| + 1] == t[1];
      } else if |a| + 1 < |s| {
        assert s[|a|] == t[0] && s[|a| + 1] == c[0];
      }
    }
    assert s[..|a|] == a;
    assert s[|a| + |t|..] == c;
  }

  /** Splitting lines joined by `\n` gives them back, when none holds a line boundary and
      the last is not empty (an empty last line would read as a trailing terminator). */
  lemma {:induction false} SplitLinesJoin(lines: seq<string>)
    requires |lines| >= 1 && lines[|lines| - 1] != []
    requires forall k :: 0 <= k < |lines| ==> LineFree(lines[k])
    ensures SplitLines(Join(lines, "\n")) == lines
    decreases |lines|
  {
    if |lines| == 1 {
      assert Join(lines, "\n") == lines[0];
      SplitLinesOne(lines[0]);
      assert lines == [lines[0]];
    } else {
      var rest := lines[1..];
      var tail := Join(rest, "\n");
      assert Join(lines, "\n") == lines[0] + "\n" + tail;
      assert SplitLines(tail) == rest by {
        assert forall k :: 0 <= k < |rest| ==> rest[k] == lines[k + 1];
        SplitLinesJoin(rest);
      }
      SplitLinesCons(lines, tail);
    }
  }

  lemma SplitLinesCons(lines: seq<string>, tail: string)
    requires |lines| >= 2 && LineFree(lines[0]) && SplitLines(tail) == lines[1..]
    ensures SplitLines(lines[0] + "\n" + tail) == lines
  {
    SplitLinesAt(lines[0], "\n", tail);
    assert lines == [lines[0]] + lines[1..];
  }


  // ---------------------------------------------------------------- substrings

  predicate OccursAt(s: string, pat: string, i: nat) {
    i + |pat| <= |s| && s[i..i + |pat|] == pat
  }

  /** `pat`, given in lower case, occurs at `i` when case is ignored. */
  predicate OccursAtCi(s: string, pat: string, i: nat) {
    i + |pat| <= |s| && Lower(s[i..i + |pat|]) == pat
  }

  /** Index of the first occurrence of `pat` at or after `from`. */
  function IndexOfFrom(s: string, pat: string, from: nat): (r: Option<nat>)
    ensures r.Some? ==> from <= r.value && OccursAt(s, pat, r.value)
    ensures r.Some? ==> forall j :: from <= j < r.value ==> !OccursAt(s, pat, j)
    ensures r.None? ==> forall j :: from <= j ==> !OccursAt(s, pat, j)
    decreases |s| - from
  {
    if from + |pat| > |s| then None
    else if OccursAt(s, pat, from) then Some(from)
    else IndexOfFrom(s, pat, from + 1)
  }

  function IndexOf(s: string, pat: string): Option<nat> {
    IndexOfFrom(s, pat, 0)
  }

  /** Python's `pat in s`. */
  predicate Contains(s: string, pat: string) {
    IndexOf(s, pat).Some?
  }

  lemma ContainsIff(s: string, pat: string)
    ensures Contains(s, pat) <==> exists j :: OccursAt(s, pat, j)
  {
  }

  /** Where `s.split(pat)[-1]` starts: just after the last occurrence of `pat`, where
      occurrences are found left to right without overlap, or 0 when there is none. */
  function LastCut(s: string, pat: string): (c: nat)
    requires |pat| > 0
    ensures c <= |s| && !Contains(s[c..], pat)
    ensures Contains(s, pat) <==> c > 0
    ensures c > 0 ==> EndsWith(s[..c], pat)
    decreases |s|
  {
    match IndexOf(s, pat)
    case None =>
      assert s[0..] == s;
      0
    case Some(i) =>
      var c := LastCut(s[i + |pat|..], pat);
      CutStep(s, pat, i, c);
      i + |pat| + c
  }

  /** A cut in what follows the occurrence at `i` is a cut in the whole text. */
  lemma CutStep(s: string, pat: string, i: nat, c: nat)
    requires |pat| > 0 && OccursAt(s, pat, i) && c <= |s| - i - |pat|
    requires !Contains(s[i + |pat|..][c..], pat)
    requires c > 0 ==> EndsWith(s[i + |pat|..][..c], pat)
    ensures !Contains(s[i + |pat| + c..], pat)
    ensures EndsWith(s[..i + |pat| + c], pat)
  {
    assert s[i + |pat|..][c..] == s[i + |pat| + c..];
    var a := s[..i + |pat|];
    if c > 0 {
      var b := s[i + |pat|..][..c];
      assert s[..i + |pat| + c] == a + b;
      assert (a + b)[|a + b| - |pat|..] == b[|b| - |pat|..];
    } else {
      assert a[i..] == s[i..i + |pat|];
    }
  }

  /** `s.split(pat)[-1]`: the text after the last occurrence of `pat`. */
  function AfterLast(s: string, pat: string): (r: string)
    requires |pat| > 0
    ensures |r| <= |s| && r == s[|s| - |r|..]
    ensures !Contains(r, pat)
    ensures Contains(s, pat) ==> EndsWith(s[..|s| - |r|], pat)
    ensures !Contains(s, pat) ==> r == s
  {
    var c := LastCut(s, pat);
    assert c == 0 ==> s[c..] == s;
    s[c..]
  }

  // ---------------------------------------------------------------- leftmost matching

  /** The leftmost start position, at or after `from`, where the matcher `at` succeeds:
      the search that Python's `re.search` performs over start positions. */
  function Leftmost<T>(s: string, at: (string, nat) -> Option<T>, from: nat): (r: Option<nat>)
    ensures r.Some? ==> from <= r.value <= |s| && at(s, r.value).Some?
    ensures r.Some? ==> forall j :: from <= j < r.value ==> at(s, j).None?
    ensures r.None? ==> forall j :: from <= j <= |s| ==> at(s, j).None?
    decreases |s| + 1 - from
  {
    if from > |s| then None
    else if at(s, from).Some? then Some(from)
    else Leftmost(s, at, from + 1)
  }

  /** `p` is the leftmost start position at or after `from` where `at` succeeds. */
  predicate FirstMatch<T>(s: string, at: (string, nat) -> Option<T>, from: nat, p: nat) {
    from <= p <= |s| && at(s, p).Some? && forall q :: from <= q < p ==> at(s, q).None?
  }

  /** The leftmost position is the one where `at` first succeeds. */
  lemma LeftmostIsFirst<T>(s: string, at: (string, nat) -> Option<T>, from: nat, p: nat)
    requires FirstMatch(s, at, from, p)
    ensures Leftmost(s, at, from) == Some(p)
  {
  }

  /** `re.search` with a matcher that gives the match (or its group) at a start position:
      what it gives at the leftmost position where it succeeds. */
  function Search<T>(s: string, at: (string, nat) -> Option<T>): (r: Option<T>)
    ensures r.None? <==> forall p :: 0 <= p <= |s| ==> at(s, p).None?
    ensures r.Some? ==> exists p :: 0 <= p <= |s| && at(s, p) == r && forall q :: 0 <= q < p ==> at(s, q).None?
  {
    match Leftmost(s, at, 0)
    case None => None
    case Some(p) => at(s, p)
  }

  /** A matcher that succeeds somewhere makes the search succeed. */
  lemma SearchFinds<T>(s: string, at: (string, nat) -> Option<T>, p: nat)
    requires p <= |s| && at(s, p).Some?
    ensures Search(s, at).Some?
  {
  }

  /** The first position, at or after `from`, where `at` holds. */
  function FirstAt(s: string, at: (string, nat) -> bool, from: nat): (r: Option<nat>)
    ensures r.Some? ==> from <= r.value <= |s| && at(s, r.value)
    ensures r.Some? ==> forall j :: from <= j < r.value ==> !at(s, j)
    ensures r.None? ==> forall j :: from <= j <= |s| ==> !at(s, j)
    decreases |s| + 1 - from
  {
    if from > |s| then None
    else if at(s, from) then Some(from)
    else FirstAt(s, at, from + 1)
  }

  /** Left fold of `step` over `xs`, starting from `s`. */
  function Fold<S, T>(step: (S, T) -> S, s: S, xs: seq<T>): S
    decreases |xs|
  {
    if xs == [] then s else Fold(step, step(s, xs[0]), xs[1..])
  }

  /** Folding over `a + b` is folding over `a`, then over `b` from where `a` left off. */
  lemma {:induction false} FoldConcat<S, T>(step: (S, T) -> S, s: S, a: seq<T>, b: seq<T>)
    ensures Fold(step, s, a + b) == Fold(step, Fold(step, s, a), b)
    decreases |a|
  {
    if a != [] {
      assert (a + b)[0] == a[0];
      assert (a + b)[1..] == a[1..] + b;
      FoldConcat(step, step(s, a[0]), a[1..], b);
    } else {
      assert a + b == b;
    }
  }

  /** Every character of `s` is in the class `cls`. */
  predicate AllOf(s: string, cls: char -> bool) {
    forall k :: 0 <= k < |s| ==> cls(s[k])
  }

  /** The `n` characters from `q` are all in the class `cls` (`cls{n}` at `q`). */
  predicate Exact(s: string, q: nat, n: nat, cls: char -> bool) {
    q + n <= |s| && forall i :: q <= i < q + n ==> cls(s[i])
  }

  /** Index of the first element satisfying `p`. */
  function FirstWhere<T>(xs: seq<T>, p: T -> bool): (r: Option<nat>)
    ensures r.Some? ==> r.value < |xs| && p(xs[r.value])
    ensures r.Some? ==> forall j :: 0 <= j < r.value ==> !p(xs[j])
    ensures r.None? ==> forall j :: 0 <= j < |xs| ==> !p(xs[j])
    decreases |xs|
  {
    if xs == [] then None
    else if p(xs[0]) then Some(0)
    else match FirstWhere(xs[1..], p)
      case None => None
      case Some(k) => Some(k + 1)
  }

  /** The first element satisfying `p` is the only index the search can return. */
  lemma {:induction false} FirstWhereAt<T>(xs: seq<T>, p: T -> bool, k: nat)
    requires k < |xs| && p(xs[k])
    requires forall j :: 0 <= j < k ==> !p(xs[j])
    ensures FirstWhere(xs, p) == Some(k)
    decreases k
  {
    if k > 0 {
      FirstWhereAt(xs[1..], p, k - 1);
    }
  }

  /** The value of the first `Some` in `xs`. */
  function FirstSome<T>(xs: seq<Option<T>>): (r: Option<T>)
    ensures r.None? <==> forall k :: 0 <= k < |xs| ==> xs[k].None?
    ensures r.Some? ==> r in xs
    ensures forall k :: 0 <= k < |xs| && xs[k].Some? && NoneBefore(xs, k) ==> r == xs[k]
    decreases |xs|
  {
    if xs == [] then None
    else if xs[0].Some? then xs[0]
    else
      var r := FirstSome(xs[1..]);
      assert forall k :: 1 <= k < |xs| && NoneBefore(xs, k) ==> NoneBefore(xs[1..], k - 1);
      r
  }

  predicate NoneBefore<T>(xs: seq<Option<T>>, k: nat)
    requires k <= |xs|
  {
    forall j :: 0 <= j < k ==> xs[j].None?
  }

  /** Length of the longest run of characters satisfying `cls` that starts at `p`. */
  function Run(s: string, p: nat, cls: char -> bool): (n: nat)
    ensures n > 0 ==> p + n <= |s|
    ensures p + n < |s| ==> !cls(s[p + n])
    decreases |s| - p
  {
    if p < |s| && cls(s[p]) then 1 + Run(s, p + 1, cls) else 0
  }

  /** Every character of the run satisfies `cls`. */
  lemma {:induction false} RunChars(s: string, p: nat, cls: char -> bool)
    ensures forall k :: p <= k < p + Run(s, p, cls) ==> k < |s| && cls(s[k])
    decreases |s| - p
  {
    if p < |s| && cls(s[p]) {
      RunChars(s, p + 1, cls);
      var n := Run(s, p, cls);
      assert n == 1 + Run(s, p + 1, cls);
      forall k | p <= k < p + n ensures k < |s| && cls(s[k]) {
        if k > p {
          assert p + 1 <= k < p + 1 + Run(s, p + 1, cls);
        }
      }
    } else {
      assert Run(s, p, cls) == 0;
    }
  }

  /** A run covers every stretch of the class that starts where it starts. */
  lemma {:induction false} RunCovers(s: string, p: nat, m: nat, cls: char -> bool)
    requires Exact(s, p, m, cls)
    ensures Run(s, p, cls) >= m
    decreases m
  {
    if m > 0 {
      RunCovers(s, p + 1, m - 1, cls);
    }
  }

  /** A run reaches past every slice of its class that starts where it starts. */
  lemma RunReaches(s: string, a: nat, b: nat, cls: char -> bool)
    requires a <= b <= |s| && AllOf(s[a..b], cls)
    ensures a + Run(s, a, cls) >= b
  {
    assert Exact(s, a, b - a, cls) by {
      forall k | a <= k < b ensures cls(s[k]) {
        assert s[k] == s[a..b][k - a];
      }
    }
    RunCovers(s, a, b - a, cls);
  }

  /** A run inside a slice that stops before the slice's end is the run in the whole string. */
  lemma {:induction false} RunShift(s: string, g: nat, e: nat, i: nat, cls: char -> bool)
    requires g <= e <= |s| && i <= e - g && i + Run(s[g..e], i, cls) < e - g
    ensures Run(s, g + i, cls) == Run(s[g..e], i, cls)
    decreases e - g - i
  {
    assert s[g..e][i] == s[g + i];
    if cls(s[g + i]) {
      RunShift(s, g, e, i + 1, cls);
    }
  }

  /** Every slice inside a run is of the run's class. */
  lemma RunSlice(s: string, a: nat, b: nat, cls: char -> bool)
    requires a <= |s| && a <= b <= a + Run(s, a, cls)
    ensures b <= |s| && AllOf(s[a..b], cls)
  {
    var u := s[a..b];
    RunChars(s, a, cls);
    forall k | 0 <= k < |u| ensures cls(u[k]) {
      assert u[k] == s[a + k];
    }
  }

  /** The run is a slice of characters of its class. */
  lemma RunAllOf(s: string, p: nat, q: nat, cls: char -> bool)
    requires p <= |s| && q == p + Run(s, p, cls)
    ensures q <= |s| && AllOf(s[p..q], cls)
  {
    var t := s[p..q];
    RunChars(s, p, cls);
    forall k | 0 <= k < |t| ensures cls(t[k]) {
      assert t[k] == s[p + k];
    }
  }

  /** A slice of the class that is followed by the end or by a character outside the
      class is exactly the run. */
  lemma {:induction false} RunOfAll(s: string, p: nat, q: nat, cls: char -> bool)
    requires p <= q <= |s| && AllOf(s[p..q], cls) && (q == |s| || !cls(s[q]))
    ensures Run(s, p, cls) == q - p
    decreases q - p
  {
    if p < q {
      assert s[p..q][0] == s[p];
      assert s[p + 1..q] == s[p..q][1..];
      RunOfAll(s, p + 1, q, cls);
    }
  }

  // ---------------------------------------------------------------- decimal digits

  function DigitChar(d: nat): (c: char)
    requires d < 10
    ensures IsDigit(c)
  {
    ('0' as int + d) as char
  }

  function CharValue(c: char): nat {
    if IsDigit(c) then c as int - '0' as int else 0
  }

  /** Decimal rendering of a natural number, as Python's `str(n)`. */
  function Digits(n: nat): (r: string)
    ensures |r| >= 1
    ensures forall i :: 0 <= i < |r| ==> IsDigit(r[i])
    ensures n > 0 ==> r[0] != '0'
    decreases n
  {
    if n < 10 then [DigitChar(n)] else Digits(n / 10) + [DigitChar(n % 10)]
  }

  /** Numeric value of a string of decimal digits. */
  function DigitsValue(ds: string): nat
    decreases |ds|
  {
    if ds == [] then 0 else DigitsValue(ds[..|ds| - 1]) * 10 + CharValue(ds[|ds| - 1])
  }

  /** Reading back a rendered number gives the number. */
  lemma {:induction false} DigitsRoundTrip(n: nat)
    ensures DigitsValue(Digits(n)) == n
    decreases n
  {
    if n >= 10 {
      var ds := Digits(n);
      assert ds[..|ds| - 1] == Digits(n / 10);
      DigitsRoundTrip(n / 10);
    }
  }
}

=== FILE: wrappers.dfy ===
/** The optional value used wherever the Python code returns `None` or a match object that may be absent. */
module Wrappers {

  datatype Option<+T> = None | Some(value: T) {

    /** The carried value, or `default` when there is none. */
    function GetOr(default: T): T {
      match this
      case Some(v) => v
      case None => default
    }
  }

  function Min(a: int, b: int): int {
    if a <= b then a else b
  }
}
